=== FILE: README.md ===
# Event community front-end: page logic in Dafny

This project models the logic of the pages of a React front-end for an event community: sign-in, registration and the two password-recovery pages, the profile, settings and contact pages, the event list, the event page and the "host an event" form, the member directory, the leaderboard, the home page and the dashboard, the navigation bar, and the shared button, event card and member card.

Each page is one module. Its React state is a datatype. Each handler is a pure function from the state (and the event's data) to the next state. It also returns the list of effects the page asks for outside itself: a navigation, a request, a call into the authentication context, a timer.

Nothing the page cannot see is modelled. The result of a request or of an authentication call is a parameter, and so are the current time, the date parser, the locale's string collation, the locale's time format and `encodeURIComponent`. What the model proves is what the page does with each possible answer.

Lengths are counted as JavaScript's `.length` counts them, in UTF-16 code units. The event form runs its maximum-attendees check as written. A corrected check is kept beside it as a parameter of the same validation and submit, to show the defect under "Findings" and the fix.

Shared pieces:
- `Validation` builds the per-field error maps.
- `EmailRegex` is the `/\S+@\S+\.\S+/` test, with a scanning method proved equal to the pattern.
- `JsNumbers` holds the two string-to-number conversions the event form mixes.
- `Text` covers ECMAScript `trim` over the exact white-space set, ASCII lower-casing and substring search.
- `Lists` covers filtering, counting, stable sorting by key, and the "first n and +k more" previews.
- `Records` holds the member, event and user records.
- `Feed` is the overview the home page and the dashboard both compute.

## Model

| member | source | states |
|---|---|---|
| Validation.EmailRule | src/pages/auth/Login.jsx:40-44 | the email message is 'required' exactly for the empty string, 'invalid' exactly for a non-empty string the pattern rejects, and absent otherwise |
| Validation.PasswordRule | src/pages/auth/Login.jsx:46-50 | 'required' exactly for the empty password, 'too short' exactly for 1 to 5 UTF-16 code units, absent from 6 on |
| Validation.AstralPasswordIsLongEnough | src/pages/auth/Login.jsx:48 | three characters beyond U+FFFF make six code units and pass the length test |
| Validation.ConfirmRule | src/pages/auth/Register.jsx:63-67 | 'please confirm' exactly for an empty confirmation, 'do not match' exactly for a non-empty one that differs, absent when they are equal |
| Validation.RequiredRule | src/pages/Contact.jsx:55-57 | a message exactly when the trimmed value is empty |
| Validation.MinLengthRule | src/pages/auth/Register.jsx:45-49 | 'required' exactly for a blank value, 'too short' exactly for a non-blank value whose trimmed length, in UTF-16 code units, is below the minimum |
| Validation.ClearField | src/pages/auth/Login.jsx:28-33 | typing in a field blanks that field's message if it has one, keeps every other message and adds no key |
| EmailRegex.EmailPattern | src/pages/auth/Login.jsx:42 | the unanchored regular expression as a predicate: some '@' and some later '.' frame a non-space run, with a non-space before the '@' and after the '.' |
| EmailRegex.ScanEmail | src/pages/auth/Login.jsx:42 | the loop finds a match exactly when some non-space run, '@', non-space run, '.', non-space character occurs in the string |
| EmailRegex.NoSpaceInMatch | src/pages/auth/ForgotPassword.jsx:17-19 | a match lies inside one run of non-space characters: the run containing the '.' starts at least one character before the '@' |
| EmailRegex.MatchSurvivesContext | src/pages/auth/ForgotPassword.jsx:17-19 | the test is unanchored: text before or after a matching string keeps it matching |
| EmailRegex.NoAtNoMatch | src/pages/auth/ForgotPassword.jsx:17-19 | a string without '@' never passes |
| EmailRegex.Examples | src/pages/auth/ForgotPassword.jsx:17-19 | 'a@b.co' passes; 'a@b', '@b.co' and 'a@b .co' fail |
| Text.Trim | src/pages/auth/Register.jsx:45 | `trim()` never lengthens the string; `TrimIsInfix` states what it keeps |
| Text.TrimIsInfix | src/pages/events/EventForm.jsx:79-82 | `trim()` keeps a contiguous infix with white space only around it and none at its ends |
| Text.JsLength | src/pages/auth/Register.jsx:47 | `.length` in UTF-16 code units: between the number of characters and twice it, and zero only for the empty string |
| Text.TrimEmptyIffBlank | src/pages/auth/Register.jsx:45 | `trim()` is empty exactly when every character is white space or a line terminator |
| Text.TrimIdempotent | src/pages/events/EventForm.jsx:79-82 | trimming twice is trimming once |
| Text.TrimIsClean | src/pages/events/EventForm.jsx:79-82 | the trim of a non-blank string is non-empty and has no white space at either end |
| Text.Lower | src/pages/Members.jsx:42-43 | lower-casing keeps the length and maps each character on its own |
| Text.EmptyTermMatchesAll | src/pages/Members.jsx:42-43 | an empty search term is found in every text |
| Lists.FilterCounts | src/pages/Members.jsx:41 | `filter` keeps as many copies of a passing element as the list has, and none of a failing one |
| Lists.FilterAllKeeps | src/pages/Members.jsx:41 | a test every element passes leaves the list unchanged |
| Lists.SortByKey | src/pages/Members.jsx:50-61 | the `sort` of the list pages: a permutation, in non-decreasing key order |
| Lists.SortIsStable | src/pages/Members.jsx:50-61 | the sort is stable: the elements sharing any one key appear in the same order as in the input |
| Lists.PreviewAccountsForAll | src/pages/events/EventDetail.jsx:254-267 | the shown entries plus the "+k more" count equal the list's length |
| Records.AttendeeCount | src/components/ui/EventCard.jsx:124 | the attendee count is the list's length, or 0 when the list is absent |
| Common.InitialOr | src/components/ui/MemberCard.jsx:64 | the avatar letter is the first character of a non-empty name and the fallback letter otherwise |
| Common.Gate | src/pages/Settings.jsx:124-136 | a signed-out visitor sees "Access Denied" and a signed-in one the page |
| LoginPage.Validate | src/pages/auth/Login.jsx:37-54 | only email and password can be flagged, each exactly when its rule fails and with that rule's message; no message at all exactly when the form is acceptable |
| LoginPage.SetField | src/pages/auth/Login.jsx:22-25 | the named field takes the value and the others keep theirs |
| LoginPage.HandleChange | src/pages/auth/Login.jsx:20-35 | the field is updated, its old message blanked, other messages kept, and the context's error cleared |
| LoginPage.HandleSubmit | src/pages/auth/Login.jsx:56-66 | the messages become the fresh verdict; the sign-in call is made exactly for an acceptable form, and '/' is reached exactly when that call succeeds |
| LoginPage.SubmitIgnoresStaleErrors | src/pages/auth/Login.jsx:56-66 | whether sign-in is attempted depends on the form alone, not on messages left from an earlier submit |
| RegisterPage.Validate | src/pages/auth/Register.jsx:42-75 | five checks (name, email, password, confirmation, terms), each key present exactly when its check fails and carrying its message; no message exactly when the form is acceptable |
| RegisterPage.HandleChange | src/pages/auth/Register.jsx:25-40 | one field is updated, its message blanked, the rest and the terms box kept, the context's error cleared |
| RegisterPage.SetTerms | src/pages/auth/Register.jsx:306 | the terms box takes the checked value and nothing else changes |
| RegisterPage.Payload | src/pages/auth/Register.jsx:82-83 | the request carries name, email, password and role and leaves the confirmation out |
| RegisterPage.HandleSubmit | src/pages/auth/Register.jsx:77-88 | the register call is made exactly for an acceptable form and carries the payload; '/dashboard' is the only destination, reached exactly on success |
| RegisterPage.RoleDefaultsToMember | src/pages/auth/Register.jsx:10-16 | no sequence of text edits changes the role away from 'member' |
| RegisterPage.InitialRoleIsMember | src/pages/auth/Register.jsx:15 | a registration from the initial form sends role 'member' whatever was typed |
| ForgotPasswordPage.SetEmail | src/pages/auth/ForgotPassword.jsx:185 | the address takes the typed value and the rest is kept |
| ForgotPasswordPage.HandleSubmit | src/pages/auth/ForgotPassword.jsx:21-46 | an empty or malformed address sets the matching message and makes no request; a well-formed one is sent, and the page shows the confirmation on success or the server's message on failure |
| ForgotPasswordPage.TryDifferentEmail | src/pages/auth/ForgotPassword.jsx:101 | "try again" returns to the form and keeps the address |
| ForgotPasswordPage.RetryAfterSuccess | src/pages/auth/ForgotPassword.jsx:39-46 | after a successful send, "try again" restores the form with the same address and no message |
| ResetPasswordPage.OnMount | src/pages/auth/ResetPassword.jsx:25-29 | the page leaves for '/forgot-password' exactly when the link has no token |
| ResetPasswordPage.PasswordVerdict | src/pages/auth/ResetPassword.jsx:51-57 | 'required', 'too short' and 'composition' each exactly in its case, no message exactly for six or more UTF-16 code units passing the three lookaheads |
| ResetPasswordPage.Composition | src/pages/auth/ResetPassword.jsx:55 | the combined lookahead as a predicate: at some position each of the three lookaheads finds its class before any line terminator |
| ResetPasswordPage.SingleLookaheadIsHas | src/pages/auth/ResetPassword.jsx:253-259 | one lookahead of the checklist passes exactly when the password contains a character of its class |
| ResetPasswordPage.CompositionOnOneLine | src/pages/auth/ResetPassword.jsx:55 | on a password without line breaks the combined lookahead means: some lower-case letter, some upper-case letter and some digit |
| ResetPasswordPage.LineBreakSplitsComposition | src/pages/auth/ResetPassword.jsx:55 | the combined lookahead and the checklist disagree on "aB\n1xyz": all three checklist items pass, the combined test fails |
| ResetPasswordPage.ChecklistOf | src/pages/auth/ResetPassword.jsx:250-261 | each checklist item is lit exactly when its test passes, the length item counting UTF-16 code units |
| ResetPasswordPage.NoPasswordErrorIffChecklist | src/pages/auth/ResetPassword.jsx:51-57 | on one line, the password is accepted exactly when the whole checklist is lit |
| ResetPasswordPage.Validate | src/pages/auth/ResetPassword.jsx:48-67 | password and confirmation keys each present exactly when their check fails, with its message; no message exactly when acceptable |
| ResetPasswordPage.HandleChange | src/pages/auth/ResetPassword.jsx:31-46 | one field updated, its message blanked, the rest kept, the page's error cleared |
| ResetPasswordPage.HandleSubmit | src/pages/auth/ResetPassword.jsx:69-86 | a rejected form only refreshes the messages; an accepted one sends token and password, then shows success or the server's error, and loading ends false |
| ProfilePage.FormFromUser | src/pages/Profile.jsx:32-41 | every detail is the user's value or '' when absent, and the three password fields start empty |
| ProfilePage.SyncFromUser | src/pages/Profile.jsx:52-66 | a present user refills the form from the user; no user leaves the state alone |
| ProfilePage.DetailErrors | src/pages/Profile.jsx:99-107 | name is flagged exactly when empty and email exactly when the pattern fails, with their messages, and nothing else is flagged |
| ProfilePage.Validate | src/pages/Profile.jsx:96-125 | the password checks apply only while editing with a new password; each key is present exactly when its check fails; no message exactly when acceptable |
| ProfilePage.MakeUpdate | src/pages/Profile.jsx:134-145 | the five details are always sent; the current and new passwords are sent exactly when a new one is typed |
| ProfilePage.HandleSubmit | src/pages/Profile.jsx:127-156 | a rejected form makes no request; an accepted one is sent, leaves edit mode on success, and shows the 'submit' message alone on failure |
| ProfilePage.HandleChange | src/pages/Profile.jsx:81-94 | one field updated, its message blanked, the rest and edit mode kept |
| ProfilePage.StartEditing | src/pages/Profile.jsx:223 | the edit button enters edit mode and changes nothing else |
| ProfilePage.HandleCancel | src/pages/Profile.jsx:158-171 | cancel refills the form from the user, drops every message and leaves edit mode |
| ProfilePage.CancelDiscardsEdits | src/pages/Profile.jsx:158-171 | an edit followed by cancel is the same as cancel alone |
| ProfilePage.CancelledFormValidates | src/pages/Profile.jsx:158-171 | for a user with a name and a well-formed email, the form cancel restores passes validation |
| ProfilePage.Render | src/pages/Profile.jsx:173-185 | a signed-out visitor sees "Access Denied" |
| EventFormPage.Render | src/pages/events/EventForm.jsx:42-46 | a signed-out visitor gets nothing rendered (not the "Access Denied" screen) and is sent to '/login'; a signed-in one gets the form |
| EventFormPage.AddTag | src/pages/events/EventForm.jsx:78-86 | a non-blank, new trimmed tag is appended and the input emptied; otherwise nothing changes; tags stay trimmed, non-empty and distinct |
| EventFormPage.AppendKeepsWellFormed | src/pages/events/EventForm.jsx:79-82 | appending a trimmed, non-blank tag not yet present keeps the list well formed |
| EventFormPage.RemoveTag | src/pages/events/EventForm.jsx:88-93 | the removed tag is gone, every other tag stays in order, and nothing else changes |
| EventFormPage.SetNewTag | src/pages/events/EventForm.jsx:398 | the tag input takes the typed value and the form is unchanged |
| EventFormPage.TagsStayWellFormed | src/pages/events/EventForm.jsx:78-93 | any sequence of add, remove and typing keeps the tags trimmed, non-empty and distinct |
| EventFormPage.InitialTagsStayWellFormed | src/pages/events/EventForm.jsx:34 | from the empty initial list, the tags are always well formed |
| EventFormPage.MaxAttendeesAsWritten | src/pages/events/EventForm.jsx:120-122 | the check as written: a non-empty value is refused exactly when `Number` of it is NaN or below one |
| EventFormPage.SubmittedMaxAttendees | src/pages/events/EventForm.jsx:139 | an empty value is left out of the request; any other is sent as `parseInt` of it |
| EventFormPage.AsWrittenSubmitsZero | src/pages/events/EventForm.jsx:120-139 | "0.5e1" passes the check as written but is submitted as 0, and the corrected check refuses it |
| EventFormPage.MaxAttendeesRule | src/pages/events/EventForm.jsx:120-122 | a value the corrected check accepts is submitted as a whole number of at least one, and is also accepted by the check as written |
| EventFormPage.RulesAgreeOnDigits | src/pages/events/EventForm.jsx:120-122 | on plain decimal digits the corrected check and the check as written agree |
| EventFormPage.DateRule | src/pages/events/EventForm.jsx:110-114 | 'required' exactly for an empty date, 'in the past' exactly for a parsable date before now, no message otherwise (an unparsable date passes) |
| EventFormPage.CorrectedOnlyNarrows | src/pages/events/EventForm.jsx:120-122 | every form the corrected check accepts is also accepted by the page as written |
| EventFormPage.TextErrors | src/pages/events/EventForm.jsx:98-118 | title, description, date and location each flagged exactly when their check fails, with the right message, lengths in UTF-16 code units |
| EventFormPage.TextErrorsNoneIffAcceptable | src/pages/events/EventForm.jsx:98-118 | the four text checks leave no message exactly when title, description, date and location are all acceptable |
| EventFormPage.Validate | src/pages/events/EventForm.jsx:95-126 | the text checks plus the chosen maximum check (the page's own is `AsWritten`), each key exactly when its check fails; no message exactly when the form is acceptable |
| EventFormPage.SetField | src/pages/events/EventForm.jsx:63-66 | the named field takes the value, the others and the tags keep theirs |
| EventFormPage.HandleChange | src/pages/events/EventForm.jsx:61-76 | one field updated, its message blanked, the rest kept, the success line cleared |
| EventFormPage.MakeEventData | src/pages/events/EventForm.jsx:137-140 | the request carries every field as typed, with the maximum converted by `parseInt` |
| EventFormPage.HandleSubmit | src/pages/events/EventForm.jsx:128-157 | under the chosen maximum check, a rejected form makes no request; an accepted one is posted, then either schedules the move to the new event or shows the 'submit' message alone |
| EventFormPage.SubmittedMaximumIsPositive | src/pages/events/EventForm.jsx:137-140 | under the corrected check, an accepted, non-empty maximum is sent as a whole number of at least one |
| EventFormPage.ShippedPagePostsZero | src/pages/events/EventForm.jsx:120-140 | the page as written posts an otherwise valid form whose maximum is "0.5e1", with a maximum of 0 in the request; the corrected check refuses that form |
| EventFormPage.SaveDraft | src/pages/events/EventForm.jsx:159-163 | the form is stored as it stands, unvalidated, the notice is shown and nothing else changes |
| EventFormPage.DraftNoticeClearedByEdit | src/pages/events/EventForm.jsx:75 | the next edit clears the draft notice |
| ContactPage.Validate | src/pages/Contact.jsx:52-77 | name, email, subject and message each flagged exactly when their check fails, with the right message; none exactly when acceptable |
| ContactPage.SetField | src/pages/Contact.jsx:36-39 | the named field takes the value and the others keep theirs |
| ContactPage.HandleChange | src/pages/Contact.jsx:34-50 | one field updated, its message blanked, the rest kept, both banners cleared |
| ContactPage.HandleSubmit | src/pages/Contact.jsx:79-105 | a rejected form only refreshes the messages; an accepted one shows the thank-you line and empties the form |
| ContactPage.SecondSubmitIsRejected | src/pages/Contact.jsx:92-98 | after a successful send the emptied form is refused, starting with 'Name is required' |
| SettingsPage.Change | src/pages/Settings.jsx:79-84 | the key takes the value, every other preference is kept, and the message is untouched |
| SettingsPage.ChangeTimeout | src/pages/Settings.jsx:436 | the timeout takes `parseInt` of the typed text: NaN for a cleared field, the decimal value for plain digits; every other preference is kept |
| SettingsPage.ClearedTimeoutIsSent | src/pages/Settings.jsx:86-100 | after the timeout field is cleared, the save sends NaN as the timeout |
| SettingsPage.Reset | src/pages/Settings.jsx:102-122 | every preference returns to its default |
| SettingsPage.ResetIdempotent | src/pages/Settings.jsx:102-122 | resetting twice equals resetting once, and a reset forgets any earlier change |
| SettingsPage.DefaultsNameEveryPreference | src/pages/Settings.jsx:33-60 | the defaults name every one of the seventeen preferences, with a 30-minute timeout and the dark theme |
| SettingsPage.Merge | src/pages/Settings.jsx:73 | the server's values win, and a default survives where the server sent nothing |
| SettingsPage.ApplyFetch | src/pages/Settings.jsx:70-77 | a failed fetch keeps the settings; a successful one overlays the response on the defaults |
| SettingsPage.FetchKeepsKnownKeys | src/pages/Settings.jsx:73 | a response naming only known preferences adds no key |
| SettingsPage.HandleSave | src/pages/Settings.jsx:86-100 | the settings are sent, the success or failure message and its type are set, loading ends false and clearing is scheduled |
| SettingsPage.ClearMessage | src/pages/Settings.jsx:98 | the scheduled clear empties the message only |
| SettingsPage.Render | src/pages/Settings.jsx:124-136 | a signed-out visitor sees "Access Denied" |
| MembersPage.Matches | src/pages/Members.jsx:41-46 | the search and role tests: the term occurs in the lower-cased name or email, and the role filter is 'all' or equals the role |
| MembersPage.Filtered | src/pages/Members.jsx:41-48 | a member is kept exactly when the term occurs in the lower-cased name or email and the role filter matches; every copy of a kept member stays and order is kept |
| MembersPage.EmptySearchKeepsEveryone | src/pages/Members.jsx:41-48 | with no term and 'all' roles, the filtered list is the fetched list itself |
| MembersPage.SortKey | src/pages/Members.jsx:50-61 | 'events' orders by hosted count, most first; an unknown order compares everything equal |
| MembersPage.Sorted | src/pages/Members.jsx:50-61 | the result is a permutation, sorted by the key, members with equal keys keep their filtered order, and an unknown order keeps the list as it is |
| MembersPage.EventsSortIsNonIncreasing | src/pages/Members.jsx:56-57 | sorted by events, hosted counts never increase down the list |
| MembersPage.StatsOf | src/pages/Members.jsx:70-75 | the total and the exact-match counts of admins, organizers and members, which together never exceed the total |
| EventListPage.MatchesSearch | src/pages/events/EventList.jsx:50-52 | the term occurs in the lower-cased title, description or location |
| EventListPage.MatchesCategory | src/pages/events/EventList.jsx:54-57 | 'all', the event's own category, 'upcoming' for an event after now and 'past' for one before now |
| EventListPage.NowIsNeitherUpcomingNorPast | src/pages/events/EventList.jsx:56-57 | an event dated exactly now is in neither 'upcoming' nor 'past' but is listed under 'all' |
| EventListPage.Filtered | src/pages/events/EventList.jsx:49-60 | an event is kept exactly when the term occurs in its title, description or location and the category filter matches; every copy of a kept event stays and order is kept |
| EventListPage.EmptySearchKeepsEveryEvent | src/pages/events/EventList.jsx:49-60 | with no term and category 'all', the filtered list is the fetched list itself |
| EventListPage.SortKey | src/pages/events/EventList.jsx:62-73 | 'date' orders by date, 'attendees' by count with the largest first, an unknown order compares all equal |
| EventListPage.Sorted | src/pages/events/EventList.jsx:62-73 | a permutation of the filtered list, sorted by the key, events with equal keys in their filtered order; an unknown order keeps it |
| EventListPage.SortOrders | src/pages/events/EventList.jsx:64-69 | by date, dates never decrease; by attendees, counts never increase |
| EventListPage.ShownNeverExceedsTotal | src/pages/events/EventList.jsx:218 | "Showing n of m" never has n above m |
| EventListPage.StatsOf | src/pages/events/EventList.jsx:291-320 | total, summed attendees (never negative), upcoming count and distinct locations, the last two bounded by the total |
| EventListPage.AttendeesAddUp | src/pages/events/EventList.jsx:300 | one more event adds exactly its attendee count to the total |
| LeaderboardPage.ApplyFetch | src/pages/Leaderboard.jsx:32-50 | loading ends either way; a failure keeps the board, a success fills the three tabs |
| LeaderboardPage.SelectTab | src/pages/Leaderboard.jsx:127 | the tab changes and the board is kept |
| LeaderboardPage.Current | src/pages/Leaderboard.jsx:94 | the active tab's list, or an empty list for an unknown tab |
| LeaderboardPage.FailedFetchShowsNothing | src/pages/Leaderboard.jsx:20-50 | after a failed fetch every tab shows an empty list |
| LeaderboardPage.RankIcon | src/pages/Leaderboard.jsx:58-71 | crown, medal and award for ranks 1 to 3, the number itself for any other rank |
| LeaderboardPage.RankColor | src/pages/Leaderboard.jsx:73-84 | the default colour exactly for ranks outside 1 to 3 |
| LeaderboardPage.PodiumIsDistinct | src/pages/Leaderboard.jsx:58-84 | the three podium ranks get three different icons and colours |
| LeaderboardPage.RowOf | src/pages/Leaderboard.jsx:169-239 | highlighted exactly for rank 3 or better, champion badge only for rank 1, active and elite badges above 10 hosted and 1000 points, the fallbacks for missing fields |
| LeaderboardPage.Rows | src/pages/Leaderboard.jsx:168-169 | one row per member, the i-th with rank i+1 |
| LeaderboardPage.RanksAreOneToN | src/pages/Leaderboard.jsx:168-177 | the ranks are exactly 1 to n in increasing order, only the first row is champion, and only the first three are highlighted |
| EventDetailPage.ApplyFetch | src/pages/events/EventDetail.jsx:39-50 | a failure shows "Event not found"; a success loads the event, with the registered flag set exactly when some attendee's id equals the user's |
| EventDetailPage.WithAttendee | src/pages/events/EventDetail.jsx:68-70 | the list grows by one, keeps its old entries as a prefix and ends with the new entry; the rest of the event is unchanged |
| EventDetailPage.Register | src/pages/events/EventDetail.jsx:52-76 | a signed-out visitor goes to '/login'; otherwise the request is made, an acceptance marks the visitor registered and appends them, a refusal shows the server's message or the default |
| EventDetailPage.RegistrationMatchesRefetch | src/pages/events/EventDetail.jsx:43 | after an accepted registration a fresh fetch would also find the visitor registered |
| EventDetailPage.Attendees | src/pages/events/EventDetail.jsx:248-270 | shown exactly for a non-empty list, at most twelve entries, the "+k more" chip exactly above twelve |
| EventDetailPage.AttendeeInitial | src/pages/events/EventDetail.jsx:258 | one character: the name's first, or 'A' for a missing or empty name |
| EventDetailPage.ButtonView | src/pages/events/EventDetail.jsx:317-321 | the button is shown exactly when the event is not past, disabled exactly when registered, spinning exactly while registering |
| EventDetailPage.RegisteredButtonIsDisabled | src/pages/events/EventDetail.jsx:317-321 | after an accepted registration for a future event the button is shown, disabled and idle |
| EventDetailPage.ButtonProps | src/pages/events/EventDetail.jsx:317-327 | the button's loading and disabled props are the registering and registered flags |
| EventDetailPage.ButtonIsInertWhileRegisteredOrPending | src/pages/events/EventDetail.jsx:317-321 | the rendered button refuses clicks exactly while registered or pending and spins only while pending |
| Feed.CountsOf | src/pages/Home.jsx:52-57 | the totals are the list lengths, the upcoming and active counts are exact counts bounded by their totals |
| Feed.UpcomingCountsExactly | src/pages/Home.jsx:55 | an event is counted as upcoming exactly when it is dated after now |
| Feed.OverviewOf | src/pages/Home.jsx:49-57 | the first six events and first four members, in order, with counts over the full lists |
| Feed.ApplyFetch | src/pages/Home.jsx:42-63 | a failure keeps what was there; a success replaces it with the overview |
| Feed.FailureKeepsZeros | src/pages/Home.jsx:31-36 | a failed first fetch leaves every count at zero |
| HomePage.ApplyFetch | src/pages/Home.jsx:42-63 | loading ends either way; the overview is replaced only on success |
| HomePage.FirstFetchSettles | src/pages/Home.jsx:42-63 | the first fetch always settles, and a failure shows zeros |
| DashboardPage.UserPoints | src/pages/Dashboard.jsx:65 | the user's points, or 0 without a user or points |
| DashboardPage.UserRank | src/pages/Dashboard.jsx:66 | the user's rank, or 0 without a user or rank |
| DashboardPage.ApplyFetch | src/pages/Dashboard.jsx:50-73 | a failure only ends loading; a success sets the overview and the user's points and rank |
| DashboardPage.AgreesWithHome | src/pages/Dashboard.jsx:57-64 | on the same responses the dashboard's lists and counts equal the home page's |
| NavbarPage.SetOpen | src/components/layout/Navbar.jsx:21-24 | one panel is opened or closed, the others and the search term are kept |
| NavbarPage.Toggle | src/components/layout/Navbar.jsx:104 | a toggle negates its panel only |
| NavbarPage.ToggleTwiceRestores | src/components/layout/Navbar.jsx:104 | the same toggle twice restores the bar, and toggles of different panels commute |
| NavbarPage.SetSearchTerm | src/components/layout/Navbar.jsx:124 | the term changes and no panel moves |
| NavbarPage.HandleSearch | src/components/layout/Navbar.jsx:36-43 | a blank term does nothing; otherwise the untrimmed, encoded term goes to the events page and the box closes and empties |
| NavbarPage.SearchIsNotRepeated | src/components/layout/Navbar.jsx:38-41 | submitting again right after a search goes nowhere |
| NavbarPage.IsActive | src/components/layout/Navbar.jsx:58 | a link is highlighted exactly on its own path |
| NavbarPage.AtMostOneActive | src/components/layout/Navbar.jsx:51-58 | at most one of the four links is highlighted |
| NavbarPage.HandleLogout | src/components/layout/Navbar.jsx:30-34 | sign out, go to '/', close the profile dropdown, keep the rest |
| CardStyle.VariantStyle | src/components/ui/MemberCard.jsx:14-25 | an unknown variant gets the default card style |
| MemberCard.KindOf | src/components/ui/MemberCard.jsx:28 | the role is classified by its lower-cased form; any other value is unrecognised |
| MemberCard.RoleColor | src/components/ui/MemberCard.jsx:27-38 | the gray colour exactly for an unrecognised role |
| MemberCard.RoleIcon | src/components/ui/MemberCard.jsx:40-51 | the default icon exactly for an unrecognised role |
| MemberCard.RoleBadgeIgnoresCase | src/components/ui/MemberCard.jsx:27-51 | roles equal up to ASCII case get the same colour and icon |
| MemberCard.KindsAreDistinct | src/components/ui/MemberCard.jsx:27-51 | different role kinds never share a colour or an icon |
| MemberCard.CapitalisedAdminIsBadgedButUncounted | src/components/ui/MemberCard.jsx:28 | 'Admin' wears the admin badge although the members page counts only exact 'admin' |
| MemberCard.Achievements | src/components/ui/MemberCard.jsx:125-141 | shown exactly for a non-empty list, the first three in order, "+k more" exactly above three |
| MemberCard.Render | src/components/ui/MemberCard.jsx:53-144 | the fallbacks 'M', 'Member' and 0 for missing fields, and a contact line exactly for a present field |
| MemberCard.MissingRoleFallsBack | src/components/ui/MemberCard.jsx:71-81 | a member without a role gets the gray badge and the 'Member' label |
| EventCard.FormatTime | src/components/ui/EventCard.jsx:26-34 | an empty time formats to '' and any other goes through the locale's time format |
| EventCard.DetailsLink | src/components/ui/EventCard.jsx:155 | the link is '/events/' followed by the event's id |
| EventCard.DetailsLinkDeterminesId | src/components/ui/EventCard.jsx:155 | two cards with the same link show events with the same id |
| EventCard.Render | src/components/ui/EventCard.jsx:36-138 | featured badge exactly for 'featured', description unless 'compact', time and location exactly when present, attendee count, organizer line with 'O' fallback |
| EventCard.BadgeAndDescription | src/components/ui/EventCard.jsx:73-104 | a featured card always shows its description |
| Button.VariantOf | src/components/ui/Button.jsx:17-34 | each of the five named variants is recognised exactly by its name, and anything else is primary |
| Button.VariantClass | src/components/ui/Button.jsx:17-34 | an unknown variant gets the primary class |
| Button.SizeClass | src/components/ui/Button.jsx:36-49 | the three other sizes get their classes, anything else the medium one |
| Button.FallbacksMatchDefaults | src/components/ui/Button.jsx:31-47 | an unknown variant looks like 'primary' and an unknown size like 'md' |
| Button.Render | src/components/ui/Button.jsx:51-81 | disabled exactly when asked or loading, animated exactly when enabled, spinner exactly while loading, each icon only on its side when not loading |
| Button.AtMostOneIndicator | src/components/ui/Button.jsx:69-81 | never both icons, never an icon with the spinner, never animated while loading |
| JsNumbers.ToNumber | src/pages/events/EventForm.jsx:120 | `Number` of a blank string is 0 |
| JsNumbers.ParseInt | src/pages/events/EventForm.jsx:139 | `parseInt` of a blank string is NaN |
| JsNumbers.HalfTimesTenDecimal | src/pages/events/EventForm.jsx:120 | "0.5e1" read as a decimal literal is 5 |
| JsNumbers.HalfTimesTenNumber | src/pages/events/EventForm.jsx:120 | `Number("0.5e1")` is 5 |
| JsNumbers.HalfTimesTenParseInt | src/pages/events/EventForm.jsx:139 | `parseInt("0.5e1")` stops at the '.' and is 0 |
| JsNumbers.ParseIntIsWhole | src/pages/events/EventForm.jsx:139 | `parseInt` is never infinite and is always a whole number when finite |
| JsNumbers.PlainDigitsAgree | src/pages/events/EventForm.jsx:120-139 | on plain decimal digits `Number` and `parseInt` give the same value |

## Left out

- The authentication context (`AuthContext`) and the route guard are not part of this model. Their `login`, `register`, `forgotPassword`, `resetPassword` and `logout` calls are effects, and what they resolve to is a parameter.
- Network requests, `Promise.all` and `setTimeout` are not modelled. Each request's outcome is a parameter, and a timer is an effect (`ClearMessageLater`, `NavigateLater`). The time between a request and its answer, and handlers interleaving with it, are not modelled.
- `localStorage` is not modelled: `handleSaveDraft` emits a `StoreDraft` effect.
- Dates are integers. `new Date(...)`, "now" and the date parser are parameters. Invalid dates (NaN comparisons) appear only through the parser returning None.
- `toLocaleDateString` and `toLocaleTimeString` are parameters, and `formatDate` is left out.
- `localeCompare` is replaced by a caller-supplied integer collation key. A collation that is not a total preorder on strings is not modelled.
- `toLowerCase` is modelled for ASCII letters only. Other Unicode case mappings are left out.
- `encodeURIComponent` is a parameter.
- Numbers are exact rationals: rounding to double precision and `Number`'s handling of very long digit strings are not modelled.
- App.jsx and the footer are routing and static layout, and are not modelled.
- Show/hide password toggles, animations, icons and the page text are presentation only. Class strings are modelled only where a variant or size chooses them.
- Profile's `fetchUserData` (achievements and stats) is not modelled. Nothing in the page's logic reads them.
- Contact's `catch` branch is left out: the simulated request never fails.
- SettingsPage.DefaultsNameEveryPreference: states which keys the defaults contain and two of their values, not all seventeen values.
- ResetPasswordPage.NoPasswordErrorIffChecklist: proved only for a password without line terminators, because the combined lookahead cannot reach past a line break (ResetPasswordPage.LineBreakSplitsComposition shows the difference).
- EventDetailPage.Register: takes the signed-in user as a record, because an authenticated page always has one. The exception `user.id` would throw on a missing user is not modelled.
- The leaderboard header's lookup of the active tab's label and icon is not modelled; it is presentation only.
- The member card's join date is not modelled; it is a locale-formatted date.
- Common.InitialOr: `charAt(0)` yields the first UTF-16 code unit, which for a name starting beyond U+FFFF is half a surrogate pair. A Dafny character is a whole Unicode scalar value, so the model yields the whole first character there. Leaderboard rows, the member card and the event card's organizer use this function.
- EventDetailPage.AttendeeInitial: the same `charAt(0)` difference as `Common.InitialOr`.
- A member's name and email and an event's title, description and location are assumed present. The searches call `toLowerCase` on them, which throws on a missing value; that exception is not modelled.
- MembersPage.SortKey: a member's role is assumed present. Sorting by role calls `a.role.localeCompare(b.role)`, which throws on a missing role; that exception is not modelled, and an absent role sorts as ''.
- SettingsPage.Key: `Other(name)` is assumed never to carry one of the seventeen known property names, which have their own constructors.
- The 'loading' spinners before the first fetch settles are presentation only. Each `ApplyFetch` states that loading ends.

## Findings

| source | as written | input that shows it | evidently intended | confidence | as-written member | corrected member |
|---|---|---|---|---|---|---|
| src/pages/events/EventForm.jsx:120-139 | the maximum-attendees check converts the text with `Number` (through `isNaN` and `< 1`), but the request sends `parseInt` of it | "0.5e1": `Number` gives 5, so the check passes, while `parseInt` stops at '.' and sends 0 | every accepted value is sent as a whole number of at least one | not executed | EventFormPage.ShippedPagePostsZero | EventFormPage.SubmittedMaximumIsPositive |

=== FILE: button.dfy ===
/** The shared button: its classes by variant and size, when it is disabled and
    animated, and where the spinner and the icon go. */
module Button {
  const PrimaryClass := "btn-primary"
  const MediumClass := "py-3 px-6"

  /** The six variants the button knows. */
  datatype Variant = Primary | Secondary | Accent | Ghost | Danger | Success

  /** The `switch (variant)` of `getVariantStyles`: any value but the six names falls
      to the `default` branch, which draws the primary style. */
  function VariantOf(variant: string): (v: Variant)
    ensures v == Secondary <==> variant == "secondary"
    ensures v == Accent <==> variant == "accent"
    ensures v == Ghost <==> variant == "ghost"
    ensures v == Danger <==> variant == "danger"
    ensures v == Success <==> variant == "success"
    ensures v == Primary <==> variant !in {"secondary", "accent", "ghost", "danger", "success"}
  {
    if variant == "secondary" then Secondary
    else if variant == "accent" then Accent
    else if variant == "ghost" then Ghost
    else if variant == "danger" then Danger
    else if variant == "success" then Success
    else Primary
  }

  /** The class string of each variant. */
  function ClassOf(v: Variant): string {
    match v
    case Primary => PrimaryClass
    case Secondary => "btn-secondary"
    case Accent => "btn-accent"
    case Ghost => "bg-transparent hover:bg-dark-700/50 text-gray-300 hover:text-white border border-transparent hover:border-dark-600"
    case Danger => "bg-gradient-to-r from-red-600 to-red-700 hover:from-red-700 hover:to-red-800 text-white font-semibold py-3 px-6 rounded-xl transition-all duration-300 transform hover:scale-105 hover:shadow-lg focus:outline-none focus:ring-2 focus:ring-red-500 focus:ring-offset-2 focus:ring-offset-dark-900"
    case Success => "bg-gradient-to-r from-green-600 to-green-700 hover:from-green-700 hover:to-green-800 text-white font-semibold py-3 px-6 rounded-xl transition-all duration-300 transform hover:scale-105 hover:shadow-lg focus:outline-none focus:ring-2 focus:ring-green-500 focus:ring-offset-2 focus:ring-offset-dark-900"
  }

  /** `getVariantStyles`: an unknown variant gets the primary style. */
  function VariantClass(variant: string): (c: string)
    ensures variant !in {"secondary", "accent", "ghost", "danger", "success"} ==> c == PrimaryClass
  {
    ClassOf(VariantOf(variant))
  }

  /** `getSizeStyles`: four named sizes; any other value falls back to the medium one. */
  function SizeClass(size: string): (c: string)
    ensures size !in {"sm", "lg", "xl"} ==> c == MediumClass
    ensures size == "sm" ==> c == "py-2 px-4 text-sm"
    ensures size == "lg" ==> c == "py-4 px-8 text-lg"
    ensures size == "xl" ==> c == "py-5 px-10 text-xl"
  {
    match size
    case "sm" => "py-2 px-4 text-sm"
    case "md" => MediumClass
    case "lg" => "py-4 px-8 text-lg"
    case "xl" => "py-5 px-10 text-xl"
    case _ => MediumClass
  }

  /** An unknown variant looks like 'primary' and an unknown size like 'md'. */
  lemma FallbacksMatchDefaults(variant: string, size: string)
    requires variant !in {"primary", "secondary", "accent", "ghost", "danger", "success"}
    requires size !in {"sm", "md", "lg", "xl"}
    ensures VariantOf(variant) == VariantOf("primary") == Primary
    ensures SizeClass(size) == SizeClass("md") == MediumClass
  {
  }

  /** The props the logic reads; `hasIcon` says whether an icon component was given. */
  datatype Props = Props(
    variant: string,
    size: string,
    loading: bool,
    disabled: bool,
    hasIcon: bool,
    iconPosition: string)

  /** What the button renders besides its label. */
  datatype View = View(
    variantClass: string,
    sizeClass: string,
    isDisabled: bool,
    animated: bool,
    spinner: bool,
    leftIcon: bool,
    rightIcon: bool)

  /** The rendered button: disabled while loading or when asked; hover and tap
      animations only when enabled; the spinner exactly while loading; the icon on its
      side only when not loading, and on neither side for any position but 'left' and
      'right'. */
  function Render(p: Props): (v: View)
    ensures v.variantClass == VariantClass(p.variant) && v.sizeClass == SizeClass(p.size)
    ensures v.isDisabled <==> p.disabled || p.loading
    ensures v.animated <==> !v.isDisabled
    ensures v.spinner <==> p.loading
    ensures v.leftIcon <==> !p.loading && p.hasIcon && p.iconPosition == "left"
    ensures v.rightIcon <==> !p.loading && p.hasIcon && p.iconPosition == "right"
  {
    var isDisabled := p.disabled || p.loading;
    View(
      VariantClass(p.variant), SizeClass(p.size),
      isDisabled, !isDisabled, p.loading,
      !p.loading && p.hasIcon && p.iconPosition == "left",
      !p.loading && p.hasIcon && p.iconPosition == "right")
  }

  /** At most one of the spinner and the two icon slots is filled, and a loading button
      is never animated. */
  lemma AtMostOneIndicator(p: Props)
    ensures !(Render(p).leftIcon && Render(p).rightIcon)
    ensures Render(p).spinner ==> !Render(p).leftIcon && !Render(p).rightIcon
    ensures p.loading ==> !Render(p).animated
  {
  }
}

=== FILE: card_style.dfy ===
/** The frame both cards draw, chosen by their `variant` property. */
module CardStyle {
  const DefaultStyle := "card-hover"

  /** `getVariantStyles`, which the member card and the event card define with the same
      table: three named variants; anything else, 'default' included, gets the plain
      hover card. */
  function VariantStyle(variant: string): (style: string)
    ensures variant !in {"featured", "compact", "minimal"} ==> style == DefaultStyle
  {
    match variant
    case "featured" => "card-hover border-primary-500/30 hover:border-primary-500/50"
    case "compact" => "card p-4"
    case "minimal" => "bg-transparent border-0 p-0 hover:bg-dark-800/30 rounded-lg p-4 transition-all duration-300"
    case _ => DefaultStyle
  }
}

=== FILE: common.dfy ===
/** Value types shared by every page model: optional values, a handler's step result,
    the `{success, error}` record the authentication calls return, and the sign-in gate
    that Profile and Settings render. */
module Common {

  /** A value that may be absent (`undefined` or `null` in the application). */
  datatype Option<+T> = None | Some(value: T) {
    /** `o ?? default`: the value when present, otherwise the default. */
    function GetOr(default: T): T {
      match this
      case Some(v) => v
      case None => default
    }
  }

  /** What a React handler does in one go: the next page state, and the effects it
      asks for (API calls, navigation), in the order it asks for them. */
  datatype Step<S, E> = Step(state: S, effects: seq<E>)

  /** The result record the authentication operations resolve to. Their internals are
      not part of this model: every handler receives this record as an input. */
  datatype AuthResult = AuthResult(success: bool, error: string)

  /** `s || ''` for an optional string: absent and empty both read as empty. */
  function OrEmpty(s: Option<string>): string {
    s.GetOr("")
  }

  /** `n || 0` for an optional number: absent and zero both read as zero. */
  function OrZero(n: Option<int>): int {
    n.GetOr(0)
  }

  /** `s.charAt(0) || fallback`: the first character, or the fallback when `s` is empty. */
  function InitialOr(s: string, fallback: char): (r: string)
    ensures |r| == 1
    ensures s != "" ==> r[0] == s[0]
    ensures s == "" ==> r[0] == fallback
  {
    if s == "" then [fallback] else [s[0]]
  }

  /** What a page guarded by `if (!isAuthenticated)` renders: the "Access Denied"
      screen (Profile, Settings), nothing at all (the event form), or the page. */
  datatype View = AccessDenied | Nothing | Content

  /** The sign-in gate of Profile and Settings: signed-out visitors see "Access Denied". */
  function Gate(isAuthenticated: bool): (v: View)
    ensures v == AccessDenied <==> !isAuthenticated
    ensures v == Content <==> isAuthenticated
  {
    if isAuthenticated then Content else AccessDenied
  }
}

=== FILE: contact.dfy ===
/** The contact page: a four-field message form. Sending is simulated by a two-second
    wait that always resolves, so a valid submit always ends in the thank-you line and
    an emptied form; the page's failure message is never shown. */
module ContactPage {
  import opened Common
  import opened Text
  import opened EmailRegex
  import opened Validation

  datatype Field = Name | Email | Subject | Message

  datatype Form = Form(name: string, email: string, subject: string, message: string)

  datatype State = State(form: Form, errors: Errors<Field>, loading: bool, success: string, error: string)

  const EmptyForm := Form("", "", "", "")

  const Initial := State(EmptyForm, map[], false, "", "")

  const NameRequired := "Name is required"
  const SubjectRequired := "Subject is required"
  const MessageRequired := "Message is required"
  const MessageTooShort := "Message must be at least 10 characters"
  const ThankYou := "Thank you for your message! We'll get back to you soon."

  /** What the page accepts: name and subject not blank, a recognised address, and a
      message of at least ten characters once trimmed. */
  predicate Acceptable(form: Form) {
    && !Blank(form.name)
    && EmailPattern(form.email)
    && !Blank(form.subject)
    && JsLength(Trim(form.message)) >= 10
  }

  /** `validateForm`'s error map. */
  function Validate(form: Form): (r: Errors<Field>)
    ensures Name in r <==> Blank(form.name)
    ensures Name in r ==> r[Name] == NameRequired
    ensures Email in r <==> !EmailPattern(form.email)
    ensures Email in r ==> r[Email] == if form.email == "" then EmailRequired else EmailInvalid
    ensures Subject in r <==> Blank(form.subject)
    ensures Subject in r ==> r[Subject] == SubjectRequired
    ensures Message in r <==> JsLength(Trim(form.message)) < 10
    ensures Message in r ==> r[Message] == if Blank(form.message) then MessageRequired else MessageTooShort
    ensures NoErrors(r) <==> Acceptable(form)
  {
    var r := map[];
    var r := Put(r, Name, RequiredRule(form.name, NameRequired));
    var r := Put(r, Email, EmailRule(form.email));
    var r := Put(r, Subject, RequiredRule(form.subject, SubjectRequired));
    var r := Put(r, Message, MinLengthRule(form.message, 10, MessageRequired, MessageTooShort));
    NoErrorsIffNoKey(r);
    r
  }

  function Get(form: Form, f: Field): string {
    match f
    case Name => form.name
    case Email => form.email
    case Subject => form.subject
    case Message => form.message
  }

  function SetField(form: Form, f: Field, value: string): (r: Form)
    ensures Get(r, f) == value
    ensures forall g :: g != f ==> Get(r, g) == Get(form, g)
  {
    match f
    case Name => form.(name := value)
    case Email => form.(email := value)
    case Subject => form.(subject := value)
    case Message => form.(message := value)
  }

  /** `handleChange`: the field takes the value, its message is blanked, and both the
      error and the success line are emptied. */
  function HandleChange(s: State, f: Field, value: string): (r: State)
    ensures Get(r.form, f) == value
    ensures forall g :: g != f ==> Get(r.form, g) == Get(s.form, g)
    ensures r.errors.Keys == s.errors.Keys
    ensures f in r.errors ==> r.errors[f] == ""
    ensures forall k :: k in s.errors && k != f ==> r.errors[k] == s.errors[k]
    ensures r.error == "" && r.success == "" && r.loading == s.loading
  {
    s.(form := SetField(s.form, f, value), errors := ClearField(s.errors, f), error := "", success := "")
  }

  /** `handleSubmit`: a rejected form only refreshes the messages; an accepted one ends
      with the thank-you line, every field emptied and loading false. */
  function HandleSubmit(s: State): (r: State)
    ensures r.errors == Validate(s.form)
    ensures !Acceptable(s.form) ==> r == s.(errors := Validate(s.form))
    ensures Acceptable(s.form) ==>
              r.form == EmptyForm && r.success == ThankYou && r.error == "" && !r.loading
  {
    var errors := Validate(s.form);
    if !NoErrors(errors) then s.(errors := errors)
    else s.(errors := errors, form := EmptyForm, success := ThankYou, error := "", loading := false)
  }

  /** The emptied form is not acceptable: submitting again at once only shows the
      required messages. */
  lemma SecondSubmitIsRejected(s: State)
    requires Acceptable(s.form)
    ensures !Acceptable(HandleSubmit(s).form)
    ensures HandleSubmit(HandleSubmit(s)).errors[Name] == NameRequired
  {
    assert Blank(EmptyForm.name);
  }
}

=== FILE: dashboard.dfy ===
/** The dashboard: the same overview as the home page plus the signed-in user's points
    and rank. */
module DashboardPage {
  import opened Common
  import opened Records
  import Feed
  import HomePage

  /** The dashboard's `stats`: the shared counts and the user's own two figures. */
  datatype Stats = Stats(counts: Feed.Counts, userPoints: int, userRank: int)

  datatype State = State(events: seq<Event>, members: seq<Member>, stats: Stats, loading: bool)

  const Initial := State([], [], Stats(Feed.NoCounts, 0, 0), true)

  /** `user?.points || 0`: 0 without a user or without points. */
  function UserPoints(user: Option<User>): (n: int)
    ensures user.None? ==> n == 0
    ensures user.Some? ==> n == OrZero(user.value.points)
  {
    if user.None? then 0 else OrZero(user.value.points)
  }

  /** `user?.rank || 0`: 0 without a user or without a rank. */
  function UserRank(user: Option<User>): (n: int)
    ensures user.None? ==> n == 0
    ensures user.Some? ==> n == OrZero(user.value.rank)
  {
    if user.None? then 0 else OrZero(user.value.rank)
  }

  /** `fetchData` on the dashboard: on success the overview of the two lists and the
      user's figures; on failure nothing but the loading flag changes. */
  function ApplyFetch(s: State, fetched: Option<(seq<Event>, seq<Member>)>, user: Option<User>, now: int): (r: State)
    ensures !r.loading
    ensures fetched.None? ==> r == s.(loading := false)
    ensures fetched.Some? ==>
              var o := Feed.OverviewOf(fetched.value.0, fetched.value.1, now);
              r.events == o.events && r.members == o.members && r.stats.counts == o.counts
    ensures fetched.Some? ==> r.stats.userPoints == UserPoints(user) && r.stats.userRank == UserRank(user)
  {
    match fetched
    case None => s.(loading := false)
    case Some((events, members)) =>
      var o := Feed.OverviewOf(events, members, now);
      State(o.events, o.members, Stats(o.counts, UserPoints(user), UserRank(user)), false)
  }

  /** The dashboard shows the same lists and counts as the home page for the same
      responses. */
  lemma AgreesWithHome(events: seq<Event>, members: seq<Member>, user: Option<User>, now: int)
    ensures ApplyFetch(Initial, Some((events, members)), user, now).stats.counts ==
            HomePage.ApplyFetch(HomePage.Initial, Some((events, members)), now).overview.counts
    ensures ApplyFetch(Initial, Some((events, members)), user, now).events ==
            HomePage.ApplyFetch(HomePage.Initial, Some((events, members)), now).overview.events
  {
  }
}

=== FILE: email_regex.dfy ===
/** The email check every form shares, `/\S+@\S+\.\S+/.test(email)`.

    The pattern is unanchored, so it succeeds iff some substring has the shape
    "non-spaces, '@', non-spaces, '.', non-spaces". `EmailPattern` states that directly
    as the existence of the '@' and the '.' of a match; `ScanEmail` decides it in one pass
    and is proved to agree with it. */
module EmailRegex {
  import opened Text

  /** A match whose '@' is at `at` and whose '.' is at `dot`: a non-space right before
      the '@', at least one non-space between them (every character there a non-space),
      and a non-space right after the '.'. */
  predicate MatchAt(s: string, at: int, dot: int) {
    && 1 <= at && at + 2 <= dot && dot + 1 < |s|
    && s[at] == '@' && s[dot] == '.'
    && !IsSpace(s[at - 1]) && !IsSpace(s[dot + 1])
    && forall m :: at < m < dot ==> !IsSpace(s[m])
  }

  /** `/\S+@\S+\.\S+/.test(s)`. */
  predicate EmailPattern(s: string) {
    exists at, dot | 0 <= at < |s| && 0 <= dot < |s| :: MatchAt(s, at, dot)
  }

  /** Decides the pattern in a single left-to-right pass. It tracks the start of the
      current run of non-spaces and the first '@' of that run that has a non-space
      before it; a '.' followed by a non-space, at least two places after that '@',
      completes a match. */
  method ScanEmail(s: string) returns (found: bool)
    ensures found <==> EmailPattern(s)
  {
    var wordStart := 0;
    var firstAt := -1;
    var j := 0;
    while j < |s|
      invariant 0 <= wordStart <= j <= |s|
      invariant forall m :: wordStart <= m < j ==> !IsSpace(s[m])
      invariant wordStart == 0 || IsSpace(s[wordStart - 1])
      invariant firstAt == -1 ==> forall m :: wordStart < m < j ==> s[m] != '@'
      invariant firstAt != -1 ==> wordStart < firstAt < j && s[firstAt] == '@'
      invariant firstAt != -1 ==> forall m :: wordStart < m < firstAt ==> s[m] != '@'
      invariant forall at, dot :: dot + 1 < j ==> !MatchAt(s, at, dot)
    {
      if IsSpace(s[j]) {
        wordStart, firstAt := j + 1, -1;
      } else {
        if 1 <= j && s[j - 1] == '.' && firstAt != -1 && firstAt + 2 <= j - 1 {
          assert MatchAt(s, firstAt, j - 1);
          return true;
        }
        var dot := j - 1;
        forall at | MatchAt(s, at, dot) ensures false {
          NoSpaceInMatch(s, at, dot, wordStart);
        }
        if s[j] == '@' && wordStart < j && firstAt == -1 {
          firstAt := j;
        }
      }
      j := j + 1;
    }
    return false;
  }

  /** A match is one run of non-spaces, so it starts inside the current run. */
  lemma NoSpaceInMatch(s: string, at: int, dot: int, wordStart: int)
    requires MatchAt(s, at, dot)
    requires 0 <= wordStart <= dot + 1
    requires wordStart == 0 || IsSpace(s[wordStart - 1])
    ensures wordStart <= at - 1
  {
  }

  /** The pattern is unanchored: text around a matching string does not undo the match. */
  lemma MatchSurvivesContext(s: string, before: string, after: string)
    requires EmailPattern(s)
    ensures EmailPattern(before + s + after)
  {
    var at, dot :| 0 <= at < |s| && 0 <= dot < |s| && MatchAt(s, at, dot);
    var t := before + s + after;
    var k := |before|;
    forall m | 0 <= m < |s| ensures t[k + m] == s[m] { }
    assert MatchAt(t, k + at, k + dot);
  }

  /** Without an '@' nothing matches. */
  lemma NoAtNoMatch(s: string)
    requires forall i :: 0 <= i < |s| ==> s[i] != '@'
    ensures !EmailPattern(s)
  {
  }

  /** Concrete readings of the pattern: a plain address passes; a missing top-level part,
      a leading '@' and a space inside the domain each fail. */
  lemma Examples()
    ensures EmailPattern("a@b.co")
    ensures !EmailPattern("a@b")
    ensures !EmailPattern("@b.co")
    ensures !EmailPattern("a@b .co")
  {
    assert MatchAt("a@b.co", 1, 3);
    var s := "a@b .co";
    assert s[3] == ' ' && s[1] == '@' && s[4] == '.';
    assert forall i :: 0 <= i < |s| && s[i] == '@' ==> i == 1;
  }
}

=== FILE: event_card.dfy ===
/** The event card: the shared frame, the Featured badge, the time line, the details
    shown for a variant, and the fallbacks for missing fields. Locale formatting of
    dates and times is a parameter. */
module EventCard {
  import opened Common
  import opened Records
  import opened CardStyle

  /** `formatTime`: an empty time gives the empty string without formatting. */
  function FormatTime(time: string, localeTime: string -> string): (r: string)
    ensures time == "" ==> r == ""
    ensures time != "" ==> r == localeTime(time)
  {
    if time == "" then "" else localeTime(time)
  }

  /** The organizer line: its avatar letter and its name. */
  datatype OrganizerLine = OrganizerLine(initial: string, name: string)

  /** What the card shows. */
  datatype View = View(
    style: string,
    featuredBadge: bool,
    time: Option<string>,
    showDescription: bool,
    showLocation: bool,
    attendees: nat,
    organizer: Option<OrganizerLine>,
    link: string)

  const DetailsPrefix := "/events/"

  /** The details link of an event. */
  function DetailsLink(e: Event): (link: string)
    ensures |link| == |DetailsPrefix| + |e.id|
    ensures link[..|DetailsPrefix|] == DetailsPrefix && link[|DetailsPrefix|..] == e.id
  {
    DetailsPrefix + e.id
  }

  /** Different ids lead to different pages: the link determines the event id. */
  lemma DetailsLinkDeterminesId(a: Event, b: Event)
    requires DetailsLink(a) == DetailsLink(b)
    ensures a.id == b.id
  {
    calc {
      a.id;
      DetailsLink(a)[|DetailsPrefix|..];
      DetailsLink(b)[|DetailsPrefix|..];
      b.id;
    }
  }

  /** The card for `e`: the badge only for 'featured', the description hidden only for
      'compact', the time line only for a present time, 0 attendees for a missing list,
      'O' as the organizer's letter when the name is missing. */
  function Render(e: Event, variant: string, localeTime: string -> string): (v: View)
    ensures v.style == VariantStyle(variant)
    ensures v.featuredBadge <==> variant == "featured"
    ensures v.showDescription <==> variant != "compact"
    ensures v.time.Some? <==> e.time != ""
    ensures v.time.Some? ==> v.time.value == localeTime(e.time)
    ensures v.showLocation <==> e.location != ""
    ensures v.attendees == AttendeeCount(e)
    ensures v.organizer.Some? <==> e.createdBy.Some?
    ensures v.organizer.Some? ==> v.organizer.value == OrganizerLine(InitialOr(e.createdBy.value.name, 'O'), e.createdBy.value.name)
    ensures v.link == DetailsLink(e)
  {
    View(
      VariantStyle(variant),
      variant == "featured",
      if e.time != "" then Some(FormatTime(e.time, localeTime)) else None,
      variant != "compact",
      e.location != "",
      AttendeeCount(e),
      if e.createdBy.Some? then Some(OrganizerLine(InitialOr(e.createdBy.value.name, 'O'), e.createdBy.value.name)) else None,
      DetailsLink(e))
  }

  /** A featured card always shows the description, and a compact one never has the
      badge. */
  lemma BadgeAndDescription(e: Event, variant: string, localeTime: string -> string)
    ensures Render(e, variant, localeTime).featuredBadge ==> Render(e, variant, localeTime).showDescription
    ensures !Render(e, variant, localeTime).showDescription ==> !Render(e, variant, localeTime).featuredBadge
  {
  }
}

=== FILE: event_detail.dfy ===
/** The event page: the fetched event, the visitor's registration, the capped attendee
    list and the register button. The page renders the event only once it has been
    fetched, so registration works on a loaded event. */
module EventDetailPage {
  import opened Common
  import opened Lists
  import opened Records
  import Button

  /** The page once the fetch has settled. */
  datatype Detail = Detail(event: Event, registering: bool, isRegistered: bool, error: string, success: string)

  /** The three views: the spinner, "Event Not Found" with its message, the event. */
  datatype Page = Loading | NotFound(error: string) | Loaded(detail: Detail)

  const NotFoundMessage := "Event not found"
  const RegisteredMessage := "Successfully registered for the event!"
  const RegisterFailed := "Failed to register for event"

  /** `user?.id`: absent when there is no user or the user has no id. */
  function UserId(user: Option<User>): Option<string> {
    if user.None? then None else user.value.id
  }

  /** The initial `isRegistered`: some registered entry's id equals the user's id,
      compared as JavaScript's `===` does, so an entry without an id matches a visitor
      without one; an event without a list is not registered. */
  predicate InitiallyRegistered(e: Event, user: Option<User>) {
    e.registeredUsers.Some? &&
    exists i :: 0 <= i < |e.registeredUsers.value| && e.registeredUsers.value[i].id == UserId(user)
  }

  /** `fetchEvent` with `fetched` the event, or None when the request fails. */
  function ApplyFetch(fetched: Option<Event>, user: Option<User>): (p: Page)
    ensures fetched.None? <==> p == NotFound(NotFoundMessage)
    ensures fetched.Some? ==> p.Loaded? && p.detail.event == fetched.value
    ensures fetched.Some? ==> (p.detail.isRegistered <==> InitiallyRegistered(fetched.value, user))
    ensures fetched.Some? ==> !p.detail.registering && p.detail.error == "" && p.detail.success == ""
  {
    match fetched
    case None => NotFound(NotFoundMessage)
    case Some(e) => Loaded(Detail(e, false, InitiallyRegistered(e, user), "", ""))
  }

  /** What the handler asks for outside the page. */
  datatype Effect = Navigate(path: string) | PostRegistration(eventId: string)

  /** The result of `POST /events/:id/register`: accepted, or refused with the server's
      message ('' when the response carries none). */
  datatype Outcome = Accepted | Refused(message: string)

  /** The entry the page appends for the signed-in user. */
  function EntryFor(user: User): Attendee {
    Attendee(user.id, user.name)
  }

  /** `registeredUsers = [...(registeredUsers || []), {_id, name}]`. */
  function WithAttendee(e: Event, a: Attendee): (r: Event)
    ensures r.registeredUsers.Some?
    ensures AttendeeCount(r) == AttendeeCount(e) + 1
    ensures r.registeredUsers.value[AttendeeCount(e)] == a
    ensures e.registeredUsers.Some? ==> r.registeredUsers.value[..AttendeeCount(e)] == e.registeredUsers.value
    ensures r.(registeredUsers := e.registeredUsers) == e
  {
    e.(registeredUsers := Some(e.registeredUsers.GetOr([]) + [a]))
  }

  /** `handleRegister`. A signed-out visitor is sent to '/login' and nothing else
      happens. Otherwise both messages are cleared and the request is made: an
      acceptance marks the visitor registered, shows the success line and appends the
      visitor's entry to the attendees; a refusal shows the server's message or the
      default and leaves the event as it was. Registering ends false either way. */
  function Register(d: Detail, isAuthenticated: bool, user: User, outcome: Outcome): (r: Step<Detail, Effect>)
    ensures !isAuthenticated ==> r == Step(d, [Navigate("/login")])
    ensures isAuthenticated ==> r.effects == [PostRegistration(d.event.id)] && !r.state.registering
    ensures isAuthenticated && outcome.Accepted? ==>
              && r.state.isRegistered
              && r.state.success == RegisteredMessage && r.state.error == ""
              && r.state.event == WithAttendee(d.event, EntryFor(user))
    ensures isAuthenticated && outcome.Refused? ==>
              && r.state.isRegistered == d.isRegistered
              && r.state.success == ""
              && r.state.error == (if outcome.message == "" then RegisterFailed else outcome.message)
              && r.state.event == d.event
  {
    if !isAuthenticated then Step(d, [Navigate("/login")])
    else
      var pending := d.(registering := true, error := "", success := "");
      var settled := match outcome
        case Accepted =>
          pending.(isRegistered := true, success := RegisteredMessage,
                   event := WithAttendee(pending.event, EntryFor(user)))
        case Refused(message) =>
          pending.(error := if message == "" then RegisterFailed else message);
      Step(settled.(registering := false), [PostRegistration(d.event.id)])
  }

  /** After an accepted registration the page agrees with a fresh fetch: the appended
      entry carries the user's id, so the initial test would also find the user. */
  lemma RegistrationMatchesRefetch(d: Detail, user: User)
    ensures InitiallyRegistered(Register(d, true, user, Accepted).state.event, Some(user))
    ensures Register(d, true, user, Accepted).state.isRegistered
  {
    var e := Register(d, true, user, Accepted).state.event;
    assert e.registeredUsers.value[AttendeeCount(d.event)].id == UserId(Some(user));
  }

  /** The attendees block: absent for a missing or empty list, otherwise the first twelve
      entries and the "+N more" chip. */
  function Attendees(e: Event): (p: Option<Preview<Attendee>>)
    ensures p.Some? <==> AttendeeCount(e) > 0
    ensures p.Some? ==> p.value == PreviewOf(e.registeredUsers.value, 12)
    ensures p.Some? ==> |p.value.shown| == if AttendeeCount(e) < 12 then AttendeeCount(e) else 12
    ensures p.Some? ==> (p.value.more.Some? <==> AttendeeCount(e) > 12)
  {
    if e.registeredUsers.Some? && |e.registeredUsers.value| > 0
    then Some(PreviewOf(e.registeredUsers.value, 12))
    else None
  }

  /** An attendee's avatar letter, 'A' when the name is missing or empty. */
  function AttendeeInitial(a: Attendee): (r: string)
    ensures |r| == 1
    ensures OrEmpty(a.name) == "" ==> r == "A"
  {
    InitialOr(OrEmpty(a.name), 'A')
  }

  /** The register button: shown unless the event is already past, disabled once the
      visitor is registered, spinning while the request is pending. */
  datatype RegisterButton = RegisterButton(shown: bool, disabled: bool, loading: bool)

  function ButtonView(d: Detail, now: int): (b: RegisterButton)
    ensures b.shown <==> d.event.date >= now
    ensures b.disabled <==> d.isRegistered
    ensures b.loading <==> d.registering
  {
    RegisterButton(!(d.event.date < now), d.isRegistered, d.registering)
  }

  /** After an accepted registration the button stays visible for an event that has not
      started, and is disabled. */
  lemma RegisteredButtonIsDisabled(d: Detail, user: User, now: int)
    requires d.event.date >= now
    ensures ButtonView(Register(d, true, user, Accepted).state, now) == RegisterButton(true, true, false)
  {
  }

  /** The props the page hands to the shared button. */
  function ButtonProps(d: Detail): (p: Button.Props)
    ensures p.loading == d.registering && p.disabled == d.isRegistered && !p.hasIcon
  {
    Button.Props("primary", "lg", d.registering, d.isRegistered, false, "left")
  }

  /** The rendered button refuses clicks while the visitor is registered or the request
      is pending, and shows the spinner only while it is pending. */
  lemma ButtonIsInertWhileRegisteredOrPending(d: Detail)
    ensures Button.Render(ButtonProps(d)).isDisabled <==> d.isRegistered || d.registering
    ensures Button.Render(ButtonProps(d)).spinner <==> d.registering
    ensures !Button.Render(ButtonProps(d)).leftIcon && !Button.Render(ButtonProps(d)).rightIcon
  {
  }
}

=== FILE: event_form.dfy ===
/** The "host an event" form: eight text fields, a tag list edited through an input
    and add/remove buttons, validation against the current time, and the submit that
    sends `POST /events/createEvent`. The current time, the date parser and the outcome
    of the request are inputs. */
module EventFormPage {
  import opened Common
  import opened Text
  import opened Lists
  import opened Validation
  import opened JsNumbers

  datatype Field = Title | Description | Date | Time | Location | Category | MaxAttendees | Requirements

  datatype ErrorKey = FieldError(field: Field) | SubmitError

  datatype Form = Form(
    title: string, description: string, date: string, time: string, location: string,
    category: string, maxAttendees: string, requirements: string, tags: seq<string>)

  datatype State = State(form: Form, newTag: string, errors: Errors<ErrorKey>, loading: bool, success: string)

  /** The body of the create request: the form with `maxAttendees` converted. */
  datatype EventData = EventData(
    title: string, description: string, date: string, time: string, location: string,
    category: string, maxAttendees: Option<Number>, requirements: string, tags: seq<string>)

  /** What the create request resolves to: the new event's id, or a failure. */
  datatype CreateOutcome = Created(id: string) | CreateFailed

  datatype Effect =
    | Navigate(path: string)
    | PostEvent(data: EventData)
    /** The navigation the page schedules two seconds after a successful create. */
    | NavigateLater(path: string)
    /** Writing the form to the browser's storage under 'eventDraft'. */
    | StoreDraft(form: Form)

  const Initial := State(Form("", "", "", "", "", "general", "", "", []), "", map[], false, "")

  const TitleRequired := "Event title is required"
  const TitleTooShort := "Title must be at least 3 characters"
  const DescriptionRequired := "Event description is required"
  const DescriptionTooShort := "Description must be at least 10 characters"
  const DateRequired := "Event date is required"
  const DateInPast := "Event date must be in the future"
  const LocationRequired := "Event location is required"
  const MaxAttendeesInvalid := "Maximum attendees must be a positive number"
  const CreateFailedMessage := "Failed to create event. Please try again."
  const CreatedMessage := "Event created successfully!"
  const DraftSavedMessage := "Draft saved successfully!"

  /** The page renders nothing for a signed-out visitor and sends them to '/login'. */
  function Render(isAuthenticated: bool): (r: (View, seq<Effect>))
    ensures r.0 == Nothing <==> !isAuthenticated
    ensures r.0 == Content <==> isAuthenticated
    ensures r.1 == (if isAuthenticated then [] else [Navigate("/login")])
  {
    (if isAuthenticated then Content else Nothing, if isAuthenticated then [] else [Navigate("/login")])
  }

  // ---------------------------------------------------------------- tags

  /** The tag list is well formed: no repeats, and each tag non-empty with no
      whitespace at either end (`Clean`, which is "trimmed and non-blank"). */
  predicate WellFormedTags(tags: seq<string>) {
    && Distinct(tags)
    && forall i :: 0 <= i < |tags| ==> Clean(tags[i])
  }

  /** `handleAddTag`: the trimmed input is appended and the input emptied when it is
      non-blank and not already a tag; otherwise nothing changes. */
  function AddTag(s: State): (r: State)
    ensures !Blank(s.newTag) && Trim(s.newTag) !in s.form.tags ==>
              r == s.(form := s.form.(tags := s.form.tags + [Trim(s.newTag)]), newTag := "")
    ensures Blank(s.newTag) || Trim(s.newTag) in s.form.tags ==> r == s
    ensures WellFormedTags(s.form.tags) ==> WellFormedTags(r.form.tags)
  {
    var t := Trim(s.newTag);
    TrimEmptyIffBlank(s.newTag);
    if t != "" && t !in s.form.tags then
      assert WellFormedTags(s.form.tags) ==> WellFormedTags(s.form.tags + [t]) by {
        if WellFormedTags(s.form.tags) {
          AppendKeepsWellFormed(s.form.tags, s.newTag);
        }
      }
      s.(form := s.form.(tags := s.form.tags + [t]), newTag := "")
    else s
  }

  /** Appending the trimmed text of a non-blank input that is not yet a tag keeps the
      list well formed. */
  lemma AppendKeepsWellFormed(tags: seq<string>, input: string)
    requires WellFormedTags(tags)
    requires Trim(input) != "" && Trim(input) !in tags
    ensures WellFormedTags(tags + [Trim(input)])
  {
    TrimEmptyIffBlank(input);
    TrimIsClean(input);
    var r := tags + [Trim(input)];
    assert forall i :: 0 <= i < |tags| ==> r[i] == tags[i];
  }

  /** `handleRemoveTag`: every copy of the tag goes, the rest keep their order. */
  function RemoveTag(s: State, tag: string): (r: State)
    ensures tag !in r.form.tags
    ensures forall t :: t in s.form.tags && t != tag ==> t in r.form.tags
    ensures forall t :: t in r.form.tags ==> t in s.form.tags
    ensures IsSubsequence(r.form.tags, s.form.tags)
    ensures r == s.(form := s.form.(tags := r.form.tags))
    ensures WellFormedTags(s.form.tags) ==> WellFormedTags(r.form.tags)
  {
    var tags := Filter(s.form.tags, t => t != tag);
    FilterIsSubsequence(s.form.tags, t => t != tag);
    assert WellFormedTags(s.form.tags) ==> WellFormedTags(tags) by {
      if WellFormedTags(s.form.tags) {
        FilterKeepsDistinct(s.form.tags, t => t != tag);
        forall i | 0 <= i < |tags| ensures Clean(tags[i]) {
          assert tags[i] in tags;
          assert tags[i] in s.form.tags;
        }
      }
    }
    s.(form := s.form.(tags := tags))
  }

  /** The tag-input `onChange`. */
  function SetNewTag(s: State, value: string): (r: State)
    ensures r.newTag == value && r.form == s.form && r.errors == s.errors
  {
    s.(newTag := value)
  }

  /** One thing a user can do to the tag list. */
  datatype TagAction = Type(text: string) | Add | Remove(tag: string)

  function ApplyTag(s: State, a: TagAction): State {
    match a
    case Type(text) => SetNewTag(s, text)
    case Add => AddTag(s)
    case Remove(tag) => RemoveTag(s, tag)
  }

  function ReplayTags(s: State, actions: seq<TagAction>): State
    decreases |actions|
  {
    if actions == [] then s else ReplayTags(ApplyTag(s, actions[0]), actions[1..])
  }

  /** From the empty list, no sequence of typing, adding and removing ever produces a
      repeated, blank or untrimmed tag. */
  lemma {:induction false} TagsStayWellFormed(s: State, actions: seq<TagAction>)
    requires WellFormedTags(s.form.tags)
    ensures WellFormedTags(ReplayTags(s, actions).form.tags)
    decreases |actions|
  {
    if actions != [] {
      var next := ApplyTag(s, actions[0]);
      assert WellFormedTags(next.form.tags);
      TagsStayWellFormed(next, actions[1..]);
    }
  }

  lemma InitialTagsStayWellFormed(actions: seq<TagAction>)
    ensures WellFormedTags(ReplayTags(Initial, actions).form.tags)
  {
    TagsStayWellFormed(Initial, actions);
  }

  // ---------------------------------------------------------------- maximum attendees

  /** The maximum-attendees test as the page writes it: a non-empty value is rejected
      when `Number` of it is NaN or below 1. */
  function MaxAttendeesAsWritten(s: string): (v: Option<string>)
    ensures v.Some? <==> s != "" && (ToNumber(s) == NaN || LessThanOne(ToNumber(s)))
  {
    if s != "" && (ToNumber(s) == NaN || LessThanOne(ToNumber(s))) then Some(MaxAttendeesInvalid) else None
  }

  /** What the page sends: `parseInt` of a non-empty value, nothing for an empty one. */
  function SubmittedMaxAttendees(s: string): (n: Option<Number>)
    ensures n.None? <==> s == ""
    ensures n.Some? ==> n.value == ParseInt(s)
  {
    if s != "" then Some(ParseInt(s)) else None
  }

  /** A submitted maximum that is a whole number of at least one. */
  predicate PositiveWhole(n: Option<Number>) {
    n.Some? && n.value.Finite? && n.value.value >= 1.0 && n.value.value == n.value.value.Floor as real
  }

  /** The as-written test accepts "0.5e1": `Number` reads it as 5, but `parseInt` stops
      at the '.' and the event is created with a maximum of 0 attendees. (A value like
      "0b11" would show the same, but the browser's number input empties it.) */
  lemma AsWrittenSubmitsZero()
    ensures MaxAttendeesAsWritten("0.5e1").None?
    ensures SubmittedMaxAttendees("0.5e1") == Some(Finite(0.0))
    ensures MaxAttendeesRule("0.5e1").Some?
  {
    HalfTimesTenNumber();
    HalfTimesTenParseInt();
  }

  /** The test with the defect removed: a non-empty value must convert the same way under
      `Number` and `parseInt`, to a whole number of at least 1. */
  function MaxAttendeesRule(s: string): (v: Option<string>)
    ensures v.None? && s != "" ==> PositiveWhole(SubmittedMaxAttendees(s))
    ensures v.None? ==> MaxAttendeesAsWritten(s).None?
  {
    ParseIntIsWhole(s);
    if s == "" then None
    else if ParseInt(s).Finite? && ParseInt(s).value >= 1.0 && ToNumber(s) == ParseInt(s) then
      None
    else Some(MaxAttendeesInvalid)
  }

  /** On what one normally types, a string of digits, the corrected test decides exactly
      as the written one. */
  lemma RulesAgreeOnDigits(s: string)
    requires PlainDigits(s)
    ensures MaxAttendeesRule(s) == MaxAttendeesAsWritten(s)
  {
    PlainDigitsAgree(s);
  }

  /** Which maximum-attendees test a submission runs: the page's own, or the corrected
      one. The page as shipped runs `AsWritten`. */
  datatype MaxCheck = AsWritten | Corrected

  function MaxAttendeesCheck(check: MaxCheck, s: string): Option<string> {
    match check
    case AsWritten => MaxAttendeesAsWritten(s)
    case Corrected => MaxAttendeesRule(s)
  }

  // ---------------------------------------------------------------- validation

  /** The date chain. `parseDate` is `new Date(...)`, with None for an invalid date: an
      invalid date compares false with the current time and passes. */
  function DateRule(date: string, now: int, parseDate: string -> Option<int>): (v: Option<string>)
    ensures v == Some(DateRequired) <==> date == ""
    ensures v == Some(DateInPast) <==> date != "" && parseDate(date).Some? && parseDate(date).value < now
    ensures v == None <==> date != "" && (parseDate(date).None? || parseDate(date).value >= now)
  {
    if date == "" then Some(DateRequired)
    else if parseDate(date).Some? && parseDate(date).value < now then Some(DateInPast)
    else None
  }

  /** What the four text chains accept. */
  predicate TextAcceptable(form: Form, now: int, parseDate: string -> Option<int>) {
    && JsLength(Trim(form.title)) >= 3
    && JsLength(Trim(form.description)) >= 10
    && form.date != "" && (parseDate(form.date).None? || parseDate(form.date).value >= now)
    && !Blank(form.location)
  }

  /** What the page accepts, under the given maximum-attendees test. */
  predicate Acceptable(form: Form, now: int, parseDate: string -> Option<int>, check: MaxCheck) {
    TextAcceptable(form, now, parseDate) && MaxAttendeesCheck(check, form.maxAttendees).None?
  }

  /** The corrected test only ever refuses more. */
  lemma CorrectedOnlyNarrows(form: Form, now: int, parseDate: string -> Option<int>)
    ensures Acceptable(form, now, parseDate, Corrected) ==> Acceptable(form, now, parseDate, AsWritten)
  {
  }

  /** The four text chains of `validateForm`. */
  function TextErrors(form: Form, now: int, parseDate: string -> Option<int>): (r: Errors<ErrorKey>)
    ensures FieldError(Title) in r <==> JsLength(Trim(form.title)) < 3
    ensures FieldError(Title) in r ==> r[FieldError(Title)] == if Blank(form.title) then TitleRequired else TitleTooShort
    ensures FieldError(Description) in r <==> JsLength(Trim(form.description)) < 10
    ensures FieldError(Description) in r ==>
              r[FieldError(Description)] == if Blank(form.description) then DescriptionRequired else DescriptionTooShort
    ensures FieldError(Date) in r <==>
              form.date == "" || (parseDate(form.date).Some? && parseDate(form.date).value < now)
    ensures FieldError(Date) in r ==> r[FieldError(Date)] == if form.date == "" then DateRequired else DateInPast
    ensures FieldError(Location) in r <==> Blank(form.location)
    ensures FieldError(Location) in r ==> r[FieldError(Location)] == LocationRequired
    ensures r.Keys <= {FieldError(Title), FieldError(Description), FieldError(Date), FieldError(Location)}
  {
    var r := map[];
    var r := Put(r, FieldError(Title), MinLengthRule(form.title, 3, TitleRequired, TitleTooShort));
    var r := Put(r, FieldError(Description), MinLengthRule(form.description, 10, DescriptionRequired, DescriptionTooShort));
    var r := Put(r, FieldError(Date), DateRule(form.date, now, parseDate));
    Put(r, FieldError(Location), RequiredRule(form.location, LocationRequired))
  }

  /** The text chains leave no message exactly when the text is acceptable. */
  lemma TextErrorsNoneIffAcceptable(form: Form, now: int, parseDate: string -> Option<int>)
    ensures NoErrors(TextErrors(form, now, parseDate)) <==> TextAcceptable(form, now, parseDate)
  {
    NoErrorsIffNoKey(TextErrors(form, now, parseDate));
  }

  /** `validateForm`: the text chains, then the maximum-attendees test. */
  function Validate(form: Form, now: int, parseDate: string -> Option<int>, check: MaxCheck): (r: Errors<ErrorKey>)
    ensures forall f :: f != MaxAttendees ==>
              (FieldError(f) in r <==> FieldError(f) in TextErrors(form, now, parseDate))
    ensures forall f :: f != MaxAttendees && FieldError(f) in r ==>
              r[FieldError(f)] == TextErrors(form, now, parseDate)[FieldError(f)]
    ensures FieldError(MaxAttendees) in r <==> MaxAttendeesCheck(check, form.maxAttendees).Some?
    ensures FieldError(MaxAttendees) in r ==> form.maxAttendees != "" && r[FieldError(MaxAttendees)] == MaxAttendeesInvalid
    ensures r.Keys <= {FieldError(Title), FieldError(Description), FieldError(Date), FieldError(Location), FieldError(MaxAttendees)}
    ensures NoErrors(r) <==> Acceptable(form, now, parseDate, check)
  {
    var text := TextErrors(form, now, parseDate);
    TextErrorsNoneIffAcceptable(form, now, parseDate);
    var r := Put(text, FieldError(MaxAttendees), MaxAttendeesCheck(check, form.maxAttendees));
    NoErrorsIffNoKey(r);
    r
  }

  // ---------------------------------------------------------------- editing and submit

  function Get(form: Form, f: Field): string {
    match f
    case Title => form.title
    case Description => form.description
    case Date => form.date
    case Time => form.time
    case Location => form.location
    case Category => form.category
    case MaxAttendees => form.maxAttendees
    case Requirements => form.requirements
  }

  function SetField(form: Form, f: Field, value: string): (r: Form)
    ensures Get(r, f) == value
    ensures forall g :: g != f ==> Get(r, g) == Get(form, g)
    ensures r.tags == form.tags
  {
    match f
    case Title => form.(title := value)
    case Description => form.(description := value)
    case Date => form.(date := value)
    case Time => form.(time := value)
    case Location => form.(location := value)
    case Category => form.(category := value)
    case MaxAttendees => form.(maxAttendees := value)
    case Requirements => form.(requirements := value)
  }

  /** `handleChange`: the field takes the value, its message is blanked and the success
      line emptied. */
  function HandleChange(s: State, f: Field, value: string): (r: State)
    ensures Get(r.form, f) == value
    ensures forall g :: g != f ==> Get(r.form, g) == Get(s.form, g)
    ensures r.form.tags == s.form.tags && r.newTag == s.newTag
    ensures r.errors.Keys == s.errors.Keys
    ensures FieldError(f) in r.errors ==> r.errors[FieldError(f)] == ""
    ensures forall k :: k in s.errors && k != FieldError(f) ==> r.errors[k] == s.errors[k]
    ensures r.success == "" && r.loading == s.loading
  {
    s.(form := SetField(s.form, f, value), errors := ClearField(s.errors, FieldError(f)), success := "")
  }

  /** `eventData`: every form field as it stands, with the maximum converted. */
  function MakeEventData(form: Form): (d: EventData)
    ensures d.title == form.title && d.description == form.description && d.date == form.date
    ensures d.time == form.time && d.location == form.location && d.category == form.category
    ensures d.requirements == form.requirements && d.tags == form.tags
    ensures d.maxAttendees == SubmittedMaxAttendees(form.maxAttendees)
  {
    EventData(form.title, form.description, form.date, form.time, form.location,
      form.category, SubmittedMaxAttendees(form.maxAttendees), form.requirements, form.tags)
  }

  /** `handleSubmit`. A rejected form only refreshes the messages. Otherwise the event
      is posted; on creation the success line is set and the page schedules a move to
      the new event, on failure every message is replaced by the `submit` one; loading
      ends false. */
  function HandleSubmit(s: State, now: int, parseDate: string -> Option<int>, outcome: CreateOutcome, check: MaxCheck): (r: Step<State, Effect>)
    ensures r.state.form == s.form && r.state.newTag == s.newTag
    ensures !Acceptable(s.form, now, parseDate, check) ==>
              r.state == s.(errors := Validate(s.form, now, parseDate, check)) && r.effects == []
    ensures Acceptable(s.form, now, parseDate, check) ==> r.effects != [] && r.effects[0] == PostEvent(MakeEventData(s.form)) && !r.state.loading
    ensures Acceptable(s.form, now, parseDate, check) && outcome.Created? ==>
              r.state.success == CreatedMessage && r.state.errors == map[]
              && r.effects == [PostEvent(MakeEventData(s.form)), NavigateLater("/events/" + outcome.id)]
    ensures Acceptable(s.form, now, parseDate, check) && outcome.CreateFailed? ==>
              r.state.success == "" && r.state.errors == map[SubmitError := CreateFailedMessage]
              && r.effects == [PostEvent(MakeEventData(s.form))]
  {
    var errors := Validate(s.form, now, parseDate, check);
    if !NoErrors(errors) then Step(s.(errors := errors), [])
    else
      var post := PostEvent(MakeEventData(s.form));
      var s' := s.(errors := errors, loading := true, success := "");
      match outcome
      case Created(id) => Step(s'.(success := CreatedMessage, loading := false), [post, NavigateLater("/events/" + id)])
      case CreateFailed => Step(s'.(errors := map[SubmitError := CreateFailedMessage], loading := false), [post])
  }

  /** Under the corrected test, an accepted submission never sends a maximum below one
      or a non-number. */
  lemma SubmittedMaximumIsPositive(s: State, now: int, parseDate: string -> Option<int>, outcome: CreateOutcome)
    requires Acceptable(s.form, now, parseDate, Corrected) && s.form.maxAttendees != ""
    ensures PositiveWhole(HandleSubmit(s, now, parseDate, outcome, Corrected).effects[0].data.maxAttendees)
  {
  }

  /** The page as shipped posts an otherwise valid form whose maximum reads "0.5e1", and
      the request carries a maximum of 0. */
  lemma ShippedPagePostsZero(s: State, now: int, parseDate: string -> Option<int>, outcome: CreateOutcome)
    requires TextAcceptable(s.form, now, parseDate) && s.form.maxAttendees == "0.5e1"
    ensures Acceptable(s.form, now, parseDate, AsWritten)
    ensures HandleSubmit(s, now, parseDate, outcome, AsWritten).effects[0] == PostEvent(MakeEventData(s.form))
    ensures HandleSubmit(s, now, parseDate, outcome, AsWritten).effects[0].data.maxAttendees == Some(Finite(0.0))
    ensures !Acceptable(s.form, now, parseDate, Corrected)
  {
    AsWrittenSubmitsZero();
  }

  /** `handleSaveDraft`: the whole form, tags included, is stored as it stands, without
      validation, and the success line says so; nothing else changes. */
  function SaveDraft(s: State): (r: Step<State, Effect>)
    ensures r.effects == [StoreDraft(s.form)]
    ensures r.state.success == DraftSavedMessage
    ensures r.state.(success := s.success) == s
  {
    Step(s.(success := DraftSavedMessage), [StoreDraft(s.form)])
  }

  /** The draft notice lasts until the next keystroke in a field, which clears it while
      keeping the stored form's tags. */
  lemma DraftNoticeClearedByEdit(s: State, f: Field, value: string)
    ensures HandleChange(SaveDraft(s).state, f, value).success == ""
    ensures HandleChange(SaveDraft(s).state, f, value).form.tags == SaveDraft(s).effects[0].form.tags
  {
  }
}

=== FILE: event_list.dfy ===
/** The events listing: the fetched events narrowed by a search term and a category
    (which also offers 'upcoming' and 'past'), ordered by the chosen key, the "Showing
    N of M" line, and the four statistics under the list. `now` is the current time
    and `collate` the collation key standing for `localeCompare`. */
module EventListPage {
  import opened Common
  import opened Text
  import opened Lists
  import opened Records

  /** The search test: the title, description or location contains the term, ignoring
      ASCII case. */
  predicate MatchesSearch(e: Event, term: string) {
    MatchesTerm(e.title, term) || MatchesTerm(e.description, term) || MatchesTerm(e.location, term)
  }

  /** The category test: 'all' keeps everything, an equal category is kept, 'upcoming'
      also keeps the events dated after now and 'past' the events dated before now. */
  predicate MatchesCategory(e: Event, category: string, now: int) {
    || category == "all"
    || e.category == category
    || (category == "upcoming" && e.date > now)
    || (category == "past" && e.date < now)
  }

  /** An event dated exactly now is neither upcoming nor past: only its own category or
      'all' lists it. */
  lemma NowIsNeitherUpcomingNorPast(e: Event, now: int)
    requires e.date == now && e.category !in {"upcoming", "past"}
    ensures !MatchesCategory(e, "upcoming", now) && !MatchesCategory(e, "past", now)
    ensures MatchesCategory(e, "all", now)
  {
  }

  /** The callback given to `events.filter`. */
  function PassesBoth(term: string, category: string, now: int): Event -> bool {
    (e: Event) => MatchesSearch(e, term) && MatchesCategory(e, category, now)
  }

  /** `filteredEvents`: exactly the events passing both tests, each as often as it was
      fetched, in their original order. */
  function Filtered(events: seq<Event>, term: string, category: string, now: int): (r: seq<Event>)
    ensures forall e :: e in r <==> e in events && MatchesSearch(e, term) && MatchesCategory(e, category, now)
    ensures forall e :: multiset(r)[e] ==
              if MatchesSearch(e, term) && MatchesCategory(e, category, now) then multiset(events)[e] else 0
    ensures IsSubsequence(r, events)
    ensures |r| <= |events|
  {
    FilterIsSubsequence(events, PassesBoth(term, category, now));
    FilterCounts(events, PassesBoth(term, category, now));
    Filter(events, PassesBoth(term, category, now))
  }

  /** With no search term and the category on 'all', the list is the fetched list. */
  lemma EmptySearchKeepsEveryEvent(events: seq<Event>, now: int)
    ensures Filtered(events, "", "all", now) == events
  {
    forall i | 0 <= i < |events| ensures PassesBoth("", "all", now)(events[i]) {
      EmptyTermMatchesAll(events[i].title);
    }
    FilterAllKeeps(events, PassesBoth("", "all", now));
  }

  /** The comparator of `sortedEvents` as an ascending key: the date, the collation key
      of the title, minus the attendee count (so fuller events come first, a missing
      list counting 0), or one key for all when the choice is unknown. */
  function SortKey(sortBy: string, collate: string -> int): (key: Event -> int)
    ensures sortBy == "date" ==> forall e :: key(e) == e.date
    ensures sortBy == "attendees" ==> forall e :: key(e) == 0 - AttendeeCount(e)
    ensures sortBy !in {"date", "title", "attendees"} ==> forall e :: key(e) == 0
  {
    if sortBy == "date" then (e: Event) => e.date
    else if sortBy == "title" then (e: Event) => collate(e.title)
    else if sortBy == "attendees" then (e: Event) => 0 - (AttendeeCount(e) as int)
    else (e: Event) => 0
  }

  /** `sortedEvents`: the filtered events, each kept as often as it occurs, in key
      order; ties keep their filtered order, as JavaScript's sort is stable, so an unknown
      choice keeps the filtered order. */
  function Sorted(filtered: seq<Event>, sortBy: string, collate: string -> int): (r: seq<Event>)
    ensures multiset(r) == multiset(filtered)
    ensures |r| == |filtered|
    ensures SortedBy(r, SortKey(sortBy, collate))
    ensures sortBy !in {"date", "title", "attendees"} ==> r == filtered
    ensures forall k :: Filter(r, KeyIs(SortKey(sortBy, collate), k)) == Filter(filtered, KeyIs(SortKey(sortBy, collate), k))
  {
    var key := SortKey(sortBy, collate);
    SortIsStable(filtered, key);
    assert sortBy !in {"date", "title", "attendees"} ==> SortByKey(filtered, key) == filtered by {
      if sortBy !in {"date", "title", "attendees"} {
        SortKeepsSortedList(filtered, key);
      }
    }
    SortByKey(filtered, key)
  }

  /** Date order is ascending; attendee order puts fuller events first. */
  lemma SortOrders(filtered: seq<Event>, collate: string -> int)
    ensures forall i, j :: 0 <= i < j < |Sorted(filtered, "date", collate)| ==>
              Sorted(filtered, "date", collate)[i].date <= Sorted(filtered, "date", collate)[j].date
    ensures forall i, j :: 0 <= i < j < |Sorted(filtered, "attendees", collate)| ==>
              AttendeeCount(Sorted(filtered, "attendees", collate)[i]) >=
              AttendeeCount(Sorted(filtered, "attendees", collate)[j])
  {
    var byDate := Sorted(filtered, "date", collate);
    var dateKey := SortKey("date", collate);
    forall i, j | 0 <= i < j < |byDate| ensures byDate[i].date <= byDate[j].date {
      assert dateKey(byDate[i]) <= dateKey(byDate[j]);
    }
    var byCount := Sorted(filtered, "attendees", collate);
    var countKey := SortKey("attendees", collate);
    forall i, j | 0 <= i < j < |byCount| ensures AttendeeCount(byCount[i]) >= AttendeeCount(byCount[j]) {
      assert countKey(byCount[i]) <= countKey(byCount[j]);
    }
  }

  /** "Showing N of M events": the list shown never has more entries than were fetched. */
  lemma ShownNeverExceedsTotal(events: seq<Event>, term: string, category: string, now: int, sortBy: string, collate: string -> int)
    ensures |Sorted(Filtered(events, term, category, now), sortBy, collate)| <= |events|
  {
  }

  /** The statistics block. */
  datatype Stats = Stats(total: nat, attendees: int, upcoming: nat, locations: nat)

  function AttendeesOf(e: Event): int {
    AttendeeCount(e)
  }

  function LocationOf(e: Event): string {
    e.location
  }

  /** The four figures, over the whole fetched list: its length, the sum of the
      attendee counts, the number of events after now, and the number of distinct
      locations. The last two never exceed the first, and no figure is negative. */
  function StatsOf(events: seq<Event>, now: int): (st: Stats)
    ensures st.total == |events|
    ensures st.attendees == SumBy(events, AttendeesOf)
    ensures st.upcoming == Count(events, UpcomingAt(now)) && st.upcoming <= st.total
    ensures st.locations == |Image(events, LocationOf)| && st.locations <= st.total
    ensures st.attendees >= 0
  {
    ImageSizeBound(events, LocationOf);
    SumOfCountsIsNatural(events);
    Stats(|events|, SumBy(events, AttendeesOf), Count(events, UpcomingAt(now)), |Image(events, LocationOf)|)
  }

  /** Attendee counts are never negative, so neither is their total. */
  lemma {:induction false} SumOfCountsIsNatural(events: seq<Event>)
    ensures SumBy(events, AttendeesOf) >= 0
    decreases |events|
  {
    if events != [] {
      SumOfCountsIsNatural(events[1..]);
    }
  }

  /** A newly fetched event adds its own attendee count to the total. */
  lemma AttendeesAddUp(events: seq<Event>, e: Event, now: int)
    ensures StatsOf(events + [e], now).attendees == StatsOf(events, now).attendees + AttendeeCount(e)
  {
    SumByAppend(events, [e], AttendeesOf);
  }
}

=== FILE: feed.dfy ===
/** The overview that the home page and the dashboard both compute from the same two
    requests: the first six events, the first four members, and four counts over the
    full lists. */
module Feed {
  import opened Common
  import opened Lists
  import opened Records

  /** The four counts shown in the stats strip. */
  datatype Counts = Counts(totalEvents: nat, totalMembers: nat, upcomingEvents: nat, activeUsers: nat)

  /** The counts before any data arrives. */
  const NoCounts := Counts(0, 0, 0, 0)

  function ActiveTest(): Member -> bool {
    (m: Member) => IsActive(m)
  }

  /** The counts over the full fetched lists: their lengths, the events dated after now
      and the members flagged active; each of the last two is bounded by its total. */
  function CountsOf(events: seq<Event>, members: seq<Member>, now: int): (c: Counts)
    ensures c.totalEvents == |events| && c.totalMembers == |members|
    ensures c.upcomingEvents == Count(events, UpcomingAt(now)) && c.upcomingEvents <= c.totalEvents
    ensures c.activeUsers == Count(members, ActiveTest()) && c.activeUsers <= c.totalMembers
  {
    Counts(|events|, |members|, Count(events, UpcomingAt(now)), Count(members, ActiveTest()))
  }

  /** An event counts as upcoming iff it is dated after now: one that is counted is
      upcoming, and every upcoming event is counted. */
  lemma UpcomingCountsExactly(events: seq<Event>, now: int)
    ensures forall e :: e in Filter(events, UpcomingAt(now)) <==> e in events && e.date > now
  {
  }

  /** The data both pages keep. */
  datatype Overview = Overview(events: seq<Event>, members: seq<Member>, counts: Counts)

  const Empty := Overview([], [], NoCounts)

  /** The successful fetch: the first six events and the first four members, in order,
      and the counts over everything fetched. */
  function OverviewOf(events: seq<Event>, members: seq<Member>, now: int): (o: Overview)
    ensures o.events == Take(events, 6) && o.members == Take(members, 4)
    ensures |o.events| <= 6 && |o.events| <= o.counts.totalEvents
    ensures |o.members| <= 4 && |o.members| <= o.counts.totalMembers
    ensures o.events == events[..|o.events|] && o.members == members[..|o.members|]
    ensures o.counts == CountsOf(events, members, now)
  {
    Overview(Take(events, 6), Take(members, 4), CountsOf(events, members, now))
  }

  /** `fetchData` with `fetched` the two responses, or None when either request fails:
      a failure keeps what was there. */
  function ApplyFetch(o: Overview, fetched: Option<(seq<Event>, seq<Member>)>, now: int): (r: Overview)
    ensures fetched.None? ==> r == o
    ensures fetched.Some? ==> r == OverviewOf(fetched.value.0, fetched.value.1, now)
  {
    match fetched
    case None => o
    case Some((events, members)) => OverviewOf(events, members, now)
  }

  /** A failed first fetch leaves every count at zero and both lists empty. */
  lemma FailureKeepsZeros(now: int)
    ensures ApplyFetch(Empty, None, now).counts == NoCounts
    ensures ApplyFetch(Empty, None, now).events == []
  {
  }
}

=== FILE: forgot_password.dfy ===
/** The page that asks for a reset link: one email field, a page-level error line, and
    a success view with a "Try Different Email" button. `forgotPassword(email)` is an
    effect and its outcome an input. */
module ForgotPasswordPage {
  import opened Common
  import opened EmailRegex
  import opened Validation

  datatype State = State(email: string, isSubmitted: bool, error: string, loading: bool)

  datatype Effect = CallForgotPassword(email: string)

  const Initial := State("", false, "", false)

  const ValidAddressRequired := "Please enter a valid email address"

  /** The email input's `onChange`: only the address changes; the error line stays. */
  function SetEmail(s: State, value: string): (r: State)
    ensures r.email == value
    ensures r.isSubmitted == s.isSubmitted && r.error == s.error && r.loading == s.loading
  {
    s.(email := value)
  }

  /** `handleSubmit` with `outcome` the result `forgotPassword` resolves to. An empty
      address and an unrecognised one each set their own message and stop; otherwise
      `forgotPassword` is called once with the address as typed, success shows the
      success view, failure shows the store's message, and loading ends false. */
  function HandleSubmit(s: State, outcome: AuthResult): (r: Step<State, Effect>)
    ensures r.effects == [] <==> !EmailPattern(s.email)
    ensures r.effects != [] ==> r.effects == [CallForgotPassword(s.email)]
    ensures s.email == "" ==> r.state == s.(error := EmailRequired)
    ensures s.email != "" && !EmailPattern(s.email) ==> r.state == s.(error := ValidAddressRequired)
    ensures EmailPattern(s.email) ==>
              && r.state.email == s.email
              && r.state.isSubmitted == (s.isSubmitted || outcome.success)
              && r.state.error == (if outcome.success then "" else outcome.error)
              && !r.state.loading
  {
    if s.email == "" then Step(s.(error := EmailRequired), [])
    else if !EmailPattern(s.email) then Step(s.(error := ValidAddressRequired), [])
    else
      var s' := s.(loading := true, error := "");
      var s'' := if outcome.success then s'.(isSubmitted := true) else s'.(error := outcome.error);
      Step(s''.(loading := false), [CallForgotPassword(s.email)])
  }

  /** "Try Different Email": back to the form, nothing else changes. */
  function TryDifferentEmail(s: State): (r: State)
    ensures !r.isSubmitted
    ensures r.email == s.email && r.error == s.error && r.loading == s.loading
  {
    s.(isSubmitted := false)
  }

  /** After a successful request, "Try Different Email" returns to the form with the
      address kept and no error shown. */
  lemma RetryAfterSuccess(s: State, outcome: AuthResult)
    requires EmailPattern(s.email) && outcome.success
    ensures HandleSubmit(s, outcome).state.isSubmitted
    ensures TryDifferentEmail(HandleSubmit(s, outcome).state) == s.(isSubmitted := false, error := "", loading := false)
  {
  }
}

=== FILE: home.dfy ===
/** The home page: the overview and the loading flag, which ends false whether the
    two requests succeed or not. */
module HomePage {
  import opened Common
  import opened Records
  import Feed

  datatype State = State(overview: Feed.Overview, loading: bool)

  const Initial := State(Feed.Empty, true)

  /** `fetchData` on the home page. */
  function ApplyFetch(s: State, fetched: Option<(seq<Event>, seq<Member>)>, now: int): (r: State)
    ensures !r.loading
    ensures fetched.None? ==> r.overview == s.overview
    ensures fetched.Some? ==> r.overview == Feed.OverviewOf(fetched.value.0, fetched.value.1, now)
  {
    State(Feed.ApplyFetch(s.overview, fetched, now), false)
  }

  /** After the first fetch the page has stopped loading, and the counts are zero when
      the fetch failed. */
  lemma FirstFetchSettles(fetched: Option<(seq<Event>, seq<Member>)>, now: int)
    ensures !ApplyFetch(Initial, fetched, now).loading
    ensures fetched.None? ==> ApplyFetch(Initial, fetched, now).overview.counts == Feed.NoCounts
  {
  }
}

=== FILE: js_numbers.dfy ===
/** The two string-to-number conversions EventForm applies to its "maximum attendees"
    field: `Number(s)` (which `isNaN(s)` and `s < 1` use implicitly, ECMAScript
    StringToNumber) and `parseInt(s)` with no radix. Values are exact rationals:
    rounding to double precision is not modelled. */
module JsNumbers {
  import opened Common
  import opened Text

  /** A JavaScript number. */
  datatype Number = NaN | Finite(value: real) | Infinite(negative: bool)

  /** The value of an ASCII letter or digit as a digit ('a'/'A' is 10, ..., 'z'/'Z' is
      35); 36 for any other character, which is a digit in no base. */
  function DigitValue(c: char): (d: nat)
    ensures d <= 36
  {
    if '0' <= c <= '9' then c as int - '0' as int
    else if 'a' <= c <= 'z' then c as int - 'a' as int + 10
    else if 'A' <= c <= 'Z' then c as int - 'A' as int + 10
    else 36
  }

  /** `c` is a digit in base `radix`. */
  predicate IsDigitIn(c: char, radix: nat) {
    DigitValue(c) < radix
  }

  /** Length of the longest prefix of `s` made of base-`radix` digits. */
  function DigitRun(s: string, radix: nat): (n: nat)
    ensures n <= |s|
    ensures forall i :: 0 <= i < n ==> IsDigitIn(s[i], radix)
    ensures n < |s| ==> !IsDigitIn(s[n], radix)
  {
    if s != "" && IsDigitIn(s[0], radix) then 1 + DigitRun(s[1..], radix) else 0
  }

  /** The value of a string of digits in base `radix`, most significant digit first. */
  function DigitsValue(ds: string, radix: nat): nat {
    if ds == "" then 0 else DigitsValue(ds[..|ds| - 1], radix) * radix + DigitValue(ds[|ds| - 1])
  }

  /** `base` to the power `e`. */
  function Pow(base: nat, e: nat): (r: nat)
    ensures base > 0 ==> r > 0
  {
    if e == 0 then 1 else base * Pow(base, e - 1)
  }

  /** Ten to the (possibly negative) power `e`. */
  function Scale10(e: int): real {
    if e >= 0 then Pow(10, e) as real else 1.0 / (Pow(10, -e) as real)
  }

  /** ExponentPart, or nothing: the empty string gives exponent 0; 'e' or 'E', an
      optional sign and at least one digit give that exponent; anything else is
      not part of a numeric literal. */
  function Exponent(t: string): Option<int> {
    if t == "" then Some(0)
    else if t[0] != 'e' && t[0] != 'E' then None
    else
      var signed := |t| > 1 && (t[1] == '+' || t[1] == '-');
      var ds := if signed then t[2..] else t[1..];
      if ds != "" && DigitRun(ds, 10) == |ds| then
        Some(if signed && t[1] == '-' then 0 - DigitsValue(ds, 10) else DigitsValue(ds, 10))
      else None
  }

  /** StrUnsignedDecimalLiteral other than `Infinity`: digits, an optional '.' with
      optional digits, an optional exponent, and at least one digit before or after the
      '.'. The whole string must be consumed. */
  function UnsignedDecimal(u: string): Number {
    var a := DigitRun(u, 10);
    var rest := u[a..];
    var hasDot := rest != "" && rest[0] == '.';
    var b := if hasDot then DigitRun(rest[1..], 10) else 0;
    var frac := if hasDot then rest[1..1 + b] else "";
    var tail := if hasDot then rest[1 + b..] else rest;
    if a == 0 && b == 0 then NaN
    else
      match Exponent(tail)
      case None => NaN
      case Some(e) =>
        Finite((DigitsValue(u[..a], 10) as real + DigitsValue(frac, 10) as real / Pow(10, b) as real) * Scale10(e))
  }

  /** The base named by the letter after a leading '0' ('x' 16, 'o' 8, 'b' 2), or 0. */
  function RadixPrefix(c: char): nat {
    if c == 'x' || c == 'X' then 16
    else if c == 'o' || c == 'O' then 8
    else if c == 'b' || c == 'B' then 2
    else 0
  }

  /** `Number(s)`: surrounding whitespace is ignored and a blank string is 0; a
      `0x`/`0o`/`0b` literal is read in its base; otherwise an optional sign followed
      by `Infinity` or a decimal literal; anything else is NaN. */
  function ToNumber(s: string): (r: Number)
    ensures Blank(s) ==> r == Finite(0.0)
  {
    TrimEmptyIffBlank(s);
    var t := Trim(s);
    if t == "" then Finite(0.0)
    else if |t| >= 2 && t[0] == '0' && RadixPrefix(t[1]) != 0 then
      var ds := t[2..];
      if ds != "" && DigitRun(ds, RadixPrefix(t[1])) == |ds| then
        Finite(DigitsValue(ds, RadixPrefix(t[1])) as real)
      else NaN
    else
      var negative := t[0] == '-';
      var u := if t[0] == '-' || t[0] == '+' then t[1..] else t;
      if u == "Infinity" then Infinite(negative)
      else
        match UnsignedDecimal(u)
        case Finite(v) => Finite(if negative then -v else v)
        case other => other
  }

  /** `parseInt(s)`: leading whitespace is skipped, then an optional sign, then a `0x`
      or `0X` prefix switches to base 16; the longest run of digits that follows is
      read, and with no such digit the result is NaN. */
  function ParseInt(s: string): (r: Number)
    ensures Blank(s) ==> r == NaN
  {
    TrimStartFacts(s);
    var t := TrimStart(s);
    var negative := t != "" && t[0] == '-';
    var u := if t != "" && (t[0] == '-' || t[0] == '+') then t[1..] else t;
    var hex := |u| >= 2 && u[0] == '0' && (u[1] == 'x' || u[1] == 'X');
    var radix := if hex then 16 else 10;
    var body := if hex then u[2..] else u;
    var n := DigitRun(body, radix);
    if n == 0 then NaN
    else
      var v: int := DigitsValue(body[..n], radix);
      Finite((if negative then -v else v) as real)
  }

  /** `n < 1` for a number: NaN compares false, -Infinity true, +Infinity false. */
  predicate LessThanOne(n: Number) {
    match n
    case NaN => false
    case Finite(v) => v < 1.0
    case Infinite(negative) => negative
  }

  /** `parseInt` only ever yields NaN or a whole number. */
  lemma ParseIntIsWhole(s: string)
    ensures ParseInt(s).Infinite? == false
    ensures ParseInt(s).Finite? ==> ParseInt(s).value == ParseInt(s).value.Floor as real
  {
  }

  /** A non-empty string of ASCII decimal digits, what one types into a count field. */
  predicate PlainDigits(s: string) {
    s != "" && forall i :: 0 <= i < |s| ==> '0' <= s[i] <= '9'
  }

  /** On plain digit strings `Number` and `parseInt` agree: both read the decimal value. */
  lemma PlainDigitsAgree(s: string)
    requires PlainDigits(s)
    ensures ToNumber(s) == Finite(DigitsValue(s, 10) as real)
    ensures ParseInt(s) == Finite(DigitsValue(s, 10) as real)
  {
    PlainDigitsNumber(s);
    PlainDigitsParseInt(s);
  }

  /** `Number` of a plain digit string is its decimal value. */
  lemma PlainDigitsNumber(s: string)
    requires PlainDigits(s)
    ensures ToNumber(s) == Finite(DigitsValue(s, 10) as real)
  {
    assert !IsSpace(s[0]) && !IsSpace(s[|s| - 1]);
    assert TrimStart(s) == s;
    assert Trim(s) == s;
    assert |s| >= 2 ==> RadixPrefix(s[1]) == 0;
    assert s[0] != '-' && s[0] != '+' && s[0] != 'I';
    assert s != "Infinity";
    PlainDigitsDecimal(s);
  }

  /** A plain digit string is a decimal literal with no fraction and no exponent. */
  lemma PlainDigitsDecimal(s: string)
    requires PlainDigits(s)
    ensures UnsignedDecimal(s) == Finite(DigitsValue(s, 10) as real)
  {
    AllDigitsRun(s);
    assert s[|s|..] == "";
    assert s[..|s|] == s;
    assert Exponent("") == Some(0);
    assert Scale10(0) == 1.0;
  }

  /** `parseInt` of a plain digit string is its decimal value. */
  lemma PlainDigitsParseInt(s: string)
    requires PlainDigits(s)
    ensures ParseInt(s) == Finite(DigitsValue(s, 10) as real)
  {
    assert !IsSpace(s[0]);
    assert TrimStart(s) == s;
    assert s[0] != '-' && s[0] != '+';
    assert |s| >= 2 ==> s[1] != 'x' && s[1] != 'X';
    AllDigitsRun(s);
    assert s[..|s|] == s;
  }

  /** "0.5e1" as a decimal literal: no integer digits beyond the 0, one fraction digit
      and exponent 1, so five. */
  lemma HalfTimesTenDecimal()
    ensures UnsignedDecimal("0.5e1") == Finite(5.0)
  {
    var u := "0.5e1";
    assert DigitRun(u[1..], 10) == 0;
    assert DigitRun(u, 10) == 1;
    assert u[1..][1..] == "5e1";
    assert DigitRun("e1", 10) == 0;
    assert DigitRun("5e1", 10) == 1;
    assert "5e1"[..1] == "5" && "5e1"[1..] == "e1";
    assert "e1"[1..] == "1";
    assert DigitRun("1", 10) == 1;
    assert DigitsValue("1", 10) == 1;
    assert Exponent("e1") == Some(1);
    assert u[..1] == "0";
    assert DigitsValue("0", 10) == 0;
    assert DigitsValue("5", 10) == 5;
  }

  /** `Number("0.5e1")` is 5. */
  lemma HalfTimesTenNumber()
    ensures ToNumber("0.5e1") == Finite(5.0)
  {
    var s := "0.5e1";
    assert !IsSpace(s[0]) && !IsSpace(s[4]);
    assert TrimStart(s) == s;
    assert TrimEnd(s) == s;
    assert RadixPrefix(s[1]) == 0;
    assert s != "Infinity";
    HalfTimesTenDecimal();
  }

  /** `parseInt("0.5e1")` stops at the '.' and is 0. */
  lemma HalfTimesTenParseInt()
    ensures ParseInt("0.5e1") == Finite(0.0)
  {
    var s := "0.5e1";
    assert !IsSpace(s[0]);
    assert TrimStart(s) == s;
    assert DigitRun(s[1..], 10) == 0;
    assert DigitRun(s, 10) == 1;
    assert s[..1] == "0";
    assert DigitsValue("0", 10) == 0;
  }

  /** A string of decimal digits is one digit run. */
  lemma {:induction false} AllDigitsRun(s: string)
    requires forall i :: 0 <= i < |s| ==> '0' <= s[i] <= '9'
    ensures DigitRun(s, 10) == |s|
    decreases |s|
  {
    if s != "" {
      AllDigitsRun(s[1..]);
    }
  }
}

=== FILE: leaderboard.dfy ===
/** The leaderboard: three ranked lists fetched together, one shown at a time, each
    row numbered by its position and decorated by its rank and by two thresholds. */
module LeaderboardPage {
  import opened Common
  import opened Records

  /** The three tab ids. */
  const AllTime := "allTime"
  const Weekly := "weekly"
  const Monthly := "monthly"

  /** The `leaderboard` object: a list per tab id. */
  type Board = map<string, seq<Member>>

  const InitialBoard: Board := map[AllTime := [], Weekly := [], Monthly := []]

  datatype State = State(board: Board, loading: bool, activeTab: string)

  const Initial := State(InitialBoard, true, AllTime)

  /** `fetchLeaderboard` with `fetched` the three responses in tab order, or None when
      any of the three requests fails: the lists are stored only when all three arrive,
      and loading ends false either way. */
  function ApplyFetch(s: State, fetched: Option<(seq<Member>, seq<Member>, seq<Member>)>): (r: State)
    ensures !r.loading && r.activeTab == s.activeTab
    ensures fetched.None? ==> r.board == s.board
    ensures fetched.Some? ==>
              r.board == map[AllTime := fetched.value.0, Weekly := fetched.value.1, Monthly := fetched.value.2]
  {
    match fetched
    case None => s.(loading := false)
    case Some((allTime, weekly, monthly)) =>
      s.(board := map[AllTime := allTime, Weekly := weekly, Monthly := monthly], loading := false)
  }

  /** `setActiveTab`: only the tab changes. */
  function SelectTab(s: State, tab: string): (r: State)
    ensures r.activeTab == tab && r.board == s.board && r.loading == s.loading
  {
    s.(activeTab := tab)
  }

  /** `currentLeaderboard`: the active tab's list, or the empty list when the board has
      no entry under that id. */
  function Current(s: State): (list: seq<Member>)
    ensures s.activeTab in s.board ==> list == s.board[s.activeTab]
    ensures s.activeTab !in s.board ==> list == []
  {
    if s.activeTab in s.board then s.board[s.activeTab] else []
  }

  /** Before and after a failed fetch every tab shows an empty list. */
  lemma FailedFetchShowsNothing(tab: string)
    requires tab in {AllTime, Weekly, Monthly}
    ensures Current(ApplyFetch(SelectTab(Initial, tab), None)) == []
  {
  }

  /** What `getRankIcon` draws: a crown, a medal, an award, or the number itself. */
  datatype Icon = Crown | Medal | Award | Numbered(rank: int)

  /** `getRankIcon`: the three podium ranks get their own icons; any other rank is
      drawn as its number. */
  function RankIcon(rank: int): (icon: Icon)
    ensures icon.Numbered? <==> rank !in {1, 2, 3}
    ensures icon.Numbered? ==> icon.rank == rank
  {
    match rank
    case 1 => Crown
    case 2 => Medal
    case 3 => Award
    case _ => Numbered(rank)
  }

  const DefaultColor := "from-dark-600 to-dark-700"

  /** `getRankColor`: a gradient per podium rank, the dark default otherwise. */
  function RankColor(rank: int): (color: string)
    ensures color == DefaultColor <==> rank !in {1, 2, 3}
  {
    match rank
    case 1 => "from-yellow-500 to-yellow-600"
    case 2 => "from-gray-400 to-gray-500"
    case 3 => "from-orange-500 to-orange-600"
    case _ => DefaultColor
  }

  /** The three podium ranks look different from one another in both icon and colour. */
  lemma PodiumIsDistinct()
    ensures RankIcon(1) != RankIcon(2) && RankIcon(2) != RankIcon(3) && RankIcon(1) != RankIcon(3)
    ensures RankColor(1) != RankColor(2) && RankColor(2) != RankColor(3) && RankColor(1) != RankColor(3)
  {
  }

  /** One rendered row. */
  datatype Row = Row(
    rank: int,
    member: Member,
    icon: Icon,
    color: string,
    highlighted: bool,
    initial: string,
    roleLabel: string,
    hosted: int,
    points: int,
    attended: int,
    champion: bool,
    active: bool,
    elite: bool)

  /** The row of `member` at `rank`: the podium highlight for the first three ranks,
      the initial with 'M' as fallback, 'Member' for a missing role, 0 for missing
      counts, and the three badges. The Active and Elite tests compare the raw values,
      so a missing count never earns them. */
  function RowOf(member: Member, rank: int): (row: Row)
    ensures row.rank == rank && row.member == member
    ensures row.highlighted <==> rank <= 3
    ensures row.champion <==> rank == 1
    ensures row.active <==> member.eventsHosted.Some? && member.eventsHosted.value > 10
    ensures row.elite <==> member.points.Some? && member.points.value > 1000
    ensures row.initial == InitialOr(member.name, 'M')
    ensures row.roleLabel == if member.role == "" then "Member" else member.role
    ensures row.hosted == OrZero(member.eventsHosted) && row.points == OrZero(member.points)
    ensures row.attended == OrZero(member.eventsAttended)
  {
    Row(
      rank, member, RankIcon(rank), RankColor(rank), rank <= 3,
      InitialOr(member.name, 'M'),
      if member.role == "" then "Member" else member.role,
      OrZero(member.eventsHosted), OrZero(member.points), OrZero(member.eventsAttended),
      rank == 1,
      member.eventsHosted.Some? && member.eventsHosted.value > 10,
      member.points.Some? && member.points.value > 1000)
  }

  /** The list as rendered: one row per member, in order, the i-th ranked i + 1. */
  function Rows(list: seq<Member>): (rows: seq<Row>)
    ensures |rows| == |list|
    ensures forall i :: 0 <= i < |rows| ==> rows[i] == RowOf(list[i], i + 1)
  {
    seq(|list|, i requires 0 <= i < |list| => RowOf(list[i], i + 1))
  }

  /** The numbers 1 to n. */
  function OneTo(n: nat): (r: set<int>)
    ensures forall k :: k in r <==> 1 <= k <= n
  {
    if n == 0 then {} else OneTo(n - 1) + {n}
  }

  /** The ranks shown are exactly 1 to n, each once, so exactly one row is the champion
      when the list is not empty, and the highlighted rows are the first three. */
  lemma RanksAreOneToN(list: seq<Member>)
    ensures (set i | 0 <= i < |Rows(list)| :: Rows(list)[i].rank) == OneTo(|list|)
    ensures forall i, j :: 0 <= i < j < |Rows(list)| ==> Rows(list)[i].rank < Rows(list)[j].rank
    ensures forall i :: 0 <= i < |Rows(list)| ==> (Rows(list)[i].champion <==> i == 0)
    ensures forall i :: 0 <= i < |Rows(list)| ==> (Rows(list)[i].highlighted <==> i < 3)
  {
    var rows := Rows(list);
    var ranks := set i | 0 <= i < |rows| :: rows[i].rank;
    forall k | k in OneTo(|list|) ensures k in ranks {
      assert rows[k - 1].rank == k;
    }
  }
}

=== FILE: lists.dfy ===
/** The list derivations the pages build with `filter`, `slice`, `sort`, `reduce` and
    `new Set(...)`, stated over `seq`. */
module Lists {
  import opened Common

  /** `xs.filter(p)`. */
  function Filter<T>(xs: seq<T>, p: T -> bool): (r: seq<T>)
    ensures |r| <= |xs|
    ensures forall x :: x in r ==> x in xs && p(x)
    ensures forall i :: 0 <= i < |xs| && p(xs[i]) ==> xs[i] in r
  {
    if xs == [] then [] else (if p(xs[0]) then [xs[0]] else []) + Filter(xs[1..], p)
  }

  /** `filter` keeps every copy of an element that passes and no copy of one that
      does not. */
  lemma {:induction false} FilterCounts<T>(xs: seq<T>, p: T -> bool)
    ensures forall x :: multiset(Filter(xs, p))[x] == if p(x) then multiset(xs)[x] else 0
    decreases |xs|
  {
    if xs != [] {
      FilterCounts(xs[1..], p);
      assert xs == [xs[0]] + xs[1..];
      assert multiset(xs) == multiset{xs[0]} + multiset(xs[1..]);
    }
  }

  /** A test every element passes keeps the whole list. */
  lemma {:induction false} FilterAllKeeps<T>(xs: seq<T>, p: T -> bool)
    requires forall i :: 0 <= i < |xs| ==> p(xs[i])
    ensures Filter(xs, p) == xs
    decreases |xs|
  {
    if xs != [] {
      FilterAllKeeps(xs[1..], p);
      assert xs == [xs[0]] + xs[1..];
    }
  }

  /** `sub` is `xs` with some elements left out and the rest in their original order. */
  predicate IsSubsequence<T(==)>(sub: seq<T>, xs: seq<T>)
    decreases |xs|
  {
    if sub == [] then true
    else if xs == [] then false
    else if sub[0] == xs[0] then IsSubsequence(sub[1..], xs[1..])
    else IsSubsequence(sub, xs[1..])
  }

  /** `filter` keeps the kept elements in their original order. */
  lemma {:induction false} FilterIsSubsequence<T>(xs: seq<T>, p: T -> bool)
    ensures IsSubsequence(Filter(xs, p), xs)
    decreases |xs|
  {
    if xs != [] {
      FilterIsSubsequence(xs[1..], p);
      if p(xs[0]) {
        assert Filter(xs, p) == [xs[0]] + Filter(xs[1..], p);
        assert Filter(xs, p)[1..] == Filter(xs[1..], p);
      } else {
        assert Filter(xs, p) == Filter(xs[1..], p);
        SkipHeadKeepsSubsequence(Filter(xs[1..], p), xs);
      }
    }
  }

  /** A subsequence of the tail is a subsequence of the whole list. */
  lemma {:induction false} SkipHeadKeepsSubsequence<T>(sub: seq<T>, xs: seq<T>)
    requires xs != [] && IsSubsequence(sub, xs[1..])
    ensures IsSubsequence(sub, xs)
    decreases |xs|, 0
  {
    if sub != [] && sub[0] == xs[0] {
      SubsequenceDropHead(sub, xs[1..]);
    }
  }

  /** Dropping the first element of a subsequence keeps it a subsequence. */
  lemma {:induction false} SubsequenceDropHead<T>(sub: seq<T>, xs: seq<T>)
    requires sub != [] && IsSubsequence(sub, xs)
    ensures IsSubsequence(sub[1..], xs)
    decreases |xs|, 1
  {
    if sub[1..] != [] {
      if sub[0] != xs[0] {
        SubsequenceDropHead(sub, xs[1..]);
      }
      SkipHeadKeepsSubsequence(sub[1..], xs);
    }
  }

  /** No element occurs twice. */
  predicate Distinct<T(==)>(xs: seq<T>) {
    forall i, j :: 0 <= i < j < |xs| ==> xs[i] != xs[j]
  }

  /** Filtering a list without repeats gives a list without repeats. */
  lemma {:induction false} FilterKeepsDistinct<T>(xs: seq<T>, p: T -> bool)
    requires Distinct(xs)
    ensures Distinct(Filter(xs, p))
    decreases |xs|
  {
    if xs != [] {
      assert Distinct(xs[1..]);
      FilterKeepsDistinct(xs[1..], p);
      assert xs[0] !in xs[1..];
      assert xs[0] !in Filter(xs[1..], p);
    }
  }

  /** `xs.filter(p).length`. */
  function Count<T>(xs: seq<T>, p: T -> bool): nat {
    |Filter(xs, p)|
  }

  /** Three tests of which at most one holds of each element count at most the whole
      list between them. */
  lemma {:induction false} ExclusiveCountsBounded<T>(xs: seq<T>, p: T -> bool, q: T -> bool, r: T -> bool)
    requires forall i :: 0 <= i < |xs| ==> (p(xs[i]) ==> !q(xs[i]) && !r(xs[i])) && (q(xs[i]) ==> !r(xs[i]))
    ensures Count(xs, p) + Count(xs, q) + Count(xs, r) <= |xs|
    decreases |xs|
  {
    if xs != [] {
      assert forall i :: 0 <= i < |xs[1..]| ==> xs[1..][i] == xs[i + 1];
      ExclusiveCountsBounded(xs[1..], p, q, r);
    }
  }

  /** `xs.slice(0, n)`: the first `n` elements, or all of them when there are fewer. */
  function Take<T>(xs: seq<T>, n: nat): (r: seq<T>)
    ensures |r| == if |xs| < n then |xs| else n
    ensures forall i :: 0 <= i < |r| ==> r[i] == xs[i]
  {
    if |xs| < n then xs else xs[..n]
  }

  /** What a capped list renders: the first `limit` entries and, when some are hidden,
      the number behind the "+N more" chip. */
  datatype Preview<T> = Preview(shown: seq<T>, more: Option<nat>)

  /** `xs.slice(0, limit)` followed by `{xs.length > limit && '+' + (xs.length - limit) + ' more'}`. */
  function PreviewOf<T>(xs: seq<T>, limit: nat): (p: Preview<T>)
    ensures p.shown == Take(xs, limit)
    ensures p.more.Some? <==> |xs| > limit
    ensures p.more.Some? ==> |p.shown| + p.more.value == |xs|
  {
    Preview(Take(xs, limit), if |xs| > limit then Some(|xs| - limit) else None)
  }

  /** Every entry is either shown or counted in "+N more", and shown ones keep their order. */
  lemma PreviewAccountsForAll<T>(xs: seq<T>, limit: nat)
    ensures |PreviewOf(xs, limit).shown| + PreviewOf(xs, limit).more.GetOr(0) == |xs|
    ensures PreviewOf(xs, limit).shown == xs[..|PreviewOf(xs, limit).shown|]
  {
  }

  /** `xs.reduce((t, x) => t + f(x), 0)`. */
  function SumBy<T>(xs: seq<T>, f: T -> int): int {
    if xs == [] then 0 else f(xs[0]) + SumBy(xs[1..], f)
  }

  /** A sum over a concatenation is the sum of the two parts. */
  lemma {:induction false} SumByAppend<T>(xs: seq<T>, ys: seq<T>, f: T -> int)
    ensures SumBy(xs + ys, f) == SumBy(xs, f) + SumBy(ys, f)
    decreases |xs|
  {
    if xs == [] {
      assert xs + ys == ys;
    } else {
      assert (xs + ys)[0] == xs[0];
      assert (xs + ys)[1..] == xs[1..] + ys;
      SumByAppend(xs[1..], ys, f);
    }
  }

  /** The values `f` takes over `xs`: `new Set(xs.map(f))`. */
  function Image<T, U>(xs: seq<T>, f: T -> U): set<U> {
    set i | 0 <= i < |xs| :: f(xs[i])
  }

  /** A list has at most as many distinct images as elements. */
  lemma {:induction false} ImageSizeBound<T, U>(xs: seq<T>, f: T -> U)
    ensures |Image(xs, f)| <= |xs|
    decreases |xs|
  {
    if xs != [] {
      ImageSizeBound(xs[1..], f);
      assert Image(xs, f) == Image(xs[1..], f) + {f(xs[0])} by {
        forall u | u in Image(xs, f) ensures u in Image(xs[1..], f) + {f(xs[0])} {
          var i :| 0 <= i < |xs| && f(xs[i]) == u;
          if i > 0 {
            assert f(xs[1..][i - 1]) == u;
          }
        }
        forall u | u in Image(xs[1..], f) ensures u in Image(xs, f) {
          var i :| 0 <= i < |xs[1..]| && f(xs[1..][i]) == u;
          assert f(xs[i + 1]) == u;
        }
      }
    }
  }

  /** Non-decreasing under `key`. */
  predicate SortedBy<T>(xs: seq<T>, key: T -> int) {
    forall i, j :: 0 <= i < j < |xs| ==> key(xs[i]) <= key(xs[j])
  }

  /** Places `x` before the first element whose key is not smaller. */
  function Insert<T>(x: T, xs: seq<T>, key: T -> int): (r: seq<T>)
    ensures multiset(r) == multiset(xs) + multiset{x}
    ensures |r| == |xs| + 1
    ensures r[0] == x || (xs != [] && r[0] == xs[0])
  {
    if xs == [] || key(x) <= key(xs[0]) then [x] + xs
    else
      var rest := Insert(x, xs[1..], key);
      assert xs == [xs[0]] + xs[1..];
      [xs[0]] + rest
  }

  /** `[...xs].sort((a, b) => key(a) - key(b))`: JavaScript's sort is stable, and this
      insertion sort keeps elements with equal keys in their original order too. */
  function SortByKey<T>(xs: seq<T>, key: T -> int): (r: seq<T>)
    ensures multiset(r) == multiset(xs)
    ensures |r| == |xs|
    ensures SortedBy(r, key)
  {
    if xs == [] then []
    else
      assert xs == [xs[0]] + xs[1..];
      InsertKeepsSorted(xs[0], SortByKey(xs[1..], key), key);
      Insert(xs[0], SortByKey(xs[1..], key), key)
  }

  /** Inserting into a list in key order keeps it in key order. */
  lemma {:induction false} InsertKeepsSorted<T>(x: T, xs: seq<T>, key: T -> int)
    requires SortedBy(xs, key)
    ensures SortedBy(Insert(x, xs, key), key)
    decreases |xs|
  {
    if xs != [] && key(x) > key(xs[0]) {
      var tail := xs[1..];
      assert SortedBy(tail, key);
      InsertKeepsSorted(x, tail, key);
      var rest := Insert(x, tail, key);
      forall j | 0 <= j < |rest| ensures key(xs[0]) <= key(rest[j]) {
        assert rest[j] in multiset(rest);
        if rest[j] != x {
          assert rest[j] in multiset(tail);
          var k :| 0 <= k < |tail| && tail[k] == rest[j];
          assert xs[k + 1] == rest[j];
        }
      }
    }
  }

  /** The test "has key `k`", the tie class of `k` under `key`. */
  function KeyIs<T>(key: T -> int, k: int): T -> bool {
    (x: T) => key(x) == k
  }

  /** `Insert` puts `x` ahead of every element with its key and after every element with
      a smaller one, so within each tie class it lands first and the rest keep their order. */
  lemma {:induction false} InsertKeepsTies<T>(x: T, xs: seq<T>, key: T -> int, k: int)
    ensures Filter(Insert(x, xs, key), KeyIs(key, k)) ==
            (if key(x) == k then [x] else []) + Filter(xs, KeyIs(key, k))
    decreases |xs|
  {
    var p := KeyIs(key, k);
    if xs == [] || key(x) <= key(xs[0]) {
      FilterCons(x, xs, p);
    } else {
      var rest := Insert(x, xs[1..], key);
      assert Insert(x, xs, key) == [xs[0]] + rest;
      InsertKeepsTies(x, xs[1..], key, k);
      FilterCons(xs[0], rest, p);
      FilterCons(xs[0], xs[1..], p);
      assert [xs[0]] + xs[1..] == xs;
      if p(xs[0]) {
        // x goes after xs[0], whose key is k and smaller than x's
        assert Filter(rest, p) == Filter(xs[1..], p);
      } else {
        var mine := if key(x) == k then [x] else [];
        assert Filter(xs, p) == Filter(xs[1..], p);
        assert Filter(rest, p) == mine + Filter(xs[1..], p);
      }
    }
  }

  /** Filtering a list with a known first element. */
  lemma FilterCons<T>(y: T, ys: seq<T>, p: T -> bool)
    ensures Filter([y] + ys, p) == (if p(y) then [y] else []) + Filter(ys, p)
  {
    assert ([y] + ys)[1..] == ys;
  }

  /** The sort is stable: for every key, the elements with that key come out in the
      order they went in. */
  lemma {:induction false} SortIsStable<T>(xs: seq<T>, key: T -> int)
    ensures forall k :: Filter(SortByKey(xs, key), KeyIs(key, k)) == Filter(xs, KeyIs(key, k))
    decreases |xs|
  {
    if xs != [] {
      SortIsStable(xs[1..], key);
      forall k ensures Filter(SortByKey(xs, key), KeyIs(key, k)) == Filter(xs, KeyIs(key, k)) {
        InsertKeepsTies(xs[0], SortByKey(xs[1..], key), key, k);
      }
    }
  }

  /** Sorting a list that is already in key order leaves it as it is; in particular a
      comparator that always returns 0 keeps the original order. */
  lemma {:induction false} SortKeepsSortedList<T>(xs: seq<T>, key: T -> int)
    requires SortedBy(xs, key)
    ensures SortByKey(xs, key) == xs
    decreases |xs|
  {
    if xs != [] {
      assert SortedBy(xs[1..], key);
      SortKeepsSortedList(xs[1..], key);
      assert xs == [xs[0]] + xs[1..];
    }
  }
}

=== FILE: login.dfy ===
/** The sign-in page: an email/password form, its validation and its submit handler.
    `login` and `clearError` belong to the authentication store, which is not part of
    this model; they appear as effects, and the outcome of `login` is an input. */
module LoginPage {
  import opened Common
  import opened EmailRegex
  import opened Text
  import opened Validation

  datatype Field = Email | Password

  datatype Form = Form(email: string, password: string)

  datatype State = State(form: Form, errors: Errors<Field>)

  datatype Effect =
    | ClearAuthError
    | CallLogin(email: string, password: string)
    | Navigate(path: string)

  const Initial := State(Form("", ""), map[])

  /** The form the page accepts: an address the pattern recognises and a password of at
      least six characters. */
  predicate Acceptable(form: Form) {
    EmailPattern(form.email) && JsLength(form.password) >= 6
  }

  /** `validateForm`'s error map: one entry per failing field, the first failing test
      of its chain; empty exactly when the form is acceptable. */
  function Validate(form: Form): (r: Errors<Field>)
    ensures r.Keys <= {Email, Password}
    ensures Email in r <==> !EmailPattern(form.email)
    ensures Email in r ==> r[Email] == if form.email == "" then EmailRequired else EmailInvalid
    ensures Password in r <==> JsLength(form.password) < 6
    ensures Password in r ==> r[Password] == if form.password == "" then PasswordRequired else PasswordTooShort
    ensures NoErrors(r) <==> Acceptable(form)
  {
    var r := Put(Put(map[], Email, EmailRule(form.email)), Password, PasswordRule(form.password));
    assert Password in r ==> |r| > 0;
    r
  }

  /** The value the named field holds. */
  function Get(form: Form, f: Field): string {
    match f
    case Email => form.email
    case Password => form.password
  }

  /** Writes `value` into the named field; the other field keeps its value. */
  function SetField(form: Form, f: Field, value: string): (r: Form)
    ensures Get(r, f) == value
    ensures forall g :: g != f ==> Get(r, g) == Get(form, g)
  {
    match f
    case Email => form.(email := value)
    case Password => form.(password := value)
  }

  /** `handleChange`: the named field takes the typed value, that field's message (if
      any) is blanked, and the store's error is cleared. */
  function HandleChange(s: State, f: Field, value: string): (r: Step<State, Effect>)
    ensures r.state.form == SetField(s.form, f, value)
    ensures r.state.errors.Keys == s.errors.Keys
    ensures f in r.state.errors ==> r.state.errors[f] == ""
    ensures forall k :: k in s.errors && k != f ==> r.state.errors[k] == s.errors[k]
    ensures r.effects == [ClearAuthError]
  {
    Step(State(SetField(s.form, f, value), ClearField(s.errors, f)), [ClearAuthError])
  }

  /** `handleSubmit` with `outcome` the result `login` resolves to: the errors are
      replaced by the fresh validation; `login` is called only for an acceptable form,
      and the page moves to '/' only when that call succeeds. */
  function HandleSubmit(s: State, outcome: AuthResult): (r: Step<State, Effect>)
    ensures r.state == s.(errors := Validate(s.form))
    ensures CallLogin(s.form.email, s.form.password) in r.effects <==> Acceptable(s.form)
    ensures Navigate("/") in r.effects <==> Acceptable(s.form) && outcome.success
    ensures forall e :: e in r.effects ==> e == CallLogin(s.form.email, s.form.password) || e == Navigate("/")
    ensures |r.effects| <= 2 && (|r.effects| == 2 ==> r.effects[1] == Navigate("/"))
  {
    var errors := Validate(s.form);
    var s' := s.(errors := errors);
    if !NoErrors(errors) then Step(s', [])
    else if outcome.success then Step(s', [CallLogin(s.form.email, s.form.password), Navigate("/")])
    else Step(s', [CallLogin(s.form.email, s.form.password)])
  }

  /** Typing never touches the other field, and after any typing the submit decision
      depends on the form alone, not on messages left from an earlier attempt. */
  lemma SubmitIgnoresStaleErrors(s: State, f: Field, value: string, outcome: AuthResult)
    ensures HandleSubmit(HandleChange(s, f, value).state, outcome).effects
         == HandleSubmit(State(SetField(s.form, f, value), map[]), outcome).effects
  {
  }
}

=== FILE: member_card.dfy ===
/** The member card: the shared style per variant, a colour and an icon per role chosen without
    regard to ASCII case, the fallbacks for missing fields, and at most three
    achievements. */
module MemberCard {
  import opened Common
  import opened Text
  import opened Lists
  import opened Records
  import opened CardStyle

  /** The roles the card tells apart once lower-cased, and everything else. */
  datatype RoleKind = AdminRole | OrganizerRole | MemberRole | Unrecognised

  /** `role?.toLowerCase()` matched against the three role names; a missing role reads
      as '' and is unrecognised. */
  function KindOf(role: string): (k: RoleKind)
    ensures k == AdminRole <==> Lower(role) == "admin"
    ensures k == OrganizerRole <==> Lower(role) == "organizer"
    ensures k == MemberRole <==> Lower(role) == "member"
    ensures k == Unrecognised <==> Lower(role) !in {"admin", "organizer", "member"}
  {
    match Lower(role)
    case "admin" => AdminRole
    case "organizer" => OrganizerRole
    case "member" => MemberRole
    case _ => Unrecognised
  }

  const DefaultColor := "from-gray-500 to-gray-600"
  const DefaultIcon := "👤"

  /** `getRoleColor`. */
  function RoleColor(role: string): (color: string)
    ensures color == DefaultColor <==> KindOf(role) == Unrecognised
  {
    match KindOf(role)
    case AdminRole => "from-red-500 to-red-600"
    case OrganizerRole => "from-purple-500 to-purple-600"
    case MemberRole => "from-blue-500 to-blue-600"
    case Unrecognised => DefaultColor
  }

  /** `getRoleIcon`. */
  function RoleIcon(role: string): (icon: string)
    ensures icon == DefaultIcon <==> KindOf(role) == Unrecognised
  {
    match KindOf(role)
    case AdminRole => "👑"
    case OrganizerRole => "🎯"
    case MemberRole => "⭐"
    case Unrecognised => DefaultIcon
  }

  /** Colour and icon depend on the role only up to ASCII case. */
  lemma RoleBadgeIgnoresCase(a: string, b: string)
    requires Lower(a) == Lower(b)
    ensures RoleColor(a) == RoleColor(b) && RoleIcon(a) == RoleIcon(b)
  {
  }

  /** Different kinds never share a colour or an icon. */
  lemma KindsAreDistinct(a: string, b: string)
    requires KindOf(a) != KindOf(b)
    ensures RoleColor(a) != RoleColor(b) && RoleIcon(a) != RoleIcon(b)
  {
  }

  /** The card compares roles without regard to case while the members page counts them
      exactly: an 'Admin' wears the admin badge but is counted as none of the three
      roles. */
  lemma CapitalisedAdminIsBadgedButUncounted()
    ensures KindOf("Admin") == AdminRole
    ensures "Admin" !in {"admin", "organizer", "member"}
  {
    assert Lower("Admin") == "admin" by {
      assert Lower("Admin")[0] == LowerChar('A');
      assert "admin" == [LowerChar('A')] + "dmin";
      assert Lower("Admin") == [LowerChar('A')] + Lower("dmin");
    }
  }

  /** What the card shows. */
  datatype View = View(
    style: string,
    initial: string,
    roleColor: string,
    roleIcon: string,
    roleLabel: string,
    hosted: int,
    attended: int,
    showEmail: bool,
    showPhone: bool,
    showLocation: bool,
    achievements: Option<Preview<string>>)

  /** The achievements block: absent for a missing or empty list, otherwise the first
      three and the "+N more" chip. */
  function Achievements(m: Member): (p: Option<Preview<string>>)
    ensures p.Some? <==> m.achievements.Some? && |m.achievements.value| > 0
    ensures p.Some? ==> p.value == PreviewOf(m.achievements.value, 3)
    ensures p.Some? ==> (p.value.more.Some? <==> |m.achievements.value| > 3)
    ensures p.Some? ==> p.value.shown == m.achievements.value[..|p.value.shown|]
  {
    if m.achievements.Some? && |m.achievements.value| > 0
    then Some(PreviewOf(m.achievements.value, 3))
    else None
  }

  /** The card for `m`: 'M' for a missing name, 'Member' for a missing role, 0 for
      missing counts, and a contact line only for a present field. */
  function Render(m: Member, variant: string): (v: View)
    ensures v.style == VariantStyle(variant)
    ensures v.initial == InitialOr(m.name, 'M')
    ensures v.roleLabel == (if m.role == "" then "Member" else m.role)
    ensures v.hosted == OrZero(m.eventsHosted) && v.attended == OrZero(m.eventsAttended)
    ensures v.showEmail <==> m.email != ""
    ensures v.showPhone <==> m.phone != ""
    ensures v.showLocation <==> m.location != ""
    ensures v.roleColor == RoleColor(m.role) && v.roleIcon == RoleIcon(m.role)
    ensures v.achievements == Achievements(m)
  {
    View(VariantStyle(variant), InitialOr(m.name, 'M'), RoleColor(m.role), RoleIcon(m.role),
      if m.role == "" then "Member" else m.role,
      OrZero(m.eventsHosted), OrZero(m.eventsAttended),
      m.email != "", m.phone != "", m.location != "",
      Achievements(m))
  }

  /** A member without a role gets the gray badge and the 'Member' label. */
  lemma MissingRoleFallsBack(m: Member, variant: string)
    requires m.role == ""
    ensures Render(m, variant).roleColor == DefaultColor && Render(m, variant).roleIcon == DefaultIcon
    ensures Render(m, variant).roleLabel == "Member"
  {
  }
}

=== FILE: members.dfy ===
/** The members directory: the fetched list narrowed by a search term and a role,
    ordered by the chosen key, and the role counts shown above it. `localeCompare` is
    represented by a collation key: an integer per string that orders strings as the
    locale does. */
module MembersPage {
  import opened Common
  import opened Text
  import opened Lists
  import opened Records

  /** The search and role tests of `filteredMembers`: the name or the email contains
      the term, ignoring ASCII case, and the role filter is 'all' or the member's role. */
  predicate Matches(m: Member, term: string, role: string) {
    && (MatchesTerm(m.name, term) || MatchesTerm(m.email, term))
    && (role == "all" || m.role == role)
  }

  /** The callback given to `members.filter`. */
  function MatchesFor(term: string, role: string): Member -> bool {
    m => Matches(m, term, role)
  }

  /** `filteredMembers`: exactly the matching members, each as often as it was
      fetched, in their original order. */
  function Filtered(members: seq<Member>, term: string, role: string): (r: seq<Member>)
    ensures forall m :: m in r <==> m in members && Matches(m, term, role)
    ensures forall m :: multiset(r)[m] == if Matches(m, term, role) then multiset(members)[m] else 0
    ensures IsSubsequence(r, members)
  {
    FilterIsSubsequence(members, MatchesFor(term, role));
    FilterCounts(members, MatchesFor(term, role));
    Filter(members, MatchesFor(term, role))
  }

  /** With no search term and the role filter on 'all', the list is the fetched list:
      "Showing m of m". */
  lemma EmptySearchKeepsEveryone(members: seq<Member>)
    ensures Filtered(members, "", "all") == members
  {
    forall i | 0 <= i < |members| ensures MatchesFor("", "all")(members[i]) {
      EmptyTermMatchesAll(members[i].name);
    }
    FilterAllKeeps(members, MatchesFor("", "all"));
  }

  /** The comparator of `sortedMembers` as a key to sort by in ascending order: the
      collation key of the name or the role, minus the hosted-events count (so more
      comes first, a missing count is 0), or the same key for every member when the
      choice is unknown. */
  function SortKey(sortBy: string, collate: string -> int): (key: Member -> int)
    ensures sortBy == "events" ==> forall m :: key(m) == -OrZero(m.eventsHosted)
    ensures sortBy !in {"name", "role", "events"} ==> forall m :: key(m) == 0
  {
    if sortBy == "name" then (m: Member) => collate(m.name)
    else if sortBy == "role" then (m: Member) => collate(m.role)
    else if sortBy == "events" then (m: Member) => -OrZero(m.eventsHosted)
    else (m: Member) => 0
  }

  /** `sortedMembers`: the filtered members, each kept as often as it occurs, in key
      order; ties keep their filtered order, as JavaScript's sort is stable, so an unknown
      choice keeps the filtered order. */
  function Sorted(filtered: seq<Member>, sortBy: string, collate: string -> int): (r: seq<Member>)
    ensures multiset(r) == multiset(filtered)
    ensures SortedBy(r, SortKey(sortBy, collate))
    ensures sortBy !in {"name", "role", "events"} ==> r == filtered
    ensures forall k :: Filter(r, KeyIs(SortKey(sortBy, collate), k)) == Filter(filtered, KeyIs(SortKey(sortBy, collate), k))
  {
    var key := SortKey(sortBy, collate);
    SortIsStable(filtered, key);
    assert sortBy !in {"name", "role", "events"} ==> SortByKey(filtered, key) == filtered by {
      if sortBy !in {"name", "role", "events"} {
        SortKeepsSortedList(filtered, key);
      }
    }
    SortByKey(filtered, key)
  }

  /** Sorting by events puts the members who hosted more first, a missing count
      ranking as 0. */
  lemma EventsSortIsNonIncreasing(filtered: seq<Member>, collate: string -> int)
    ensures forall i, j :: 0 <= i < j < |Sorted(filtered, "events", collate)| ==>
              OrZero(Sorted(filtered, "events", collate)[i].eventsHosted) >=
              OrZero(Sorted(filtered, "events", collate)[j].eventsHosted)
  {
    var r := Sorted(filtered, "events", collate);
    var key := SortKey("events", collate);
    forall i, j | 0 <= i < j < |r| ensures OrZero(r[i].eventsHosted) >= OrZero(r[j].eventsHosted) {
      assert key(r[i]) <= key(r[j]);
    }
  }

  /** The `stats` object. */
  datatype Stats = Stats(total: nat, admins: nat, organizers: nat, members: nat)

  function HasRole(role: string): Member -> bool {
    (m: Member) => m.role == role
  }

  /** `stats`: the list length and the number of members holding each of the three
      roles, computed on the whole fetched list (not the filtered one). Roles are
      compared exactly, so the three counts never exceed the total between them. */
  function StatsOf(members: seq<Member>): (st: Stats)
    ensures st.total == |members|
    ensures st.admins == Count(members, HasRole("admin"))
    ensures st.organizers == Count(members, HasRole("organizer"))
    ensures st.members == Count(members, HasRole("member"))
    ensures st.admins + st.organizers + st.members <= st.total
  {
    ExclusiveCountsBounded(members, HasRole("admin"), HasRole("organizer"), HasRole("member"));
    Stats(|members|, Count(members, HasRole("admin")), Count(members, HasRole("organizer")),
      Count(members, HasRole("member")))
  }
}

=== FILE: navbar.dfy ===
/** The navigation bar: four panels that open and close independently, the search box
    that jumps to the events list, the highlighted link, and sign-out. `encode` stands
    for `encodeURIComponent`. */
module NavbarPage {
  import opened Common
  import opened Text

  /** The four toggled panels: the mobile menu, the profile dropdown, the search box and
      the notifications list. */
  datatype Panel = Menu | Profile | Search | Notifications

  datatype State = State(
    isMenuOpen: bool,
    isProfileOpen: bool,
    isSearchOpen: bool,
    isNotificationsOpen: bool,
    searchTerm: string)

  const Initial := State(false, false, false, false, "")

  function IsOpen(s: State, p: Panel): bool {
    match p
    case Menu => s.isMenuOpen
    case Profile => s.isProfileOpen
    case Search => s.isSearchOpen
    case Notifications => s.isNotificationsOpen
  }

  /** Opens or closes one panel; the others and the search term keep their values. */
  function SetOpen(s: State, p: Panel, open: bool): (r: State)
    ensures IsOpen(r, p) == open
    ensures forall q :: q != p ==> IsOpen(r, q) == IsOpen(s, q)
    ensures r.searchTerm == s.searchTerm
  {
    match p
    case Menu => s.(isMenuOpen := open)
    case Profile => s.(isProfileOpen := open)
    case Search => s.(isSearchOpen := open)
    case Notifications => s.(isNotificationsOpen := open)
  }

  /** The four toggle buttons: the panel's flag is negated and nothing else changes. */
  function Toggle(s: State, p: Panel): (r: State)
    ensures IsOpen(r, p) == !IsOpen(s, p)
    ensures forall q :: q != p ==> IsOpen(r, q) == IsOpen(s, q)
    ensures r.searchTerm == s.searchTerm
  {
    SetOpen(s, p, !IsOpen(s, p))
  }

  /** Pressing the same toggle twice restores the bar, and toggles of different panels
      commute. */
  lemma ToggleTwiceRestores(s: State, p: Panel, q: Panel)
    ensures Toggle(Toggle(s, p), p) == s
    ensures Toggle(Toggle(s, p), q) == Toggle(Toggle(s, q), p)
  {
  }

  /** The search input's `onChange`. */
  function SetSearchTerm(s: State, term: string): (r: State)
    ensures r.searchTerm == term
    ensures forall p :: IsOpen(r, p) == IsOpen(s, p)
  {
    s.(searchTerm := term)
  }

  /** What the bar asks for outside itself. */
  datatype Effect = Navigate(path: string) | Logout

  const SearchPath := "/events?search="

  /** `handleSearch`: a blank term does nothing at all; any other term, untrimmed and
      encoded, is appended to the events path, after which the search box closes and
      the term is emptied. */
  function HandleSearch(s: State, encode: string -> string): (r: Step<State, Effect>)
    ensures Blank(s.searchTerm) ==> r == Step(s, [])
    ensures !Blank(s.searchTerm) ==>
              && r.effects == [Navigate(SearchPath + encode(s.searchTerm))]
              && r.state == SetOpen(s, Search, false).(searchTerm := "")
  {
    if Blank(s.searchTerm) then Step(s, [])
    else Step(s.(isSearchOpen := false, searchTerm := ""), [Navigate(SearchPath + encode(s.searchTerm))])
  }

  /** A search empties the box, so submitting again at once navigates nowhere. */
  lemma SearchIsNotRepeated(s: State, encode: string -> string)
    ensures HandleSearch(HandleSearch(s, encode).state, encode).effects == []
  {
    assert Blank("");
  }

  /** The four links of the bar. */
  const NavPaths: seq<string> := ["/", "/events", "/members", "/leaderboard"]

  /** `isActive`: a link is highlighted only when the current path is exactly its own;
      a path below it, such as an event's page, does not count. */
  function IsActive(pathname: string, path: string): (active: bool)
    ensures active <==> pathname == path
  {
    pathname == path
  }

  /** The links have distinct paths, so at most one is highlighted for any location. */
  lemma AtMostOneActive(pathname: string)
    ensures forall i, j :: 0 <= i < j < |NavPaths| ==> !(IsActive(pathname, NavPaths[i]) && IsActive(pathname, NavPaths[j]))
  {
  }

  /** `handleLogout`: sign out, go home, close the profile dropdown. */
  function HandleLogout(s: State): (r: Step<State, Effect>)
    ensures r.effects == [Logout, Navigate("/")]
    ensures !IsOpen(r.state, Profile)
    ensures forall q :: q != Profile ==> IsOpen(r.state, q) == IsOpen(s, q)
    ensures r.state.searchTerm == s.searchTerm
  {
    Step(SetOpen(s, Profile, false), [Logout, Navigate("/")])
  }
}

=== FILE: profile.dfy ===
/** The profile page: the signed-in user's details in a form that is read-only until
    "Edit" is pressed, an optional password change, and the save that sends
    `PUT /users/profile`. The user comes from the authentication store and the outcome
    of the request is an input. */
module ProfilePage {
  import opened Common
  import opened EmailRegex
  import opened Text
  import opened Validation
  import opened Records

  datatype Field = Name | Email | Phone | Location | Bio | CurrentPassword | NewPassword | ConfirmPassword

  /** The keys of the error map: one per input, and `submit` for a failed save. */
  datatype ErrorKey = FieldError(field: Field) | SubmitError

  datatype Form = Form(
    name: string, email: string, phone: string, location: string, bio: string,
    currentPassword: string, newPassword: string, confirmPassword: string)

  datatype State = State(form: Form, errors: Errors<ErrorKey>, isEditing: bool, loading: bool)

  datatype PasswordChange = PasswordChange(currentPassword: string, newPassword: string)

  /** The body of `PUT /users/profile`. */
  datatype UpdateData = UpdateData(
    name: string, email: string, phone: string, location: string, bio: string,
    passwordChange: Option<PasswordChange>)

  datatype Effect = PutProfile(data: UpdateData)

  const NameRequired := "Name is required"
  const CurrentPasswordRequired := "Current password is required"
  const SaveFailed := "Failed to update profile"

  /** The form as the user record fills it: each missing detail is '' and the three
      password fields are empty. */
  function FormFromUser(user: Option<User>): (f: Form)
    ensures user.None? ==> f == Form("", "", "", "", "", "", "", "")
    ensures user.Some? ==> f.name == OrEmpty(user.value.name) && f.email == OrEmpty(user.value.email)
    ensures user.Some? ==> f.phone == OrEmpty(user.value.phone) && f.location == OrEmpty(user.value.location)
    ensures user.Some? ==> f.bio == OrEmpty(user.value.bio)
    ensures f.currentPassword == "" && f.newPassword == "" && f.confirmPassword == ""
  {
    match user
    case None => Form("", "", "", "", "", "", "", "")
    case Some(u) => Form(OrEmpty(u.name), OrEmpty(u.email), OrEmpty(u.phone), OrEmpty(u.location), OrEmpty(u.bio), "", "", "")
  }

  function Initial(user: Option<User>): State {
    State(FormFromUser(user), map[], false, false)
  }

  /** The page-mount and user-change effect: a present user refills the form. */
  function SyncFromUser(s: State, user: Option<User>): (r: State)
    ensures user.Some? ==> r == s.(form := FormFromUser(user))
    ensures user.None? ==> r == s
  {
    if user.Some? then s.(form := FormFromUser(user)) else s
  }

  /** A password change is being requested: editing, with a new password typed. */
  predicate ChangingPassword(form: Form, isEditing: bool) {
    isEditing && form.newPassword != ""
  }

  /** The keys `validateForm` can set: never `submit`, phone, location or bio. */
  const CheckedKeys := {FieldError(Name), FieldError(Email), FieldError(CurrentPassword), FieldError(NewPassword), FieldError(ConfirmPassword)}

  /** What the page accepts. */
  predicate Acceptable(form: Form, isEditing: bool) {
    && form.name != ""
    && EmailPattern(form.email)
    && (ChangingPassword(form, isEditing) ==>
          form.currentPassword != "" && JsLength(form.newPassword) >= 6 && form.confirmPassword == form.newPassword)
  }

  /** `validateForm`. */
  function Validate(form: Form, isEditing: bool): (r: Errors<ErrorKey>)
    ensures FieldError(Name) in r <==> form.name == ""
    ensures FieldError(Email) in r <==> !EmailPattern(form.email)
    ensures FieldError(Name) in r ==> r[FieldError(Name)] == NameRequired
    ensures FieldError(Email) in r ==> r[FieldError(Email)] == if form.email == "" then EmailRequired else EmailInvalid
    ensures !ChangingPassword(form, isEditing) ==>
              r.Keys <= {FieldError(Name), FieldError(Email)}
    ensures FieldError(CurrentPassword) in r <==> ChangingPassword(form, isEditing) && form.currentPassword == ""
    ensures FieldError(NewPassword) in r <==> ChangingPassword(form, isEditing) && JsLength(form.newPassword) < 6
    ensures FieldError(ConfirmPassword) in r <==>
              ChangingPassword(form, isEditing) && form.confirmPassword != form.newPassword
    ensures r.Keys <= CheckedKeys
    ensures NoErrors(r) <==> Acceptable(form, isEditing)
  {
    var changing := ChangingPassword(form, isEditing);
    var r := DetailErrors(form);
    var r := Put(r, FieldError(CurrentPassword), When(changing && form.currentPassword == "", CurrentPasswordRequired));
    var r := Put(r, FieldError(NewPassword), When(changing && JsLength(form.newPassword) < 6, PasswordTooShort));
    var r := Put(r, FieldError(ConfirmPassword), When(changing && form.newPassword != form.confirmPassword, PasswordsDiffer));
    NoErrorsIffNoKey(r);
    r
  }

  /** The first two chains of `validateForm`: the name and the email. */
  function DetailErrors(form: Form): (r: Errors<ErrorKey>)
    ensures FieldError(Name) in r <==> form.name == ""
    ensures FieldError(Email) in r <==> !EmailPattern(form.email)
    ensures FieldError(Name) in r ==> r[FieldError(Name)] == NameRequired
    ensures FieldError(Email) in r ==> r[FieldError(Email)] == if form.email == "" then EmailRequired else EmailInvalid
    ensures r.Keys <= {FieldError(Name), FieldError(Email)}
  {
    var r := map[];
    var r := Put(r, FieldError(Name), When(form.name == "", NameRequired));
    Put(r, FieldError(Email), EmailRule(form.email))
  }

  /** `updateData`: the five details always, the current and new password only when a
      new password was typed. */
  function MakeUpdate(form: Form): (d: UpdateData)
    ensures d.name == form.name && d.email == form.email && d.phone == form.phone
    ensures d.location == form.location && d.bio == form.bio
    ensures d.passwordChange.Some? <==> form.newPassword != ""
    ensures d.passwordChange.Some? ==> d.passwordChange.value == PasswordChange(form.currentPassword, form.newPassword)
  {
    UpdateData(form.name, form.email, form.phone, form.location, form.bio,
      if form.newPassword != "" then Some(PasswordChange(form.currentPassword, form.newPassword)) else None)
  }

  /** `handleSubmit` with `saved` whether the request succeeded. A rejected form only
      refreshes the messages. Otherwise the update is sent; success leaves edit mode,
      failure replaces every message by the single `submit` one; loading ends false. */
  function HandleSubmit(s: State, saved: bool): (r: Step<State, Effect>)
    ensures r.state.form == s.form
    ensures !Acceptable(s.form, s.isEditing) ==> r.state == s.(errors := Validate(s.form, s.isEditing)) && r.effects == []
    ensures Acceptable(s.form, s.isEditing) ==> r.effects == [PutProfile(MakeUpdate(s.form))] && !r.state.loading
    ensures Acceptable(s.form, s.isEditing) && saved ==> !r.state.isEditing && r.state.errors == map[]
    ensures Acceptable(s.form, s.isEditing) && !saved ==>
              r.state.isEditing == s.isEditing && r.state.errors == map[SubmitError := SaveFailed]
  {
    var errors := Validate(s.form, s.isEditing);
    if !NoErrors(errors) then Step(s.(errors := errors), [])
    else
      var s' := s.(errors := errors, loading := true);
      var s'' := if saved then s'.(isEditing := false) else s'.(errors := map[SubmitError := SaveFailed]);
      Step(s''.(loading := false), [PutProfile(MakeUpdate(s.form))])
  }

  function Get(form: Form, f: Field): string {
    match f
    case Name => form.name
    case Email => form.email
    case Phone => form.phone
    case Location => form.location
    case Bio => form.bio
    case CurrentPassword => form.currentPassword
    case NewPassword => form.newPassword
    case ConfirmPassword => form.confirmPassword
  }

  function SetField(form: Form, f: Field, value: string): (r: Form)
    ensures Get(r, f) == value
    ensures forall g :: g != f ==> Get(r, g) == Get(form, g)
  {
    match f
    case Name => form.(name := value)
    case Email => form.(email := value)
    case Phone => form.(phone := value)
    case Location => form.(location := value)
    case Bio => form.(bio := value)
    case CurrentPassword => form.(currentPassword := value)
    case NewPassword => form.(newPassword := value)
    case ConfirmPassword => form.(confirmPassword := value)
  }

  /** `handleChange`: the field takes the value and its message is blanked. */
  function HandleChange(s: State, f: Field, value: string): (r: State)
    ensures Get(r.form, f) == value
    ensures forall g :: g != f ==> Get(r.form, g) == Get(s.form, g)
    ensures r.errors.Keys == s.errors.Keys
    ensures FieldError(f) in r.errors ==> r.errors[FieldError(f)] == ""
    ensures forall k :: k in s.errors && k != FieldError(f) ==> r.errors[k] == s.errors[k]
    ensures r.isEditing == s.isEditing && r.loading == s.loading
  {
    s.(form := SetField(s.form, f, value), errors := ClearField(s.errors, FieldError(f)))
  }

  /** The "Edit" button. */
  function StartEditing(s: State): (r: State)
    ensures r.isEditing && r.form == s.form && r.errors == s.errors
  {
    s.(isEditing := true)
  }

  /** `handleCancel`: the form is refilled from the user, every message goes and edit
      mode ends. */
  function HandleCancel(s: State, user: Option<User>): (r: State)
    ensures r.form == FormFromUser(user)
    ensures r.errors == map[] && !r.isEditing && r.loading == s.loading
  {
    s.(form := FormFromUser(user), errors := map[], isEditing := false)
  }

  /** Cancel discards every edit: typing before it makes no difference. */
  lemma CancelDiscardsEdits(s: State, f: Field, value: string, user: Option<User>)
    ensures HandleCancel(HandleChange(s, f, value), user) == HandleCancel(s, user)
  {
  }

  /** After cancelling, a page whose user has a name and a recognised email passes
      validation: no password check applies outside edit mode. */
  lemma CancelledFormValidates(s: State, user: Option<User>)
    requires user.Some? && OrEmpty(user.value.name) != "" && EmailPattern(OrEmpty(user.value.email))
    ensures NoErrors(Validate(HandleCancel(s, user).form, HandleCancel(s, user).isEditing))
  {
  }

  /** Without a signed-in user the page shows only "Access Denied". */
  function Render(isAuthenticated: bool): (v: View)
    ensures v == AccessDenied <==> !isAuthenticated
  {
    Gate(isAuthenticated)
  }
}

=== FILE: records.dfy ===
/** The records the pages receive from the server and from the authentication store.
    A text field is a `string`. Where the pages only test it for truthiness or print
    it, '' stands for an absent value, since they treat both alike; a member's name and
    email and an event's title, description and location are lower-cased by the
    searches, which would fail on an absent value, so these are taken to be present;
    so is a member's role where the members page sorts by it with `localeCompare`.
    Numeric and list fields whose absence the pages default with `|| 0` or `?.` are
    `Option`s. Dates are instants on an integer time line. */
module Records {
  import opened Common

  /** One entry of `/members/allMembers` or of a leaderboard tab. */
  datatype Member = Member(
    id: string,
    name: string,
    email: string,
    phone: string,
    location: string,
    role: string,
    eventsHosted: Option<int>,
    eventsAttended: Option<int>,
    points: Option<int>,
    isActive: Option<bool>,
    achievements: Option<seq<string>>)

  /** One entry of an event's `registeredUsers`: both fields may be missing. */
  datatype Attendee = Attendee(id: Option<string>, name: Option<string>)

  /** An event's `createdBy`. */
  datatype Organizer = Organizer(name: string, role: string)

  /** One entry of `/events/allEvents`. */
  datatype Event = Event(
    id: string,
    title: string,
    description: string,
    location: string,
    category: string,
    date: int,
    time: string,
    registeredUsers: Option<seq<Attendee>>,
    createdBy: Option<Organizer>)

  /** The signed-in user as the authentication store exposes it. */
  datatype User = User(
    id: Option<string>,
    name: Option<string>,
    email: Option<string>,
    phone: Option<string>,
    location: Option<string>,
    bio: Option<string>,
    points: Option<int>,
    rank: Option<int>)

  /** `event.registeredUsers?.length || 0`. */
  function AttendeeCount(e: Event): (n: nat)
    ensures e.registeredUsers.Some? ==> n == |e.registeredUsers.value|
    ensures e.registeredUsers.None? ==> n == 0
  {
    if e.registeredUsers.Some? then |e.registeredUsers.value| else 0
  }

  /** `new Date(event.date) > new Date()`. */
  predicate IsUpcoming(e: Event, now: int) {
    e.date > now
  }

  /** The test `filter` applies to count upcoming events. */
  function UpcomingAt(now: int): Event -> bool {
    (e: Event) => IsUpcoming(e, now)
  }

  /** `member.isActive` used as a condition. */
  predicate IsActive(m: Member) {
    m.isActive == Some(true)
  }
}

=== FILE: register.dfy ===
/** The sign-up page: name, email, password, confirmation, a role chosen from three
    options (preset to 'member') and a terms checkbox. `register` and `clearError` belong
    to the authentication store and appear as effects; `register`'s outcome is an input. */
module RegisterPage {
  import opened Common
  import opened Text
  import opened EmailRegex
  import opened Validation

  datatype Field = Name | Email | Password | ConfirmPassword | Role

  /** The keys of the error map: one per input, and the terms checkbox. */
  datatype ErrorKey = FieldError(field: Field) | TermsError

  datatype Form = Form(name: string, email: string, password: string, confirmPassword: string, role: string)

  datatype State = State(form: Form, agreedToTerms: bool, errors: Errors<ErrorKey>)

  /** What is sent to `register`: the form with the confirmation left out. */
  datatype UserData = UserData(name: string, email: string, password: string, role: string)

  datatype Effect =
    | ClearAuthError
    | CallRegister(data: UserData)
    | Navigate(path: string)

  const Initial := State(Form("", "", "", "", "member"), false, map[])

  const NameRequired := "Name is required"
  const NameTooShort := "Name must be at least 2 characters"
  const TermsRequired := "You must agree to the terms and conditions"

  /** The registration the page accepts: a name of two or more characters once trimmed,
      a recognised address, a password of six or more characters repeated exactly, and
      the terms accepted. */
  predicate Acceptable(form: Form, agreed: bool) {
    && JsLength(Trim(form.name)) >= 2
    && EmailPattern(form.email)
    && JsLength(form.password) >= 6
    && form.confirmPassword == form.password
    && agreed
  }

  /** `validateForm`: one message per failing field; the terms message whenever the box
      is unchecked, whatever the other fields hold. */
  function Validate(form: Form, agreed: bool): (r: Errors<ErrorKey>)
    ensures r.Keys <= AllErrorKeys
    ensures FieldError(Name) in r <==> JsLength(Trim(form.name)) < 2
    ensures FieldError(Name) in r ==> r[FieldError(Name)] == if Blank(form.name) then NameRequired else NameTooShort
    ensures FieldError(Email) in r <==> !EmailPattern(form.email)
    ensures FieldError(Email) in r ==> r[FieldError(Email)] == if form.email == "" then EmailRequired else EmailInvalid
    ensures FieldError(Password) in r <==> JsLength(form.password) < 6
    ensures FieldError(Password) in r ==> r[FieldError(Password)] == if form.password == "" then PasswordRequired else PasswordTooShort
    ensures FieldError(ConfirmPassword) in r <==> form.confirmPassword == "" || form.confirmPassword != form.password
    ensures FieldError(ConfirmPassword) in r ==>
              r[FieldError(ConfirmPassword)] == if form.confirmPassword == "" then ConfirmRequired else PasswordsDiffer
    ensures TermsError in r <==> !agreed
    ensures TermsError in r ==> r[TermsError] == TermsRequired
    ensures NoErrors(r) <==> Acceptable(form, agreed)
  {
    TrimEmptyIffBlank(form.name);
    var verdict := k => Verdict(form, agreed, k);
    var r := FromVerdicts(AllErrorKeys, verdict);
    assert verdict(FieldError(Name)) == MinLengthRule(form.name, 2, NameRequired, NameTooShort);
    assert verdict(FieldError(Email)) == EmailRule(form.email);
    assert verdict(FieldError(Password)) == PasswordRule(form.password);
    assert verdict(FieldError(ConfirmPassword)) == ConfirmRule(form.password, form.confirmPassword);
    assert verdict(TermsError) == if agreed then None else Some(TermsRequired);
    r
  }

  const AllErrorKeys := {FieldError(Name), FieldError(Email), FieldError(Password), FieldError(ConfirmPassword), TermsError}

  /** The message chain of each key, in the order the source tests it. */
  function Verdict(form: Form, agreed: bool, k: ErrorKey): Option<string> {
    match k
    case FieldError(Name) => MinLengthRule(form.name, 2, NameRequired, NameTooShort)
    case FieldError(Email) => EmailRule(form.email)
    case FieldError(Password) => PasswordRule(form.password)
    case FieldError(ConfirmPassword) => ConfirmRule(form.password, form.confirmPassword)
    case FieldError(Role) => None
    case TermsError => if agreed then None else Some(TermsRequired)
  }

  /** Writes `value` into the named field (the role radio buttons write `role`). */
  function SetField(form: Form, f: Field, value: string): Form {
    match f
    case Name => form.(name := value)
    case Email => form.(email := value)
    case Password => form.(password := value)
    case ConfirmPassword => form.(confirmPassword := value)
    case Role => form.(role := value)
  }

  /** The value the named field holds. */
  function Get(form: Form, f: Field): string {
    match f
    case Name => form.name
    case Email => form.email
    case Password => form.password
    case ConfirmPassword => form.confirmPassword
    case Role => form.role
  }

  /** `handleChange`: the named field takes the value and no other field changes; that
      field's message is blanked and the store's error cleared. */
  function HandleChange(s: State, f: Field, value: string): (r: Step<State, Effect>)
    ensures Get(r.state.form, f) == value
    ensures forall g :: g != f ==> Get(r.state.form, g) == Get(s.form, g)
    ensures r.state.agreedToTerms == s.agreedToTerms
    ensures r.state.errors.Keys == s.errors.Keys
    ensures FieldError(f) in r.state.errors ==> r.state.errors[FieldError(f)] == ""
    ensures forall k :: k in s.errors && k != FieldError(f) ==> r.state.errors[k] == s.errors[k]
    ensures r.effects == [ClearAuthError]
  {
    Step(State(SetField(s.form, f, value), s.agreedToTerms, ClearField(s.errors, FieldError(f))), [ClearAuthError])
  }

  /** The terms checkbox: its state follows the box and nothing else changes. */
  function SetTerms(s: State, checked: bool): (r: State)
    ensures r.agreedToTerms == checked
    ensures r.form == s.form && r.errors == s.errors
  {
    s.(agreedToTerms := checked)
  }

  /** `const { confirmPassword, ...userData } = formData`. */
  function Payload(form: Form): (d: UserData)
    ensures d.name == form.name && d.email == form.email
    ensures d.password == form.password && d.role == form.role
  {
    UserData(form.name, form.email, form.password, form.role)
  }

  /** `handleSubmit` with `outcome` the result `register` resolves to: `register` gets
      the form without the confirmation, and only for an acceptable registration; the
      page moves to '/dashboard' only when that call succeeds. */
  function HandleSubmit(s: State, outcome: AuthResult): (r: Step<State, Effect>)
    ensures r.state == s.(errors := Validate(s.form, s.agreedToTerms))
    ensures (exists d :: CallRegister(d) in r.effects) <==> Acceptable(s.form, s.agreedToTerms)
    ensures forall d :: CallRegister(d) in r.effects ==>
              d == UserData(s.form.name, s.form.email, s.form.password, s.form.role)
    ensures Navigate("/dashboard") in r.effects <==> Acceptable(s.form, s.agreedToTerms) && outcome.success
    ensures forall p :: Navigate(p) in r.effects ==> p == "/dashboard"
    ensures ClearAuthError !in r.effects
  {
    var errors := Validate(s.form, s.agreedToTerms);
    var s' := s.(errors := errors);
    if !NoErrors(errors) then Step(s', [])
    else
      var call := CallRegister(Payload(s.form));
      assert call in [call];
      if outcome.success then Step(s', [call, Navigate("/dashboard")]) else Step(s', [call])
  }

  /** Applies a sequence of typing events. */
  function Replay(s: State, edits: seq<(Field, string)>): State
    decreases |edits|
  {
    if edits == [] then s else Replay(HandleChange(s, edits[0].0, edits[0].1).state, edits[1..])
  }

  /** A user who never touches the role buttons registers as 'member'. */
  lemma {:induction false} RoleDefaultsToMember(s: State, edits: seq<(Field, string)>)
    requires s.form.role == "member"
    requires forall i :: 0 <= i < |edits| ==> edits[i].0 != Role
    ensures Replay(s, edits).form.role == "member"
    decreases |edits|
  {
    if edits != [] {
      var next := HandleChange(s, edits[0].0, edits[0].1).state;
      assert Get(next.form, Role) == Get(s.form, Role);
      RoleDefaultsToMember(next, edits[1..]);
    }
  }

  /** In particular, from the initial page. */
  lemma InitialRoleIsMember(edits: seq<(Field, string)>)
    requires forall i :: 0 <= i < |edits| ==> edits[i].0 != Role
    ensures Payload(Replay(Initial, edits).form).role == "member"
  {
    RoleDefaultsToMember(Initial, edits);
  }
}

=== FILE: reset_password.dfy ===
/** The page reached from a reset link: a new password, its confirmation, the live
    requirement checklist, and the call to `resetPassword(token, password)`, whose outcome
    is an input. The route token is '' when the link carried none. */
module ResetPasswordPage {
  import opened Common
  import opened Text
  import opened Validation

  datatype Field = Password | ConfirmPassword

  datatype Form = Form(password: string, confirmPassword: string)

  datatype State = State(form: Form, errors: Errors<Field>, isSuccess: bool, error: string, loading: bool)

  datatype Effect =
    | Navigate(path: string)
    | CallResetPassword(token: string, password: string)

  const Initial := State(Form("", ""), map[], false, "", false)

  const CompositionRequired :=
    "Password must contain at least one uppercase letter, one lowercase letter, and one number"

  predicate IsLower(c: char) { 'a' <= c <= 'z' }
  predicate IsUpper(c: char) { 'A' <= c <= 'Z' }
  /** `\d`: ASCII digits only. */
  predicate IsDigit(c: char) { '0' <= c <= '9' }

  /** `.*` followed by a class character, from position `p`: some position `q >= p` holds
      a character of the class and no line terminator lies in between (`.` does not
      match one). */
  predicate ReachesFrom(s: string, p: int, cls: char -> bool) {
    0 <= p && exists q | p <= q < |s| :: cls(s[q]) && NoLineTerminatorIn(s, p, q)
  }

  predicate NoLineTerminatorIn(s: string, from: int, to: int)
    requires 0 <= from <= to <= |s|
  {
    forall m :: from <= m < to ==> !IsLineTerminator(s[m])
  }

  /** The three lookaheads of `/(?=.*[a-z])(?=.*[A-Z])(?=.*\d)/` all succeed at `p`. */
  predicate LookaheadsAt(s: string, p: int) {
    0 <= p <= |s| && ReachesFrom(s, p, IsLower) && ReachesFrom(s, p, IsUpper) && ReachesFrom(s, p, IsDigit)
  }

  /** `/(?=.*[a-z])(?=.*[A-Z])(?=.*\d)/.test(s)`: the unanchored pattern succeeds at some position. */
  predicate Composition(s: string) {
    exists p | 0 <= p <= |s| :: LookaheadsAt(s, p)
  }

  /** Some character of `s` is in the class: what a single-lookahead checklist test
      such as `/(?=.*[a-z])/` decides. */
  predicate Has(s: string, cls: char -> bool) {
    exists q | 0 <= q < |s| :: cls(s[q])
  }

  /** A single lookahead succeeds somewhere exactly when the string has a character of
      its class (try it at that very character). */
  lemma SingleLookaheadIsHas(s: string, cls: char -> bool)
    ensures (exists p | 0 <= p <= |s| :: ReachesFrom(s, p, cls)) <==> Has(s, cls)
  {
    if Has(s, cls) {
      var q :| 0 <= q < |s| && cls(s[q]);
      assert NoLineTerminatorIn(s, q, q);
      assert ReachesFrom(s, q, cls);
    }
  }

  predicate SingleLine(s: string) {
    forall m :: 0 <= m < |s| ==> !IsLineTerminator(s[m])
  }

  /** On a single line the combined pattern is exactly "a lowercase letter, an uppercase
      letter and a digit", the three checklist items. */
  lemma CompositionOnOneLine(s: string)
    requires SingleLine(s)
    ensures Composition(s) <==> Has(s, IsLower) && Has(s, IsUpper) && Has(s, IsDigit)
  {
    if Composition(s) {
      var p :| 0 <= p <= |s| && LookaheadsAt(s, p);
      var a :| p <= a < |s| && IsLower(s[a]) && NoLineTerminatorIn(s, p, a);
      var b :| p <= b < |s| && IsUpper(s[b]) && NoLineTerminatorIn(s, p, b);
      var c :| p <= c < |s| && IsDigit(s[c]) && NoLineTerminatorIn(s, p, c);
      assert IsLower(s[a]) && IsUpper(s[b]) && IsDigit(s[c]);
    }
    if Has(s, IsLower) && Has(s, IsUpper) && Has(s, IsDigit) {
      var a :| 0 <= a < |s| && IsLower(s[a]);
      var b :| 0 <= b < |s| && IsUpper(s[b]);
      var c :| 0 <= c < |s| && IsDigit(s[c]);
      assert NoLineTerminatorIn(s, 0, a) && NoLineTerminatorIn(s, 0, b) && NoLineTerminatorIn(s, 0, c);
      assert LookaheadsAt(s, 0);
    }
  }

  /** Across a line break the two notions differ: every checklist item is met, yet no
      single position sees all three classes before a line terminator. */
  lemma LineBreakSplitsComposition()
    ensures Has("aB\n1xyz", IsLower) && Has("aB\n1xyz", IsUpper) && Has("aB\n1xyz", IsDigit)
    ensures !Composition("aB\n1xyz")
  {
    var s := "aB\n1xyz";
    assert IsLower(s[0]) && IsUpper(s[1]) && IsDigit(s[3]);
    forall p | 0 <= p <= |s| ensures !LookaheadsAt(s, p) {
      if p <= 2 {
        forall q | p <= q < |s| && IsDigit(s[q]) ensures !NoLineTerminatorIn(s, p, q) {
          assert q == 3 && IsLineTerminator(s[2]);
        }
      } else {
        forall q | p <= q < |s| ensures !IsUpper(s[q]) { }
      }
    }
  }

  /** The four checklist items shown under the password field. */
  datatype Checklist = Checklist(longEnough: bool, lower: bool, upper: bool, digit: bool)

  function ChecklistOf(password: string): (c: Checklist)
    ensures c.longEnough <==> JsLength(password) >= 6
    ensures c.lower <==> exists p | 0 <= p <= |password| :: ReachesFrom(password, p, IsLower)
    ensures c.upper <==> exists p | 0 <= p <= |password| :: ReachesFrom(password, p, IsUpper)
    ensures c.digit <==> exists p | 0 <= p <= |password| :: ReachesFrom(password, p, IsDigit)
  {
    SingleLookaheadIsHas(password, IsLower);
    SingleLookaheadIsHas(password, IsUpper);
    SingleLookaheadIsHas(password, IsDigit);
    Checklist(JsLength(password) >= 6, Has(password, IsLower), Has(password, IsUpper), Has(password, IsDigit))
  }

  predicate AllChecked(c: Checklist) {
    c.longEnough && c.lower && c.upper && c.digit
  }

  /** The password chain: empty, then shorter than six, then the composition pattern. */
  function PasswordVerdict(password: string): (v: Option<string>)
    ensures v == Some(PasswordRequired) <==> password == ""
    ensures v == Some(PasswordTooShort) <==> 0 < JsLength(password) < 6
    ensures v == Some(CompositionRequired) <==> JsLength(password) >= 6 && !Composition(password)
    ensures v == None <==> JsLength(password) >= 6 && Composition(password)
  {
    if password == "" then Some(PasswordRequired)
    else if JsLength(password) < 6 then Some(PasswordTooShort)
    else if !Composition(password) then Some(CompositionRequired)
    else None
  }

  /** For a single-line password, no password message is shown exactly when the whole
      checklist is green. */
  lemma NoPasswordErrorIffChecklist(password: string)
    requires SingleLine(password)
    ensures PasswordVerdict(password).None? <==> AllChecked(ChecklistOf(password))
  {
    CompositionOnOneLine(password);
  }

  /** The form the page accepts. */
  predicate Acceptable(form: Form) {
    JsLength(form.password) >= 6 && Composition(form.password) && form.confirmPassword == form.password
  }

  function Verdict(form: Form, f: Field): Option<string> {
    match f
    case Password => PasswordVerdict(form.password)
    case ConfirmPassword => ConfirmRule(form.password, form.confirmPassword)
  }

  /** `validateForm`. */
  function Validate(form: Form): (r: Errors<Field>)
    ensures Password in r <==> JsLength(form.password) < 6 || !Composition(form.password)
    ensures Password in r ==>
              r[Password] == (if form.password == "" then PasswordRequired
                              else if JsLength(form.password) < 6 then PasswordTooShort
                              else CompositionRequired)
    ensures ConfirmPassword in r <==> form.confirmPassword == "" || form.confirmPassword != form.password
    ensures ConfirmPassword in r ==>
              r[ConfirmPassword] == if form.confirmPassword == "" then ConfirmRequired else PasswordsDiffer
    ensures NoErrors(r) <==> Acceptable(form)
  {
    var verdict := f => Verdict(form, f);
    var r := FromVerdicts({Password, ConfirmPassword}, verdict);
    assert verdict(Password) == PasswordVerdict(form.password);
    assert verdict(ConfirmPassword) == ConfirmRule(form.password, form.confirmPassword);
    r
  }

  /** The mount effect: without a token the page sends the user to '/forgot-password'. */
  function OnMount(token: string): (effects: seq<Effect>)
    ensures Navigate("/forgot-password") in effects <==> token == ""
    ensures forall e :: e in effects ==> e.Navigate?
  {
    if token == "" then [Navigate("/forgot-password")] else []
  }

  function Get(form: Form, f: Field): string {
    match f
    case Password => form.password
    case ConfirmPassword => form.confirmPassword
  }

  function SetField(form: Form, f: Field, value: string): (r: Form)
    ensures Get(r, f) == value
    ensures forall g :: g != f ==> Get(r, g) == Get(form, g)
  {
    match f
    case Password => form.(password := value)
    case ConfirmPassword => form.(confirmPassword := value)
  }

  /** `handleChange`: the field takes the value, its message is blanked and the page's
      error line is emptied; success and loading are untouched. */
  function HandleChange(s: State, f: Field, value: string): (r: State)
    ensures Get(r.form, f) == value
    ensures forall g :: g != f ==> Get(r.form, g) == Get(s.form, g)
    ensures r.errors.Keys == s.errors.Keys
    ensures f in r.errors ==> r.errors[f] == ""
    ensures forall k :: k in s.errors && k != f ==> r.errors[k] == s.errors[k]
    ensures r.error == ""
    ensures r.isSuccess == s.isSuccess && r.loading == s.loading
  {
    s.(form := SetField(s.form, f, value), errors := ClearField(s.errors, f), error := "")
  }

  /** `handleSubmit` for route token `token`, with `outcome` the result `resetPassword`
      resolves to. A rejected form only refreshes the messages. Otherwise the call is
      made with the token and the new password; success shows the success view, failure
      shows the store's message, and loading ends false either way. */
  function HandleSubmit(s: State, token: string, outcome: AuthResult): (r: Step<State, Effect>)
    ensures r.state.errors == Validate(s.form) && r.state.form == s.form
    ensures !Acceptable(s.form) ==> r.state == s.(errors := Validate(s.form)) && r.effects == []
    ensures Acceptable(s.form) ==> r.effects == [CallResetPassword(token, s.form.password)]
    ensures Acceptable(s.form) ==> !r.state.loading
    ensures Acceptable(s.form) ==> r.state.isSuccess == (outcome.success || s.isSuccess)
    ensures Acceptable(s.form) ==> r.state.error == if outcome.success then "" else outcome.error
  {
    var errors := Validate(s.form);
    if !NoErrors(errors) then Step(s.(errors := errors), [])
    else
      var s' := s.(errors := errors, loading := true, error := "");
      var s'' := if outcome.success then s'.(isSuccess := true) else s'.(error := outcome.error);
      Step(s''.(loading := false), [CallResetPassword(token, s.form.password)])
  }
}

=== FILE: settings.dfy ===
/** The settings page: a record of seventeen preferences edited one key at a time, a
    reset to the defaults, the merge of the server's copy fetched on mount, and the save
    with its three-second status line. The outcomes of the two requests are inputs. */
module SettingsPage {
  import opened Common
  import opened Text
  import opened JsNumbers

  /** A preference value: a switch, a choice among labels, or a number of minutes. The
      minutes are a JavaScript number because the timeout input stores `parseInt` of
      its text, which is NaN once the field is cleared. */
  datatype Value = Switch(on: bool) | Choice(option: string) | Minutes(count: Number)

  /** The property names of the settings object: the seventeen the page shows, and
      any other name a fetched copy may bring, which is kept like the rest. `Other`
      never carries one of the seventeen names: a fetched copy's known properties are
      read into their own constructors. */
  datatype Key =
    | EmailNotifications | PushNotifications | EventReminders | WeeklyDigest | MarketingEmails
    | ProfileVisibility | ShowEmail | ShowPhone | ShowLocation
    | Theme | Language | FontSize
    | TwoFactorAuth | LoginAlerts | SessionTimeout
    | DataRetention | AutoDelete
    | Other(name: string)

  type Settings = map<Key, Value>

  /** The initial state, which `handleReset` also restores. */
  const Defaults: Settings := map[
    EmailNotifications := Switch(true),
    PushNotifications := Switch(true),
    EventReminders := Switch(true),
    WeeklyDigest := Switch(true),
    MarketingEmails := Switch(false),
    ProfileVisibility := Choice("public"),
    ShowEmail := Switch(false),
    ShowPhone := Switch(false),
    ShowLocation := Switch(false),
    Theme := Choice("dark"),
    Language := Choice("en"),
    FontSize := Choice("medium"),
    TwoFactorAuth := Switch(false),
    LoginAlerts := Switch(true),
    SessionTimeout := Minutes(Finite(30.0)),
    DataRetention := Choice("1year"),
    AutoDelete := Switch(false)]

  /** The status line's colour. */
  datatype MessageType = NoType | Success | Error

  datatype State = State(settings: Settings, loading: bool, message: string, messageType: MessageType)

  datatype Effect =
    | PutSettings(settings: Settings)
    /** The page empties the status line three seconds after a save. */
    | ClearMessageLater

  const Initial := State(Defaults, false, "", NoType)

  const Saved := "Settings saved successfully!"
  const SaveFailed := "Failed to save settings"

  /** `handleSettingChange(key, value)`: that key takes the value; every other key keeps
      its value and no key disappears. */
  function Change(s: State, key: Key, value: Value): (r: State)
    ensures key in r.settings && r.settings[key] == value
    ensures r.settings.Keys == s.settings.Keys + {key}
    ensures forall k :: k in s.settings && k != key ==> r.settings[k] == s.settings[k]
    ensures r.loading == s.loading && r.message == s.message && r.messageType == s.messageType
  {
    s.(settings := s.settings[key := value])
  }

  /** The session-timeout input's `onChange`: the preference takes `parseInt` of the
      typed text, so a cleared field stores NaN rather than keeping the old value. */
  function ChangeTimeout(s: State, text: string): (r: State)
    ensures r.settings.Keys == s.settings.Keys + {SessionTimeout}
    ensures r.settings[SessionTimeout] == Minutes(ParseInt(text))
    ensures Blank(text) ==> r.settings[SessionTimeout] == Minutes(NaN)
    ensures PlainDigits(text) ==> r.settings[SessionTimeout] == Minutes(Finite(DigitsValue(text, 10) as real))
    ensures forall k :: k in s.settings && k != SessionTimeout ==> r.settings[k] == s.settings[k]
  {
    PlainDigitsParseIntIfDigits(text);
    Change(s, SessionTimeout, Minutes(ParseInt(text)))
  }

  /** `parseInt` of plain digits is their value (a case split for `ChangeTimeout`). */
  lemma PlainDigitsParseIntIfDigits(text: string)
    ensures PlainDigits(text) ==> ParseInt(text) == Finite(DigitsValue(text, 10) as real)
  {
    if PlainDigits(text) {
      PlainDigitsParseInt(text);
    }
  }

  /** Clearing the timeout field and saving sends NaN for the timeout: nothing between
      the input and the request checks the value. */
  lemma ClearedTimeoutIsSent(s: State, saved: bool)
    ensures HandleSave(ChangeTimeout(s, ""), saved).effects[0].settings[SessionTimeout] == Minutes(NaN)
  {
  }

  /** `handleReset`: the settings become the defaults; nothing else changes. */
  function Reset(s: State): (r: State)
    ensures r.settings == Defaults
    ensures r.loading == s.loading && r.message == s.message && r.messageType == s.messageType
  {
    s.(settings := Defaults)
  }

  /** Resetting twice is resetting once, and a reset forgets every change before it. */
  lemma ResetIdempotent(s: State, key: Key, value: Value)
    ensures Reset(Reset(s)) == Reset(s)
    ensures Reset(Change(s, key, value)) == Reset(s)
  {
  }

  /** The defaults name exactly the seventeen preferences the page shows. */
  lemma DefaultsNameEveryPreference()
    ensures forall k :: k in Defaults <==> !k.Other?
    ensures Defaults[SessionTimeout] == Minutes(Finite(30.0)) && Defaults[Theme] == Choice("dark")
  {
  }

  /** `{...base, ...data}`: every fetched key takes the fetched value, every other key
      keeps the base value. */
  function Merge(base: Settings, data: Settings): (r: Settings)
    ensures r.Keys == base.Keys + data.Keys
    ensures forall k :: k in data ==> r[k] == data[k]
    ensures forall k :: k in base && k !in data ==> r[k] == base[k]
  {
    base + data
  }

  /** The mount-time fetch, with `fetched` the server's copy or None when the request
      fails. The handler spreads the settings it captured at mount, which are the
      defaults, so a success replaces whatever was changed meanwhile; a failure changes
      nothing. */
  function ApplyFetch(s: State, fetched: Option<Settings>): (r: State)
    ensures fetched.None? ==> r == s
    ensures fetched.Some? ==> r == s.(settings := Merge(Defaults, fetched.value))
  {
    match fetched
    case None => s
    case Some(data) => s.(settings := Merge(Defaults, data))
  }

  /** A fetched copy that holds only known keys leaves the set of keys unchanged. */
  lemma FetchKeepsKnownKeys(s: State, data: Settings)
    requires data.Keys <= Defaults.Keys
    ensures ApplyFetch(s, Some(data)).settings.Keys == Defaults.Keys
  {
  }

  /** `handleSave` with `saved` whether `PUT /users/settings` succeeded: the settings
      are sent as they stand, the status line and its colour report the outcome, the
      line is scheduled to clear, and loading ends false. */
  function HandleSave(s: State, saved: bool): (r: Step<State, Effect>)
    ensures r.effects == [PutSettings(s.settings), ClearMessageLater]
    ensures r.state.settings == s.settings && !r.state.loading
    ensures saved ==> r.state.message == Saved && r.state.messageType == Success
    ensures !saved ==> r.state.message == SaveFailed && r.state.messageType == Error
  {
    var s' := s.(loading := true);
    var s'' := if saved then s'.(message := Saved, messageType := Success)
               else s'.(message := SaveFailed, messageType := Error);
    Step(s''.(loading := false), [PutSettings(s.settings), ClearMessageLater])
  }

  /** The timer the save schedules. */
  function ClearMessage(s: State): (r: State)
    ensures r.message == "" && r.settings == s.settings && r.messageType == s.messageType
  {
    s.(message := "")
  }

  /** Without a signed-in user the page shows only "Access Denied". */
  function Render(isAuthenticated: bool): (v: View)
    ensures v == AccessDenied <==> !isAuthenticated
    ensures v == Content <==> isAuthenticated
  {
    Gate(isAuthenticated)
  }
}

=== FILE: text.dfy ===
/** String helpers with the meaning the JavaScript built-ins give them: the whitespace
    set of `\s` and `String.prototype.trim`, substring search (`includes`) and
    case folding (`toLowerCase`, restricted to ASCII letters). */
module Text {

  /** ECMAScript LineTerminator code points; `.` in a regular expression matches none of them. */
  predicate IsLineTerminator(c: char) {
    c == '\n' || c == '\r' || c == '\U{2028}' || c == '\U{2029}'
  }

  /** ECMAScript WhiteSpace and LineTerminator code points: what `\s` matches and
      what `trim` removes. */
  predicate IsSpace(c: char) {
    || IsLineTerminator(c)
    || c == '\t' || c == '\U{000B}' || c == '\U{000C}' || c == ' '
    || c == '\U{00A0}' || c == '\U{1680}'
    || ('\U{2000}' <= c <= '\U{200A}')
    || c == '\U{202F}' || c == '\U{205F}' || c == '\U{3000}' || c == '\U{FEFF}'
  }

  /** Every character is whitespace (the empty string included). */
  predicate Blank(s: string) {
    forall i :: 0 <= i < |s| ==> IsSpace(s[i])
  }

  /** `trimStart`: drops the leading whitespace and nothing else (see `TrimStartFacts`). */
  function TrimStart(s: string): (r: string)
    ensures |r| <= |s|
  {
    if s != "" && IsSpace(s[0]) then TrimStart(s[1..]) else s
  }

  /** `trimEnd`: drops the trailing whitespace and nothing else (see `TrimEndFacts`). */
  function TrimEnd(s: string): (r: string)
    ensures |r| <= |s|
  {
    if s != "" && IsSpace(s[|s| - 1]) then TrimEnd(s[..|s| - 1]) else s
  }

  /** `trim`: whitespace dropped at both ends (see `TrimIsInfix`). */
  function Trim(s: string): (r: string)
    ensures |r| <= |s|
  {
    TrimEnd(TrimStart(s))
  }

  /** `trimStart` keeps a suffix that does not start with whitespace, and what it
      dropped is all whitespace. */
  lemma {:induction false} TrimStartFacts(s: string)
    ensures TrimStart(s) == s[|s| - |TrimStart(s)|..]
    ensures TrimStart(s) == "" || !IsSpace(TrimStart(s)[0])
    ensures Blank(s[..|s| - |TrimStart(s)|])
    decreases |s|
  {
    if s != "" && IsSpace(s[0]) {
      TrimStartFacts(s[1..]);
      var k := |s| - |TrimStart(s)|;
      assert s[1..][..k - 1] == s[1..k];
      assert forall i :: 1 <= i < k ==> s[i] == s[1..][..k - 1][i - 1];
    }
  }

  /** `trimEnd` keeps a prefix that does not end with whitespace, and what it dropped
      is all whitespace. */
  lemma {:induction false} TrimEndFacts(s: string)
    ensures TrimEnd(s) == s[..|TrimEnd(s)|]
    ensures TrimEnd(s) == "" || !IsSpace(TrimEnd(s)[|TrimEnd(s)| - 1])
    ensures Blank(s[|TrimEnd(s)|..])
    decreases |s|
  {
    if s != "" && IsSpace(s[|s| - 1]) {
      var p := s[..|s| - 1];
      TrimEndFacts(p);
      var k := |TrimEnd(s)|;
      assert p[..k] == s[..k];
      assert forall i :: k <= i < |s| - 1 ==> s[i] == p[k..][i - k];
    }
  }

  /** `trim` keeps a contiguous infix whose end characters are not whitespace, and
      only whitespace was dropped around it. */
  lemma TrimIsInfix(s: string)
    ensures exists a, b :: 0 <= a <= b <= |s| && Trim(s) == s[a..b]
                             && Blank(s[..a]) && Blank(s[b..])
    ensures Trim(s) == "" || (!IsSpace(Trim(s)[0]) && !IsSpace(Trim(s)[|Trim(s)| - 1]))
  {
    var t := TrimStart(s);
    TrimStartFacts(s);
    TrimEndFacts(t);
    var a := |s| - |t|;
    var b := a + |TrimEnd(t)|;
    assert t == s[a..];
    assert TrimEnd(t) == t[..b - a] == s[a..b];
    assert t[b - a..] == s[b..];
    if TrimEnd(t) != "" {
      assert TrimEnd(t)[0] == t[0];
    }
  }

  /** A string trims to '' exactly when it is whitespace only: the `!x.trim()` test. */
  lemma TrimEmptyIffBlank(s: string)
    ensures Trim(s) == "" <==> Blank(s)
  {
    var t := TrimStart(s);
    TrimStartFacts(s);
    TrimEndFacts(t);
    var a := |s| - |t|;
    assert t == s[a..];
    if !Blank(s) {
      var i :| 0 <= i < |s| && !IsSpace(s[i]);
      assert t[i - a] == s[i];
    }
  }

  /** Trimming twice is trimming once. */
  lemma TrimIdempotent(s: string)
    ensures Trim(Trim(s)) == Trim(s)
  {
    var t := Trim(s);
    TrimIsInfix(s);
    assert TrimStart(t) == t;
    assert TrimEnd(t) == t;
  }

  /** A non-empty string with no whitespace at either end: what `trim` leaves of a
      non-blank string. */
  predicate Clean(s: string) {
    s != "" && !IsSpace(s[0]) && !IsSpace(s[|s| - 1])
  }

  /** A string is clean exactly when trimming leaves it as it is and it is not blank. */
  lemma CleanIffTrimmedNonBlank(s: string)
    ensures Clean(s) <==> Trim(s) == s && !Blank(s)
  {
    TrimIsInfix(s);
    TrimEmptyIffBlank(s);
    if Clean(s) {
      assert TrimStart(s) == s;
      assert TrimEnd(s) == s;
    }
  }

  /** Trimming a non-blank string gives a clean one. */
  lemma TrimIsClean(s: string)
    requires !Blank(s)
    ensures Clean(Trim(s))
  {
    TrimIsInfix(s);
    TrimEmptyIffBlank(s);
  }

  /** JavaScript's `s.length`: the number of UTF-16 code units, one for a character up
      to U+FFFF and two (a surrogate pair) for any character beyond. */
  function JsLength(s: string): (n: nat)
    ensures |s| <= n <= 2 * |s|
    ensures n == 0 <==> s == ""
  {
    if s == "" then 0 else (if s[0] as int >= 0x10000 then 2 else 1) + JsLength(s[1..])
  }

  /** ASCII `toLowerCase` of one character. */
  function LowerChar(c: char): char {
    if 'A' <= c <= 'Z' then (c as int + 32) as char else c
  }

  /** `toLowerCase`, ASCII letters only: the same length, each character folded. */
  function Lower(s: string): (r: string)
    ensures |r| == |s|
    ensures forall i :: 0 <= i < |s| ==> r[i] == LowerChar(s[i])
  {
    if s == "" then "" else [LowerChar(s[0])] + Lower(s[1..])
  }

  /** `hay.includes(needle)`: `needle` occurs at some offset of `hay`. */
  predicate Contains(hay: string, needle: string) {
    exists i | 0 <= i <= |hay| - |needle| :: OccursAt(hay, needle, i)
  }

  /** `needle` occurs in `hay` starting at offset `i`. */
  predicate OccursAt(hay: string, needle: string, i: int) {
    0 <= i <= |hay| - |needle| && hay[i..i + |needle|] == needle
  }

  /** The case-insensitive search of the list pages:
      `text.toLowerCase().includes(term.toLowerCase())`. */
  predicate MatchesTerm(text: string, term: string) {
    Contains(Lower(text), Lower(term))
  }

  /** An empty search term matches every text (`includes('')` is true). */
  lemma EmptyTermMatchesAll(text: string)
    ensures MatchesTerm(text, "")
  {
    assert OccursAt(Lower(text), Lower(""), 0);
  }

  /** A text always matches itself, whatever the case of its letters. */
  lemma TextMatchesItself(text: string)
    ensures MatchesTerm(text, text)
  {
    assert OccursAt(Lower(text), Lower(text), 0);
  }
}

=== FILE: validation.dfy ===
/** The error-map discipline all the forms follow, and the field rules more than one
    form uses. A form's `validateForm` starts from `{}` and stores at most one message
    per field, the first failing test of an `if / else if` chain; the form is valid iff
    no key was stored. */
module Validation {
  import opened Common
  import opened Text
  import opened EmailRegex

  /** The `errors` state object: field to message. Each page names its fields by a
      datatype of its own rather than by the JavaScript property-name strings. */
  type Errors<K> = map<K, string>

  /** `if (<verdict is a message>) newErrors[key] = message`. */
  function Put<K(!new)>(errors: Errors<K>, key: K, verdict: Option<string>): (r: Errors<K>)
    ensures key in r <==> key in errors || verdict.Some?
    ensures verdict.Some? ==> r[key] == verdict.value
    ensures forall k :: k != key ==> (k in r <==> k in errors) && (k in errors ==> r[k] == errors[k])
  {
    if verdict.Some? then errors[key := verdict.value] else errors
  }

  /** A single test with a single message: the message exactly when the test fails. */
  function When(fails: bool, message: string): (v: Option<string>)
    ensures v.Some? <==> fails
    ensures v.Some? ==> v.value == message
  {
    if fails then Some(message) else None
  }

  /** The map `validateForm` builds from the verdict of each of its field chains: a key
      is present exactly when its chain produced a message. */
  function FromVerdicts<K(!new)>(keys: set<K>, verdict: K -> Option<string>): (r: Errors<K>)
    ensures forall k :: k in r <==> k in keys && verdict(k).Some?
    ensures forall k :: k in r ==> r[k] == verdict(k).value
    ensures NoErrors(r) <==> forall k :: k in keys ==> verdict(k).None?
  {
    var r := map k | k in keys && verdict(k).Some? :: verdict(k).value;
    NoErrorsIffNoKey(r);
    r
  }

  /** `Object.keys(newErrors).length === 0`. */
  predicate NoErrors<K>(errors: Errors<K>) {
    |errors| == 0
  }

  /** A map is empty iff it has no key. */
  lemma NoErrorsIffNoKey<K>(errors: Errors<K>)
    ensures NoErrors(errors) <==> errors.Keys == {}
  {
    if errors.Keys == {} {
      assert errors == map[];
    }
  }

  /** What typing into field `name` does to the error map:
      `if (errors[name]) setErrors(prev => ({...prev, [name]: ''}))`. A message under
      `name` is blanked; no key is added or removed and no other entry changes. */
  function ClearField<K>(errors: Errors<K>, name: K): (r: Errors<K>)
    ensures r.Keys == errors.Keys
    ensures name in r ==> r[name] == ""
    ensures forall k :: k in errors && k != name ==> r[k] == errors[k]
  {
    if name in errors && errors[name] != "" then errors[name := ""] else errors
  }

  const EmailRequired := "Email is required"
  const EmailInvalid := "Email is invalid"

  /** The email rule of Login, Register, Profile and Contact: empty is "required", a
      failed pattern test is "invalid", otherwise no message. */
  function EmailRule(email: string): (v: Option<string>)
    ensures v == Some(EmailRequired) <==> email == ""
    ensures v == Some(EmailInvalid) <==> email != "" && !EmailPattern(email)
    ensures v == None <==> email != "" && EmailPattern(email)
  {
    if email == "" then Some(EmailRequired)
    else if !EmailPattern(email) then Some(EmailInvalid)
    else None
  }

  const PasswordRequired := "Password is required"
  const PasswordTooShort := "Password must be at least 6 characters"

  /** The password rule of Login and Register: empty is "required", fewer than six
      characters is "too short", six or more passes. */
  function PasswordRule(password: string): (v: Option<string>)
    ensures v == Some(PasswordRequired) <==> password == ""
    ensures v == Some(PasswordTooShort) <==> 0 < JsLength(password) < 6
    ensures v == None <==> JsLength(password) >= 6
  {
    if password == "" then Some(PasswordRequired)
    else if JsLength(password) < 6 then Some(PasswordTooShort)
    else None
  }

  /** Length is counted in UTF-16 code units, as `.length` does: three characters
      outside the Basic Multilingual Plane make a long enough password. */
  lemma AstralPasswordIsLongEnough()
    ensures PasswordRule("\U{1F600}\U{1F600}\U{1F600}") == None
  {
    var p := "\U{1F600}\U{1F600}\U{1F600}";
    assert p[1..][1..] == "\U{1F600}" && p[1..][1..][1..] == "";
    assert JsLength(p) == 6;
  }

  const ConfirmRequired := "Please confirm your password"
  const PasswordsDiffer := "Passwords do not match"

  /** The confirmation rule of Register and ResetPassword: empty is "please confirm",
      different from the password is "do not match". */
  function ConfirmRule(password: string, confirm: string): (v: Option<string>)
    ensures v == Some(ConfirmRequired) <==> confirm == ""
    ensures v == Some(PasswordsDiffer) <==> confirm != "" && confirm != password
    ensures v == None <==> confirm != "" && confirm == password
  {
    if confirm == "" then Some(ConfirmRequired)
    else if password != confirm then Some(PasswordsDiffer)
    else None
  }

  /** `if (!value.trim()) newErrors[key] = required`: only blank input is rejected. */
  function RequiredRule(value: string, required: string): (v: Option<string>)
    ensures v.None? <==> !Blank(value)
    ensures v.Some? ==> v.value == required
  {
    TrimEmptyIffBlank(value);
    if Trim(value) == "" then Some(required) else None
  }

  /** `if (!value.trim()) required else if (value.trim().length < min) tooShort`. */
  function MinLengthRule(value: string, min: nat, required: string, tooShort: string): (v: Option<string>)
    requires required != tooShort
    ensures v == Some(required) <==> Blank(value)
    ensures v == Some(tooShort) <==> !Blank(value) && JsLength(Trim(value)) < min
    ensures v == None <==> JsLength(Trim(value)) >= min && (min > 0 || !Blank(value))
  {
    TrimEmptyIffBlank(value);
    if Trim(value) == "" then Some(required)
    else if JsLength(Trim(value)) < min then Some(tooShort)
    else None
  }
}
